=== FILE: README.md ===
# em2 core, modelled in Dafny

em2 ("email 2.0") is a conversation platform. A conversation has participants, each with a
permission (full, write, comment, read), and a thread of messages. Every change is an
*action*: an actor, at some time, applies a verb (add, edit, delete, lock, unlock,
publish, ...) to a component (conversations, messages, participants). The **Controller**
routes each action to the handler for its component and verb. The handler checks
permissions, locks and consistency with the item's last event, then changes the
conversation store. The Controller then records the event and, unless the conversation is
a draft or the action came from another platform, hands it to the propagator. A **pusher**
finds the platform (node) serving each participant's domain, with a cache of earlier
answers. It sends actions to remote em2 nodes, and to an email **fallback** for addresses
whose platform does not run em2.

The project has these modules:

| file | module | models |
|---|---|---|
| common.dfy | `Common`, `Strings` | values, items, errors, `Result`/`Outcome`; decimal rendering and parsing of integers |
| interactions.dfy | `Interactions` | `Action` and `Retrieval` (em2/core/interactions.py) |
| store.dfy | `Store` | the in-memory data store, a conversation's handle on it, and the generic `export` and `add_multiple_components` (tests/tools/fixture_classes/simple_datastore.py, em2/data_store.py) |
| components.dfy | `Components`, `Messages`, `Participants` | the message and participant handlers (em2/core/components.py) |
| base.dfy | `Base` | the `Controller` and `Conversations` (em2/base.py) |
| push.dfy | `Push` | the pusher's node lookup with its cache, `_send`'s sorting of the nodes, and authentication tokens (em2/comms/push.py) |
| fallback.dfy | `Fallback` | the email a fallback push sends (em2/fallback/__init__.py) |

The stores, the handle and the controller are classes whose fields the methods update in
place. The pusher is a class too. Its Redis store is the field `cache`, a map from key to
value and expiry. Checks, table operations, dispatch, the thread check, export and
formatting are functions. Each loop of the source that updates variables is a method with
a `while` loop, proved equal to a specification function: `GetConv`, `GetParticipant`,
`Export`, `AddMultipleComponents`, `ValidateThread`, `GetNodes` and `GetFromToBcc`.

Things outside the core are parameters:
- `hash_id`, SHA-1 or SHA-256 over the joined arguments, is the function value `Hasher`, and nothing is assumed about it;
- the clock is a `now` argument;
- the DNS lookup `get_node` (an optional node) and the direct authentication `_authenticate_direct` are functions passed in, and the pusher logs each call made to them;
- the RSA signature is a function passed in;
- the propagator is the Controller's log `propagated`.

## Model

| member | source | states |
|---|---|---|
| Strings.IndexOf | em2/comms/push.py:88 | `str.index`: found iff the character occurs, and then at its first occurrence |
| Strings.ParseInt | em2/comms/push.py:146 | `int()` of a decimal literal with an optional sign; nothing parses from an empty string |
| Strings.ParseIntRoundTrip | em2/comms/push.py:124 | a timestamp written in decimal, as in `'{}:{}'.format(...)`, parses back to the same integer |
| Interactions.EventIdOf | em2/core/interactions.py:60-69 | a remote action's event id is the one it carries; a local action's id is `calc_event_id` |
| Interactions.NewActionDefaults | em2/core/interactions.py:48-66 | a new action is on conversations, with no item, time or parent event; it is local; the conversation is known unless the verb is add |
| Interactions.CalcEventIdDeterministic | em2/core/interactions.py:68-69 | the event id depends only on time, address, conversation, verb, component and item |
| Interactions.Action.IsRemote | em2/core/interactions.py:60-62 | an action is remote exactly when it carries an event id |
| Interactions.Action.KnownConversation | em2/core/interactions.py:64-66 | every action except adding a conversation acts on a known conversation |
| Interactions.Action.CalcEventId | em2/core/interactions.py:68-69 | the SHA-1 hash of timestamp, address, conversation, verb, component and item |
| Interactions.Retrieval.IsRemote | em2/core/interactions.py:92-94 | a retrieval is remote exactly when it was built as remote |
| Interactions.Retrieval.KnownConversation | em2/core/interactions.py:96-98 | only listing and searching conversations needs no known conversation |
| Interactions.NewRetrievalDefaults | em2/core/interactions.py:84-98 | a retrieval is local unless told otherwise; the conversation is unknown exactly for list and search |
| Store.Without | tests/tools/fixture_classes/simple_datastore.py:128-133 | removing a key from the order keeps every other key, and a list without repeats stays without repeats |
| Store.Table.Put | tests/tools/fixture_classes/simple_datastore.py:115-122 | setting an OrderedDict entry replaces the row; a new key goes last and an existing key keeps its place |
| Store.Table.Remove | tests/tools/fixture_classes/simple_datastore.py:128-133 | deleting an entry removes exactly that row |
| Store.Table.Values | tests/tools/fixture_classes/simple_datastore.py:145-147 | `list(data.values())` lists one row per key, in insertion order |
| Store.PutKeepsValid | tests/tools/fixture_classes/simple_datastore.py:115-122 | after a put, the key order still lists each row exactly once |
| Store.RemoveKeepsValid | tests/tools/fixture_classes/simple_datastore.py:128-133 | after a delete, the key order still lists each row exactly once |
| Store.AddItem | tests/tools/fixture_classes/simple_datastore.py:115-122 | adding succeeds iff the model is participants or an id is given, else KeyError; a participant gets the next counter value and the counter advances; the row is the keyword arguments with that id; other tables are unchanged |
| Store.EditItem | tests/tools/fixture_classes/simple_datastore.py:124-126 | editing succeeds iff the item exists, else ComponentNotFound; given fields are overwritten, the others kept; key order, other rows and other tables are unchanged |
| Store.DeleteItem | tests/tools/fixture_classes/simple_datastore.py:128-133 | deleting succeeds iff the item exists, else ComponentNotFound; exactly that row goes and other tables are unchanged |
| Store.LockKeysOfDifferentModelsDiffer | tests/tools/fixture_classes/simple_datastore.py:135-143 | `'{model}:{id}'` lock keys of different models never collide |
| Store.LastEventOf | em2/core/components.py:160-163 | no last event iff no recorded update concerns the item; otherwise the id and time of the newest update that does |
| Store.MessageMeta | tests/tools/fixture_classes/simple_datastore.py:151-156 | a missing message gives ComponentNotFound; otherwise the message's author and timestamp |
| Store.FindParticipant | tests/tools/fixture_classes/simple_datastore.py:160-165 | the id and permissions of the first participant with the address; ComponentNotFound iff none has it; KeyError for a row without the fields |
| Store.AddressLookupKeys | em2/data_store.py:40-44 | the participant lookup has a key for exactly the participants' ids |
| Store.AddressLookupLastWins | em2/data_store.py:40-44 | each id maps to the address of its last participant row |
| Store.RewriteAuthors | em2/data_store.py:46-48 | succeeds iff every message's author is in the lookup, else KeyError; each message is kept with its author replaced by the address |
| Store.ExportOf | em2/data_store.py:36-59 | the export holds the core properties, one (address, permissions) pair per participant and every message with its author as an address, in order; KeyError iff a participant lacks a field or an author is unknown |
| Store.AddAllParticipantsTable | em2/data_store.py:107-109 | adding participants one by one never fails; it advances the counter by their number, appends them to the participants table and leaves other tables alone |
| Store.AppendParticipantsMeaning | em2/data_store.py:107-109 | appended participants get consecutive ids starting at the counter, each row is its data with that id, and earlier rows are kept |
| Store.AddAllStops | em2/data_store.py:107-109 | the first failing add stops the loop, so later items change nothing |
| Store.RewriteAuthorsStops | em2/data_store.py:47-48 | an unknown author anywhere makes the whole rewrite fail |
| Store.ConvRecord.constructor | tests/tools/fixture_classes/simple_datastore.py:33-39 | a new record has the given properties, a zero participant counter, no updates, locks or tables, and no expiry |
| Store.SimpleStore.constructor | tests/tools/fixture_classes/simple_datastore.py:26-29 | a new store holds no conversations and its counter is zero |
| Store.SimpleStore.CreateConversation | tests/tools/fixture_classes/simple_datastore.py:31-40 | the new conversation takes the next counter value as key; only that entry is added, as a fresh record with the given properties |
| Store.SimpleStore.GetConv | tests/tools/fixture_classes/simple_datastore.py:55-59 | returns the first record, in key order, with the conversation id; ConversationNotFound iff there is none |
| Store.SimpleStore.NewConvDs | em2/data_store.py:21-22 | a fresh handle on the store, for the id, holding the record `get_conv` finds; ConversationNotFound iff there is none |
| Store.ConvHandle.constructor | tests/tools/fixture_classes/simple_datastore.py:74-76 | the handle keeps the store, the conversation id and the record |
| Store.ConvHandle.GetCoreProperties | tests/tools/fixture_classes/simple_datastore.py:78-79 | the record's timestamp, status, ref and subject |
| Store.ConvHandle.CheckComponentLocked | tests/tools/fixture_classes/simple_datastore.py:142-143 | locked exactly when the item's `model:id` key is in the locked set |
| Store.ConvHandle.GetAllComponentItems | tests/tools/fixture_classes/simple_datastore.py:145-147 | the component's rows in insertion order, and none for a component with no table |
| Store.ConvHandle.GetMessageMeta | tests/tools/fixture_classes/simple_datastore.py:151-156 | ComponentNotFound for an unknown message; otherwise the stored message's author and timestamp |
| Store.ConvHandle.GetStatus | em2/data_store.py:84-86 | the status read among the core properties is the record's own, so it reads back what `set_status` wrote |
| Store.ConvHandle.GetRef | em2/data_store.py:93-95 | the ref read among the core properties is the record's own, so it reads back what `set_ref` wrote |
| Store.ConvHandle.SaveEvent | tests/tools/fixture_classes/simple_datastore.py:81-89 | appends one update holding actor, verb, component, item, data, time and event id |
| Store.ConvHandle.SetPublishedId | tests/tools/fixture_classes/simple_datastore.py:91-96 | the old id becomes the draft id; the new id and time are set; of the core properties only the timestamp changes |
| Store.ConvHandle.SetStatus | tests/tools/fixture_classes/simple_datastore.py:100-101 | the status becomes the given one and `get_status` reads it back; the other core properties are unchanged |
| Store.ConvHandle.SetRef | tests/tools/fixture_classes/simple_datastore.py:105-106 | the ref becomes the given one and `get_ref` reads it back; the other core properties are unchanged |
| Store.ConvHandle.SetSubject | tests/tools/fixture_classes/simple_datastore.py:110-111 | the subject becomes the given one and `get_subject` reads it back; the other core properties are unchanged |
| Store.ConvHandle.AddComponent | tests/tools/fixture_classes/simple_datastore.py:115-122 | the tables and the counter become those of `AddItem`, and the new id is returned; on KeyError nothing changes |
| Store.ConvHandle.EditComponent | tests/tools/fixture_classes/simple_datastore.py:124-126 | the tables become those of `EditItem`; on ComponentNotFound nothing changes |
| Store.ConvHandle.DeleteComponent | tests/tools/fixture_classes/simple_datastore.py:128-133 | the tables become those of `DeleteItem`; on ComponentNotFound nothing changes |
| Store.ConvHandle.LockComponent | tests/tools/fixture_classes/simple_datastore.py:135-137 | succeeds iff the item exists, adding its lock key; otherwise ComponentNotFound and the locks are unchanged |
| Store.ConvHandle.UnlockComponent | tests/tools/fixture_classes/simple_datastore.py:139-140 | succeeds iff the lock key is held, removing it; otherwise KeyError and the locks are unchanged |
| Store.ConvHandle.GetFirstMessage | em2/base.py:220-221 | the first message in insertion order; an error iff there are no messages |
| Store.ConvHandle.GetParticipant | tests/tools/fixture_classes/simple_datastore.py:160-165 | the loop's result equals `FindParticipant` over the participants in order |
| Store.ConvHandle.Export | em2/data_store.py:36-59 | the two loops' result equals `ExportOf` of the record's core properties, participants and messages |
| Store.ConvHandle.AddMultipleComponents | em2/data_store.py:107-109 | the tables and counter are those after adding each item in turn; the result fails iff some add failed, with that add's error |
| Store.ExportParticipants | em2/data_store.py:40-44 | builds the id-to-address lookup and the (address, permissions) list, and reports whether every row has the fields |
| Store.ExportMessages | em2/data_store.py:46-48 | the loop's result equals `RewriteAuthors` |
| Components.NotAfter | em2/core/components.py:99 | comparing two times is defined iff both are integers (else TypeError), and then it is `<=` |
| Messages.CheckPermissions | em2/core/components.py:144-151 | passes iff the actor has full permission, or write permission and is the message's author; a missing message's error is passed on; otherwise InsufficientPermissions |
| Messages.CheckConsistency | em2/core/components.py:160-169 | passes iff the item has no event, or the action's parent event is the last event and the action is strictly later; a wrong parent gives DataConsistency, a timestamp not after the last event's BadData, a missing timestamp TypeError |
| Messages.CheckLocked | em2/core/components.py:153-158 | passes iff the item is unlocked, a parent event is given and the consistency check passes; a lock gives ComponentLocked, a missing parent BadData |
| Messages.MayModify | em2/core/components.py:116-117 | the permission check and the lock check pass together iff each of their conditions holds |
| Messages.MayModifyMeans | em2/core/components.py:144-169 | after the checks pass, the actor may write the message, it is unlocked, and the parent event is the newest event on the item |
| Messages.CheckAdd | em2/core/components.py:95-100 | adding passes iff the actor has full or write permission, the parent message exists and the action is strictly after it; otherwise InsufficientPermissions, the parent lookup's error, BadData for a timestamp not after the parent's, or TypeError for a missing timestamp, in that order |
| Messages.AddedId | em2/core/components.py:102-112 | a remote message keeps the item id it came with; a local one gets the hash of address, time, body and parent |
| Messages.Add | em2/core/components.py:94-113 | answer and tables are `AddOf`'s: on a failed check nothing changes; otherwise the message row, with author, time, body and parent, is put under its id, and the event data is the parent and body |
| Messages.AddOf | em2/core/components.py:94-113 | `add` succeeds iff its checks pass; then only the messages table changes, the stored row is the message under its id, a remote message keeps the item it came with, and only the item changes in the action; otherwise the check's error with the tables unchanged |
| Messages.AddBasic | em2/core/components.py:82-92 | puts the message under the hash of address, time, body and parent, and returns that id |
| Messages.Edit | em2/core/components.py:115-119 | answer and tables are `EditOf`'s: on a failed check or a missing message nothing changes; otherwise only the body changes, and the event carries it |
| Messages.EditOf | em2/core/components.py:115-119 | `edit` succeeds iff the checks pass and the message exists; then only that message's body becomes the new one and every other row and table is kept; otherwise the tables are unchanged |
| Messages.DeltaEdit | em2/core/components.py:121-122 | always a TypeError, because `NotImplemented` cannot be called |
| Messages.Delete | em2/core/components.py:124-128 | answer and tables are `DeleteOf`'s: on a failed check or a missing message nothing changes; otherwise exactly that message is removed |
| Messages.DeleteOf | em2/core/components.py:124-128 | `delete` succeeds iff the checks pass and the message exists; then exactly that row leaves the messages table and other tables are kept; otherwise the tables are unchanged |
| Messages.Lock | em2/core/components.py:130-134 | on a failed check nothing changes; a missing message gives ComponentNotFound; otherwise its lock key is added; answer and locks are `LockOf`'s |
| Messages.LockOf | em2/core/components.py:130-134 | `lock` succeeds iff the checks pass and the message exists; then its key, not locked before, joins the locks; otherwise the locks are unchanged |
| Messages.MayUnlock | em2/core/components.py:136-140 | unlocking passes iff the permission check passes, the message is locked and the consistency check passes; an unlocked message gives ComponentNotLocked |
| Messages.Unlock | em2/core/components.py:136-142 | on a failed check nothing changes; otherwise the lock key is removed; answer and locks are `UnlockOf`'s |
| Messages.UnlockOf | em2/core/components.py:136-142 | `unlock` succeeds iff its checks pass; then the message's key, locked before, leaves the locks; otherwise the locks are unchanged |
| Messages.LockUnlockRoundTrip | em2/core/components.py:130-142 | a successful `lock`, then an `unlock` of the same message whose checks pass, answers Ok and gives back the locks as they were; the message was not locked before |
| Messages.UnlockNotLocked | em2/core/components.py:136-139 | unlocking a message that is not locked, with permissions that pass, gives ComponentNotLocked and changes nothing |
| Messages.LockTwiceRefused | em2/core/components.py:130-134 | a message just locked cannot be locked again: ComponentLocked once permissions pass |
| Messages.ThreadCheck | em2/core/components.py:61-73 | a first message without a parent field gives KeyError and one with a parent MisshapedData, whatever follows; any rejected thread fails with MisshapedData, BadData, ComponentNotFound, KeyError or TypeError |
| Messages.ThreadStep | em2/core/components.py:65-73 | a message is accepted iff its id is new, its parent is known and it is strictly later than its parent; it is then recorded with its time; otherwise, in source order, KeyError for a missing id, BadData for a repeated id, KeyError for a missing parent field, ComponentNotFound for an unknown parent, KeyError for a missing timestamp, BadData for a time not after the parent's, TypeError for a time that is not a number |
| Messages.ThreadCheckAcceptsWellFormed | em2/core/components.py:57-73 | the check accepts a thread iff it is well formed: the first message has no parent, ids are distinct, and each later message follows an earlier parent strictly later in time; what it builds is the map from id to time |
| Messages.WellFormedThreadAccepted | em2/core/components.py:61-73 | every well-formed thread is accepted |
| Messages.AcceptedThreadWellFormed | em2/core/components.py:61-73 | every accepted thread is well formed |
| Messages.ValidateThread | em2/core/components.py:61-73 | the loop's result equals `ThreadCheck` |
| Messages.ThreadCheckStops | em2/core/components.py:65-72 | the first rejected message decides the result |
| Messages.AuthorIds | em2/core/components.py:75-76 | the address-to-id map exists iff every participant has an address and an id, else KeyError |
| Messages.RewriteAuthorIds | em2/core/components.py:77-78 | succeeds iff every author address is known, else KeyError; each message keeps its fields, with its author replaced by the id |
| Messages.AddMultipleOf | em2/core/components.py:57-80 | no data means nothing to add; otherwise it succeeds iff the thread is well formed, the participants' address-to-id lookup can be built and every author is a known address; a malformed thread gives the validation's error; what is stored is each message with its author address replaced by that participant's id, in order |
| Messages.AddMultiple | em2/core/components.py:57-80 | no data changes nothing; a rejected thread or unknown author changes nothing; otherwise the tables are those after adding, one by one, the messages `AddMultipleOf` rewrites with author ids |
| Messages.AddAllWithIds | em2/data_store.py:107-109 | adding messages that all have ids never fails and leaves the participant counter alone |
| Participants.CheckAdd | em2/core/components.py:197-200 | passes iff the actor has full or write permission and a write actor does not grant full permission; else InsufficientPermissions |
| Participants.CheckDelete | em2/core/components.py:212-217 | passes iff the actor has full or write permission, the participant exists and a write actor is not removing a full one; the result is the participant's id |
| Participants.AddParticipant | em2/core/components.py:222-227 | the participant row, with address and permissions, is put under the next counter value, and the counter advances |
| Participants.AddFirst | em2/core/components.py:191-194 | the first participant is added with full permission under the next counter value |
| Participants.Add | em2/core/components.py:196-207 | answer, tables and counter are `AddOf`'s: on a failed check nothing changes; otherwise the participant is added under the next counter value, which becomes the action's item and the result |
| Participants.AddOf | em2/core/components.py:196-207 | `add` succeeds iff its checks pass; then the row with address, permissions and id is stored under the counter's value, which is item and result, and the counter advances; otherwise InsufficientPermissions with nothing changed |
| Participants.Delete | em2/core/components.py:209-220 | answer and tables are `DeleteOf`'s: on a failed check, an unknown address or a missing row nothing changes; otherwise exactly that participant's row is removed |
| Participants.DeleteOf | em2/core/components.py:209-220 | a failed check gives its error with the tables unchanged; a success removes exactly the row of the participant the checks found and keeps the other tables |
| Participants.PreparedParticipants | em2/core/components.py:188 | one `{address, permissions}` item per pair, in order |
| Participants.AddMultiple | em2/core/components.py:181-189 | the participants are appended with consecutive ids starting at the counter, the counter advances by their number, and other tables are unchanged |
| Base.Dispatch | em2/base.py:100-114 | a found handler matches the component and the verb; an error means no handler does; ComponentNotFound iff the component is unknown, else VerbNotFound |
| Base.DispatchReachesEveryTarget | em2/base.py:100-114 | every verb method of every component is reachable |
| Base.PrepareUnlessAddingConversation | em2/base.py:116-118 | the action is prepared for every handler except adding a conversation |
| Base.Bind | em2/base.py:119-120 | a call binds iff the keyword arguments are exactly the method's parameters, else TypeError |
| Base.StrArg | em2/base.py:177-185 | a string argument is read iff present with a string value, else TypeError |
| Base.IntArg | em2/base.py:182 | a timestamp argument is read iff present with an integer value; anything else has no `isoformat`, an AttributeError |
| Base.AsEm2 | em2/base.py:119-122 | a TypeError from a handler becomes Em2TypeError; other results pass unchanged |
| Base.SubdictKeys | em2/base.py:131-132 | a key is in the sub-dictionary iff some argument starting with a selected letter has it after its two-letter prefix |
| Base.SubdictValue | em2/base.py:131-132 | the value is that of the last such argument |
| Base.Subdict | em2/base.py:131-132 | the sub-dictionary has at most one entry per keyword argument |
| Base.SaveAndPropagateSplit | em2/base.py:145-152 | `b_` data is both saved and propagated, `s_` data saved, `p_` data propagated |
| Base.PublishedDataSplit | em2/base.py:222-223 | publishing saves no data and propagates the subject, time and body |
| Base.Controller.constructor | em2/base.py:81-91 | the controller holds the store and the hash, and has propagated nothing |
| Base.Controller.Event | em2/base.py:134-153 | saves one update with the `s`/`b` data and the event id; propagates the `p`/`b` data, at the given time or now, iff the action is local and the conversation is not a draft |
| Base.Controller.CreateInternal | em2/base.py:187-206 | one new record with the hashed id, creator, subject, status and time; the creator is the only participant, and the body, when given, is the only message |
| Base.Controller.Create | em2/base.py:173-175 | creates a draft at the current time, with the hashed id; when no record had that id, the creator is the only participant, with full permission, and a given body is the only message |
| Base.Controller.AddConversation | em2/base.py:177-185 | BadHash iff the hash of creator, time and subject differs from the conversation id, with nothing created; otherwise a pending conversation with that id, creator, time and subject is created; when no record had the id it succeeds, the creator is its only participant, with FULL, and the body, when given, its only message |
| Base.Controller.Publish | em2/base.py:208-223 | the conversation becomes active, with the current time and a new hashed id, and the draft id is kept; the add event carrying subject, time and first body is recorded and propagated |
| Base.Controller.Announce | em2/base.py:218-223 | the add event for the published conversation is saved and propagated with the subject, time and first message's body |
| Base.Controller.Invoke | em2/base.py:119-120 | a call with wrong arguments is a TypeError; for an engine verb, the answer, tables, counter and locks are `EngineOf`'s; a failed verb records nothing; a successful one records one update with the action's `s_`/`b_` data and event id, and propagates its `p_`/`b_` data at `now` iff the action is local and the conversation not a draft |
| Base.Controller.PerformAndRecord | em2/base.py:120 | the engine verb's effect is `EngineOf`'s; a success records and propagates its event as `event` does at `now`, a failure neither |
| Base.Controller.PerformKeepingValid | em2/base.py:120 | the engine's answer and effect on the conversation are `EngineOf`'s, and the store stays well formed |
| Base.Controller.Record | em2/base.py:135-153 | `event` with no timestamp: one update with the `s_`/`b_` data; the `p_`/`b_` data is propagated at `now` iff the action is local and the conversation not a draft |
| Base.Controller.Act | em2/base.py:93-122 | an unknown component or verb changes nothing and gives that error; an unknown conversation gives ConversationNotFound and an actor who is not a participant ComponentNotFound, with nothing changed; arguments that do not fit the verb give Em2TypeError, a non-timestamp to `Conversations.add` AttributeError; a bare TypeError never leaves; at most one event is propagated |
| Base.Controller.ActOnConversation | em2/base.py:116-122 | after `prepare`: an unknown conversation or actor gives that error with nothing changed; arguments that do not fit give Em2TypeError; at most one event is propagated |
| Base.Controller.Prepare | em2/base.py:57-59 | the handle is on the oldest conversation with the action's id, and the action takes the actor's id and permissions found there; ConversationNotFound without such a conversation, ComponentNotFound without such an actor |
| Base.Controller.AddConversationWith | em2/base.py:177-205 | arguments of the wrong names give TypeError, a timestamp that is not one AttributeError, a subject that is not a string TypeError, each creating nothing; otherwise BadHash iff the hash does not match, creating nothing; with a matching hash and no record under the id, a pending conversation with the given subject and time, the creator as its only FULL participant and the body as its only message; nothing is propagated |
| Base.Perform | em2/base.py:112-122 | the message and participant verbs: answer, tables, counter and locks are `EngineOf`'s; arguments that do not fit give TypeError, `delta_edit` always does; a failed verb changes nothing; a successful one reports the same action, at most with its item filled in |
| Base.EngineOf | em2/base.py:112-122 | the verb's engine function decides (`AddOf`, `EditOf`, `DeleteOf`, `LockOf`, `UnlockOf`, participants' `AddOf`/`DeleteOf`); unfit arguments and `delta_edit` give TypeError; a failure changes nothing; only lock and unlock touch the locks and leave the tables; only participants' add moves the counter; only the item of the action may change |
| Base.CreateRecord | em2/base.py:188-199 | one new record with the given properties; when no other record has the id, its creator is the only participant and there are no messages |
| Base.MarkPublished | em2/base.py:210-216 | status active, id the hash of actor, time and subject, time now, draft id the old id |
| Base.AddFirstMessage | em2/base.py:201-205 | on a new conversation, the body becomes its only message, authored by the creator, with no parent |
| Base.AddCreator | em2/base.py:198-199 | on an empty record, the creator becomes the only participant |
| Base.FindCreator | em2/base.py:203-204 | preparing the creator's action finds the creator as participant 0 with full permission |
| Base.AddCreatorMessage | em2/base.py:201-205 | with the creator as only participant and no messages, the body becomes the only message |
| Push.GetDomain | em2/comms/push.py:84-88 | the domain is what follows the first '@'; ValueError iff there is none |
| Push.GetDomainOf | em2/comms/push.py:84-88 | the domain of `local@domain` is `domain` |
| Push.KeysApart | em2/comms/push.py:31-34 | a `dn:` key never equals an `ak:` key, and each domain has its own key |
| Push.ScanStep | em2/comms/push.py:104-119 | one address: a stop keeps the cache and nodes and records the address's error; otherwise its domain is checked, looked up iff neither checked nor cached, and its node added |
| Push.ScanNodes | em2/comms/push.py:99-120 | `get_nodes` looks up at most one domain per address |
| Push.ScanNodesInvariant | em2/comms/push.py:99-120 | after any prefix of the addresses, only cache misses have been looked up, each once; every checked domain's node is cached; no other key changed; the nodes are those of the checked domains |
| Push.ScanNodesStops | em2/comms/push.py:104-118 | `get_nodes` stops iff some address has no '@' or has an uncached domain whose lookup answers None |
| Push.ScanNodesStopError | em2/comms/push.py:104-118 | a stopped `get_nodes` raises the error of the first address that stops it: ValueError without '@', else AttributeError |
| Push.StopError | em2/comms/push.py:88-118 | an address without '@' raises ValueError, one whose node is None AttributeError |
| Push.ScanNodesChecked | em2/comms/push.py:104-108 | a domain is checked iff some address has it |
| Push.ScanStaysFailed | em2/comms/push.py:104-118 | after an error, later addresses change nothing |
| Push.ScanNodesMeaning | em2/comms/push.py:99-120 | for addresses none of which stops it, the result is the node of each distinct domain; a cached domain is not looked up and keeps its entry; a missing one is looked up exactly once and cached under `dn:` with the DNS expiry; other keys are unchanged |
| Push.RemoteNodes | em2/comms/push.py:69 | the remote em2 nodes are the nodes other than local and fallback |
| Push.NodesPartition | em2/comms/push.py:69-74 | every node is remote, local or fallback, and the fallback test is membership |
| Push.FallbackSubject | em2/comms/push.py:77 | the subject is the data's when it is truthy, else the stored one |
| Push.SplitToken | em2/comms/push.py:145 | `token.split(':', 2)` unpacked into three names, ValueError with fewer than two ':' (its meaning is stated by SplitTokenParts and SplitTokenTwoColons) |
| Push.SplitTokenParts | em2/comms/push.py:145 | `split(':', 2)` gives three parts that join back to the token, the first two without ':' |
| Push.SplitTokenTwoColons | em2/comms/push.py:145 | the split succeeds whenever the token has two ':' |
| Push.TokenExpiry | em2/comms/push.py:145-146 | the expiry is read iff the token splits and its second field is an integer, else ValueError |
| Push.TokenExpiryOf | em2/comms/push.py:145-146 | a token `platform:expiry:rest` gives back its expiry |
| Push.AuthMessageParts | em2/comms/push.py:123-124 | the platform and the time can be read back from the signed message |
| Push.GetAuthData | em2/comms/push.py:122-134 | the data names the local platform and the current time, and the signature is over `platform:time` |
| Push.Pusher.constructor | em2/comms/push.py:36-43 | the pusher keeps the DNS and early-token expiries and the cache, and has made no calls |
| Push.Pusher.GetNodes | em2/comms/push.py:99-120 | the loop's result, cache and lookup log equal `ScanNodes`'s, and its error is the one that stopped the scan |
| Push.Pusher.Visit | em2/comms/push.py:104-119 | one pass of the `get_nodes` loop moves the nodes, checked domains, cache and lookup log exactly as `ScanStep`, and returns the error that stops the loop |
| Push.Pusher.Send | em2/comms/push.py:61-79 | pushes to exactly the remote nodes; calls the fallback iff some node is the fallback, with the chosen subject; the error of `get_nodes` when it stops |
| Push.Pusher.Authenticate | em2/comms/push.py:136-149 | the result and cache equal `AuthenticateOf`'s; the node is asked directly iff no token is cached |
| Push.AuthenticateOf | em2/comms/push.py:136-149 | only the node's `ak:` key may change, and only to the fresh token, which is then the result; a token without expiry is ValueError with the cache unchanged |
| Push.AuthenticateReuses | em2/comms/push.py:140-142 | a cached token is reused and nothing changes |
| Push.AuthenticateStores | em2/comms/push.py:143-147 | a fresh token is cached until its expiry less the early margin, and the next call reuses it |
| Push.AuthenticateRefuses | em2/comms/push.py:145 | a token without the expiry field is refused with ValueError and not cached |
| Fallback.OthersMeaning | em2/fallback/__init__.py:35-39 | the recipients are the other addresses, each as often as it occurs |
| Fallback.OthersAppend | em2/fallback/__init__.py:35-39 | the recipients keep the order of the addresses |
| Fallback.GetFromToBcc | em2/fallback/__init__.py:31-40 | the sender is the actor iff among the addresses; the recipients are the others, in order; no blind copies |
| Fallback.Others | em2/fallback/__init__.py:35-39 | the recipients are addresses from the list, never the actor, and no more than the addresses |
| Fallback.FallbackBody | em2/fallback/__init__.py:46-57 | a body exists iff a message is added or a participant added or removed; an added message's body is its own; other verbs give NotImplemented, other components no body |
| Fallback.ParticipantBodyNamesItem | em2/fallback/__init__.py:52-55 | the sentence names the participant between the fixed words |
| Fallback.Trunc6 | em2/fallback/__init__.py:12 | `{conv_id:.6}` is the first six characters, or the whole id when shorter |
| Fallback.PlainFooter | em2/fallback/__init__.py:11-17 | the plain footer opens with the `--` separator line, ends with a line break, and is no longer than with a six-character id |
| Fallback.HtmlFooter | em2/fallback/__init__.py:18-19 | the HTML footer is one small grey paragraph: it opens and closes that paragraph |
| Fallback.PlainFormatParts | em2/fallback/__init__.py:71-72 | the plain email is the body, then the footer, which names the conversation by six characters |
| Fallback.PlainFormat | em2/fallback/__init__.py:71-72 | the plain email starts with the body unchanged, then the `--` separator |
| Fallback.HtmlFooterOfMessage | em2/fallback/__init__.py:18-19 | the HTML footer is the footer message with its line breaks written as `<br>` |
| Fallback.Split | em2/fallback/__init__.py:76 | `split('\n')` gives at least one part, none containing the separator |
| Fallback.JoinSplit | em2/fallback/__init__.py:76 | joining the parts of a split gives back the string |
| Fallback.SplitJoin | em2/fallback/__init__.py:76 | splitting the join of separator-free parts gives back the parts |
| Fallback.ReplaceNewlinesIsJoin | em2/fallback/__init__.py:19 | replacing line breaks is joining the lines with `<br>` |
| Fallback.Paragraphs | em2/fallback/__init__.py:76 | each line becomes its own paragraph, in order |
| Fallback.HtmlFormatLines | em2/fallback/__init__.py:74-77 | the HTML email has one paragraph per line of the body, and the lines join back to the body |
| Fallback.HtmlFormat | em2/fallback/__init__.py:74-77 | the HTML email starts with a paragraph and ends with the HTML footer |
| Fallback.SplitCount | em2/fallback/__init__.py:76 | a split has one more part than the body has line breaks |
| Fallback.Push | em2/fallback/__init__.py:42-66 | the email goes from the actor to the others, under the conversation subject, with the chosen body in plain and HTML with the footer; no body gives its error |

## Left out

- Sending: `_push_em2`, `send_message` and the propagator are external. The model returns the remote nodes, the email and the log of propagations.
- DNS and authentication: `get_node` and `_authenticate_direct` are external and are function parameters. `get_node` answers an optional node, None for a domain without em2.
- Cache expiry: entries carry their expiry (`setex` seconds or `set_exat` time), but lapse over time is not modelled.
- `hash_id`: SHA-1 and SHA-256 are an uninterpreted `Hasher`; collisions are neither assumed nor excluded.
- RSA signing: the signature is a function parameter.
- Concurrency and I/O: `async`, `@concurrent`, connections and logging are not modelled.
- Time zones: times are integer timestamps. The hash receives a timestamp marked as `isoformat()` or `str()` output, without the text itself. A non-integer time in a comparison gives TypeError.
- `itertools.count()` counters are `nat` fields.
- `Conversations.get_by_id` raises NotImplementedError and is not modelled.
- The old `Messages` and `Participants` classes of em2/base.py are not modelled. The Controller routes to the engines of em2/core/components.py, whose names and keyword arguments match.
- Action shape: the Controller uses the action as em2/core/interactions.py defines it. `event` uses `is_remote` for the source's `action.remote`, and the conversation handle for `action.ds`. `save_event` records the action's `participantId` where the in-memory store reads `action.actor_id` (tests/tools/fixture_classes/simple_datastore.py:83), which this `Action` does not have.
- Event ids: `get_item_last_event` is not part of the in-memory store. Each saved update therefore carries its event id: the action's own for a remote action, `calc_event_id` for a local one. The last event of an item is read from the newest such update.
- `save_event` is called with three arguments but the in-memory store takes two. The model records the action's timestamp.
- `_create`: `create_conversation` is called with `con_id`, but the store looks records up by `conv_id`; the model stores the id as the conversation id. The call passes keyword arguments only, while the in-memory store's `create_conversation(self, conn, **kwargs)` (tests/tools/fixture_classes/simple_datastore.py:31) also needs a positional `conn`, so as written it raises TypeError; the model creates the record. The abstract store's `create_conversation` takes a `ref` (em2/data_store.py:14) that `_create` does not pass; the model creates it with no ref. `add_first` is called with the id, and `add_basic` without a parent. The model passes the new conversation's handle, a parent of None, and the conversation's timestamp as the action's time.
- `publish`: `get_first_message` is not part of the in-memory store. The model reads the first message in insertion order, and no message is an error.
- `DeltaEdit`: `raise NotImplemented()` calls a constant, which raises TypeError. `act` turns it into Em2TypeError.
- Keyword arguments: a call with an unexpected or missing keyword argument is a TypeError, which `act` turns into Em2TypeError. A `Conversations.add` timestamp that is not a time has no `isoformat` (em2/base.py:182): an AttributeError, which `act` passes on unchanged.
- Base.StrArg: an argument that is not a string is refused with TypeError, which `act` turns into Em2TypeError. The source checks no argument kinds.
- Base.Controller.Prepare: `Action.prepare` calls `ds.new_con_ds` (em2/base.py:58), but the store defines only `new_conv_ds` (em2/data_store.py:21), so as written every `prepare` raises AttributeError. That covers `act` (em2/base.py:118), the first message of `_create` (em2/base.py:204) and `publish` (em2/base.py:219). The model calls `new_conv_ds`.
- Base.Controller.AddConversationWith: a subject that is not a string gives TypeError, where the source hashes it as it is (em2/base.py:177-185).
- Base.Perform: a participant address that is not a string gives TypeError, where the source stores or compares it as it is (em2/core/components.py:195-218).
- Messages.AddMultiple: the source rewrites `d['author']` in the caller's dictionaries one by one (em2/core/components.py:77-78), so an unknown author leaves the caller's data partly rewritten. The model works on values and leaves the caller's data untouched.
- Base.Controller.CreateInternal: the participants and first message are stated only when no other record already has the hashed conversation id. With a duplicate id the source's `get_conv` reaches the older record, and the contract only bounds the error.
- Base.Controller.Create: the new conversation's participants and first message are stated only when no other record has its id, as for CreateInternal.
- Base.Controller.AddConversation: success, the participants and the first message are stated only when no other record has the conversation id, as for CreateInternal. The same holds for Base.Controller.AddConversationWith.
- Base.Controller.Publish: the recorded and propagated event is stated only when no other record has the new id. Otherwise the new handle may reach an older record.
- Base.Controller.Act: the contract states the routing errors, the lookup of conversation and actor, the argument errors and that at most one event is propagated. What a verb on an existing conversation changes and propagates when it succeeds is stated by Invoke, for the handle and action Prepare returns. What `conversations.add` creates is stated by AddConversationWith. Act's contract restates neither.
- Base.Controller.ActOnConversation: as for Act, a successful verb's effect and propagation are stated by Invoke, for the handle and action Prepare returns, and not restated here.
- Base.Controller.Invoke: for publish, the contract states only the propagation bound. What publish records is in Publish's contract. For the engine verbs the effect, the update and the propagation are stated in full.
- Messages.ThreadCheck: the contract fixes the error of a bad first message and lists the possible errors of any thread. For a later message, the error is stated by ThreadStep's contract for the step that refuses it, and ThreadCheckStops carries that error to the whole thread.
- `_send`: `receiving_participants` is not part of the in-memory store. The model takes the participants' addresses as a parameter.
- `_send` calls the fallback's `push` with positional arguments, but that `push` takes keyword arguments only (em2/fallback/__init__.py:42). The model stops at the arguments `_send` would hand over.
- Fallback action: this `Action` has no `actor`, `body` or `conv_key`, and `Components` has no `MESSAGE` or `PARTICIPANT`. The model takes the first three as fields of the action the fallback receives, and compares against the messages and participants components. An unhandled component leaves `body` unbound: UnboundLocalError.
- `int()` is modelled by a parser that accepts an optional sign and ASCII decimal digits. It is stricter than Python's `int`, which also allows surrounding spaces, underscores and non-ASCII digits.
- `str()` of a value (`Render`, used in the fallback sentences) writes integers in decimal and permissions by name; Python's rendering of other objects is not modelled.
- Markdown rendering (a TODO in the source) is not modelled.

=== FILE: base.dfy ===
/**
 * The Controller and Conversations of em2/base.py: routing an action to
 * the engine that handles its component and verb, recording and
 * propagating the resulting event, and creating and publishing
 * conversations.
 *
 * The Controller routes to the engines of components.dfy. The
 * propagator is external: the model keeps the list of calls made to it.
 */
module Base {

  import opened Common
  import opened Strings
  import opened Interactions
  import opened Store
  import opened Components
  import Messages
  import Participants

  // ---------------------------------------------------------------------------
  // Routing

  /** The verb methods `act` can reach: one per (component, verb) pair that has a method. */
  datatype Target =
    | ConvAdd | ConvPublish
    | MsgAdd | MsgEdit | MsgDeltaEdit | MsgDelete | MsgLock | MsgUnlock
    | PartAdd | PartDelete
  {
    function Component(): string {
      match this
      case ConvAdd | ConvPublish => CONVERSATIONS
      case MsgAdd | MsgEdit | MsgDeltaEdit | MsgDelete | MsgLock | MsgUnlock => MESSAGES
      case PartAdd | PartDelete => PARTICIPANTS
    }

    function Verb(): string {
      match this
      case ConvAdd | MsgAdd | PartAdd => ADD
      case ConvPublish => PUBLISH
      case MsgEdit => EDIT
      case MsgDeltaEdit => DELTA_EDIT
      case MsgDelete | PartDelete => DELETE
      case MsgLock => LOCK
      case MsgUnlock => UNLOCK
    }

    /** The keyword arguments the verb method takes after the action. */
    function Params(): set<string> {
      match this
      case ConvAdd => {"subject", "timestamp", "body"}
      case ConvPublish => {}
      case MsgAdd => {"body", "parent_id"}
      case MsgEdit | MsgDeltaEdit => {"body"}
      case MsgDelete | MsgLock | MsgUnlock => {}
      case PartAdd => {"address", "permissions"}
      case PartDelete => {"address"}
    }
  }

  /** The verbs the Conversations, Messages and Participants handlers have methods for. */
  function ConversationsVerb(verb: string): Option<Target> {
    if verb == ADD then Some(ConvAdd) else if verb == PUBLISH then Some(ConvPublish) else None
  }

  function MessagesVerb(verb: string): Option<Target> {
    if verb == ADD then Some(MsgAdd)
    else if verb == EDIT then Some(MsgEdit)
    else if verb == DELTA_EDIT then Some(MsgDeltaEdit)
    else if verb == DELETE then Some(MsgDelete)
    else if verb == LOCK then Some(MsgLock)
    else if verb == UNLOCK then Some(MsgUnlock)
    else None
  }

  function ParticipantsVerb(verb: string): Option<Target> {
    if verb == ADD then Some(PartAdd) else if verb == DELETE then Some(PartDelete) else None
  }

  /**
   * The routing of `act`: the handler of the component (ComponentNotFound
   * when there is none), then a known verb (VerbNotFound), then the
   * handler's method for it (VerbNotFound when it has none).
   */
  function Dispatch(component: string, verb: string): (r: Result<Target>)
    ensures r.Ok? ==> r.value.Component() == component && r.value.Verb() == verb
    ensures r.Err? ==> forall t: Target :: !(t.Component() == component && t.Verb() == verb)
    ensures r == Err(ComponentNotFound) <==> component !in {CONVERSATIONS, MESSAGES, PARTICIPANTS}
    ensures r.Err? ==> r.error in {ComponentNotFound, VerbNotFound}
  {
    var handler :=
      if component == CONVERSATIONS then Some(ConversationsVerb)
      else if component == MESSAGES then Some(MessagesVerb)
      else if component == PARTICIPANTS then Some(ParticipantsVerb)
      else None;
    if handler.None? then Err(ComponentNotFound)
    else if verb !in VERB_NAMES then Err(VerbNotFound)
    else
      match handler.value(verb)
      case None => Err(VerbNotFound)
      case Some(t) => Ok(t)
  }

  /** Every verb method is reached from its own component and verb names. */
  lemma DispatchReachesEveryTarget(t: Target)
    ensures Dispatch(t.Component(), t.Verb()) == Ok(t)
  {
  }

  /** `prepare` runs for every action except adding a conversation. */
  lemma PrepareUnlessAddingConversation(t: Target)
    ensures (t == ConvAdd) <==> !NewAction("", "", t.Verb(), t.Component()).KnownConversation()
  {
  }

  /** Binding keyword arguments to a verb method: exactly its parameters, else a TypeError. */
  function Bind(t: Target, args: map<string, Value>): (o: Outcome)
    ensures o.Pass? <==> args.Keys == t.Params()
    ensures o.Fail? ==> o.error == TypeError
  {
    if args.Keys == t.Params() then Pass else Fail(TypeError)
  }

  /** A keyword argument that must be a string. */
  function StrArg(args: map<string, Value>, name: string): (r: Result<string>)
    ensures r.Ok? <==> name in args && args[name].Str?
    ensures r.Ok? ==> args[name] == Str(r.value)
  {
    if name in args && args[name].Str? then Ok(args[name].s) else Err(TypeError)
  }

  /**
   * A keyword argument used as a timestamp: anything else has no
   * `isoformat`, an AttributeError, which `act` does not convert.
   */
  function IntArg(args: map<string, Value>, name: string): (r: Result<int>)
    ensures r.Ok? <==> name in args && args[name].Int?
    ensures r.Ok? ==> args[name] == Int(r.value)
    ensures r.Err? ==> r.error == AttributeError
  {
    if name in args && args[name].Int? then Ok(args[name].i) else Err(AttributeError)
  }

  /** A TypeError raised by a verb method leaves `act` as Em2TypeError. */
  function AsEm2<T>(r: Result<T>): (r': Result<T>)
    ensures r'.Ok? <==> r.Ok?
    ensures r.Ok? ==> r' == r
    ensures r.Err? ==> r'.error == (if r.error == TypeError then Em2TypeError else r.error)
  {
    if r.Err? && r.error == TypeError then Err(Em2TypeError) else r
  }

  // ---------------------------------------------------------------------------
  // Event data

  /** `k[2:]` */
  function StripPrefix(k: string): string {
    if |k| >= 2 then k[2..] else ""
  }

  /**
   * `_subdict`: the keyword data whose name starts with one of `first`,
   * under the name without its two-character prefix; for two names that
   * strip to the same key, the later one wins. (Keyword names are never
   * empty, so the empty name, which Python could not index, is skipped.)
   */
  function Subdict(data: seq<(string, Value)>, first: set<char>): (m: map<string, Value>)
    ensures |m| <= |data|
  {
    if data == [] then map[]
    else
      var m := Subdict(data[..|data| - 1], first);
      var (k, v) := data[|data| - 1];
      if k != "" && k[0] in first then m[StripPrefix(k) := v] else m
  }

  predicate Selected(data: seq<(string, Value)>, first: set<char>, i: int, key: string)
    requires 0 <= i < |data|
  {
    data[i].0 != "" && data[i].0[0] in first && StripPrefix(data[i].0) == key
  }

  /** `_subdict` keeps exactly the stripped names of the selected fields. */
  lemma {:induction false} SubdictKeys(data: seq<(string, Value)>, first: set<char>, key: string)
    ensures key in Subdict(data, first) <==> exists i :: 0 <= i < |data| && Selected(data, first, i, key)
  {
    if data != [] {
      var n := |data| - 1;
      var front := data[..n];
      assert forall i :: 0 <= i < n ==> front[i] == data[i];
      SubdictKeys(front, first, key);
      assert Subdict(data, first) == (if data[n].0 != "" && data[n].0[0] in first
        then Subdict(front, first)[StripPrefix(data[n].0) := data[n].1] else Subdict(front, first));
      if Selected(data, first, n, key) {
        assert Selected(data, first, n, key);
      }
      if key in Subdict(front, first) {
        var i :| 0 <= i < n && Selected(front, first, i, key);
        assert Selected(data, first, i, key);
      }
      if exists i :: 0 <= i < |data| && Selected(data, first, i, key) {
        var i :| 0 <= i < |data| && Selected(data, first, i, key);
        if i < n {
          assert Selected(front, first, i, key);
        }
      }
    }
  }

  /** The value kept under a key is that of the last field selected for it. */
  lemma {:induction false} SubdictValue(data: seq<(string, Value)>, first: set<char>, i: nat)
    requires i < |data| && data[i].0 != "" && data[i].0[0] in first
    requires forall j :: i < j < |data| ==> !Selected(data, first, j, StripPrefix(data[i].0))
    ensures StripPrefix(data[i].0) in Subdict(data, first)
    ensures Subdict(data, first)[StripPrefix(data[i].0)] == data[i].1
  {
    var n := |data| - 1;
    var front := data[..n];
    var key := StripPrefix(data[i].0);
    if i < n {
      assert front[i] == data[i];
      forall j | i < j < n
        ensures !Selected(front, first, j, key)
      {
        assert front[j] == data[j];
        assert !Selected(data, first, j, key);
      }
      SubdictValue(front, first, i);
      assert !Selected(data, first, n, key);
    }
  }

  /** A `b_` field is both saved and propagated; an `s_` one only saved; a `p_` one only propagated. */
  lemma SaveAndPropagateSplit(data: seq<(string, Value)>, i: nat)
    requires i < |data| && data[i].0 != ""
    ensures data[i].0[0] == 'b' ==>
      StripPrefix(data[i].0) in Subdict(data, {'s', 'b'}) && StripPrefix(data[i].0) in Subdict(data, {'p', 'b'})
    ensures data[i].0[0] == 's' ==> StripPrefix(data[i].0) in Subdict(data, {'s', 'b'})
    ensures data[i].0[0] == 'p' ==> StripPrefix(data[i].0) in Subdict(data, {'p', 'b'})
  {
    SubdictKeys(data, {'s', 'b'}, StripPrefix(data[i].0));
    SubdictKeys(data, {'p', 'b'}, StripPrefix(data[i].0));
    assert data[i].0[0] in {'s', 'b'} ==> Selected(data, {'s', 'b'}, i, StripPrefix(data[i].0));
    assert data[i].0[0] in {'p', 'b'} ==> Selected(data, {'p', 'b'}, i, StripPrefix(data[i].0));
  }

  /** One call of the propagator: the action, the data it carries and the event time. */
  datatype Propagation = Propagation(action: Action, data: map<string, Value>, timestamp: int)

  /** The conversation id: SHA-256 of creator, time and subject. */
  function ConvId(hash: Hasher, creator: string, timestamp: int, subject: string): string {
    hash(Sha256, [Val(Str(creator)), IsoTime(timestamp), Val(Str(subject))])
  }

  /** The participant item `_create` gives the creator. */
  function CreatorItem(creator: string): Item {
    Participants.ParticipantItem(creator, Perm(Full))["id" := Int(0)]
  }

  /** The message `_create` stores for a body, written by the creator (participant 0). */
  function FirstMessage(hash: Hasher, creator: string, conv: string, timestamp: int, body: Value): Item {
    var a := NewAction(creator, conv, ADD, MESSAGES, timestamp := Some(timestamp))
      .(participantId := Int(0), perm := Perm(Full));
    var id := Str(Messages.MessageId(hash, a, body, Null));
    Messages.MessageItem(id, a, body, Null)
  }

  // ---------------------------------------------------------------------------
  // The controller

  class Controller {
    const ds: SimpleStore
    const hash: Hasher
    /** The calls made to the propagator, oldest first. */
    var propagated: seq<Propagation>

    /** The store is valid, and nothing remote was ever propagated. */
    ghost predicate Valid()
      reads this, ds, ds.data.Values
    {
      ds.AllValid() && LocalOnly()
    }

    /** Nothing remote was ever propagated. */
    ghost predicate LocalOnly()
      reads this
    {
      forall i :: 0 <= i < |propagated| ==> !propagated[i].action.IsRemote()
    }

    constructor (ds: SimpleStore, hash: Hasher)
      requires ds.AllValid()
      ensures Valid() && this.ds == ds && this.hash == hash && propagated == []
    {
      this.ds := ds;
      this.hash := hash;
      propagated := [];
    }

    /**
     * `event`: always saves the `s_`/`b_` data; then, unless the action is
     * remote or the conversation is a draft, propagates the `p_`/`b_` data
     * at the given time or `now`.
     */
    method Event(cds: ConvHandle, a: Action, timestamp: Option<int>, data: seq<(string, Value)>, now: int)
      modifies this`propagated, cds.rec`updates
      ensures cds.rec.updates == old(cds.rec.updates)
        + [Update(a.participantId, a.verb, a.component, a.item, Subdict(data, {'s', 'b'}), a.timestamp, EventIdOf(a, hash))]
      ensures a.IsRemote() || cds.rec.status == Draft ==> propagated == old(propagated)
      ensures !a.IsRemote() && cds.rec.status != Draft ==>
        propagated == old(propagated) + [Propagation(a, Subdict(data, {'p', 'b'}), timestamp.GetOr(now))]
    {
      var ts := timestamp.GetOr(now);
      cds.SaveEvent(a, EventIdOf(a, hash), Subdict(data, {'s', 'b'}));
      if a.IsRemote() {
        return;
      }
      var status := cds.GetStatus();
      if status == Draft {
        return;
      }
      propagated := propagated + [Propagation(a, Subdict(data, {'p', 'b'}), ts)];
    }

    /**
     * `_create`: a new conversation with the creator as its first, FULL,
     * participant and, when a body is given, a first message by the
     * creator at the conversation's time.
     */
    method CreateInternal(creator: string, subject: string, status: Status, timestamp: int, body: Value)
      returns (r: Result<string>)
      requires Valid()
      modifies ds, ds.data.Values`tables, ds.data.Values`participantCounter
      ensures Valid()
      ensures r.Ok? ==> r.value == ConvId(hash, creator, timestamp, subject)
      ensures r.Err? ==> r.error in {ComponentNotFound, KeyError}
      ensures ds.counter == old(ds.counter) + 1 && old(ds.counter) in ds.data
      ensures fresh(ds.data[old(ds.counter)]) && ds.data[old(ds.counter)].Valid()
      ensures var rec := ds.data[old(ds.counter)];
        && rec.convId == ConvId(hash, creator, timestamp, subject) && rec.creator == creator
        && rec.subject == subject && rec.status == status && rec.timestamp == timestamp
        && rec.updates == [] && rec.locked == {}
      ensures !old(ds.HasConv(ConvId(hash, creator, timestamp, subject))) ==>
        var rec := ds.data[old(ds.counter)];
        && r.Ok?
        && Items(rec.tables, PARTICIPANTS) == [CreatorItem(creator)]
        && Items(rec.tables, MESSAGES) ==
             (if body == Null then [] else [FirstMessage(hash, creator, r.value, timestamp, body)])
    {
      var convId := ConvId(hash, creator, timestamp, subject);
      var h, k := CreateRecord(ds, convId, creator, timestamp, subject, status);
      if body != Null {
        var o := AddFirstMessage(ds, hash, k, convId, creator, timestamp, body);
        if o.Fail? {
          return Err(o.error);
        }
      }
      return Ok(convId);
    }

    /** `create`: a new DRAFT conversation created now on this platform. */
    method Create(creator: string, subject: string, body: Value, now: int) returns (r: Result<string>)
      requires Valid()
      modifies ds, ds.data.Values`tables, ds.data.Values`participantCounter
      ensures Valid()
      ensures r.Ok? ==> r.value == ConvId(hash, creator, now, subject)
      ensures ds.counter == old(ds.counter) + 1 && old(ds.counter) in ds.data
      ensures var rec := ds.data[old(ds.counter)];
        && rec.convId == ConvId(hash, creator, now, subject) && rec.status == Draft && rec.timestamp == now
      ensures ds.data[old(ds.counter)].Valid()
      ensures !old(ds.HasConv(ConvId(hash, creator, now, subject))) ==>
        var rec := ds.data[old(ds.counter)];
        && r.Ok?
        && Items(rec.tables, PARTICIPANTS) == [CreatorItem(creator)]
        && Items(rec.tables, MESSAGES) ==
             (if body == Null then [] else [FirstMessage(hash, creator, r.value, now, body)])
    {
      r := CreateInternal(creator, subject, Draft, now, body);
    }

    /**
     * `Conversations.add`: a conversation created on another platform. Its
     * id must be the hash of its creator, time and subject (else BadHash,
     * with nothing stored); it is stored as PENDING.
     */
    method AddConversation(a: Action, subject: string, timestamp: int, body: Value) returns (r: Result<Value>)
      requires Valid()
      modifies ds, ds.data.Values`tables, ds.data.Values`participantCounter
      ensures Valid()
      ensures r == Err(BadHash) <==> ConvId(hash, a.address, timestamp, subject) != a.conv
      ensures r == Err(BadHash) ==> ds.counter == old(ds.counter) && ds.data == old(ds.data)
      ensures r != Err(BadHash) ==>
        && ds.counter == old(ds.counter) + 1 && old(ds.counter) in ds.data
        && var rec := ds.data[old(ds.counter)];
        && rec.convId == a.conv && rec.creator == a.address && rec.status == Pending && rec.timestamp == timestamp
        && rec.subject == subject && rec.updates == [] && rec.locked == {}
      ensures r.Ok? ==> r.value == Null
      ensures r.Err? ==> r.error in {BadHash, ComponentNotFound, KeyError}
      ensures ConvId(hash, a.address, timestamp, subject) == a.conv && !old(ds.HasConv(a.conv)) ==>
        && r.Ok? && old(ds.counter) in ds.data
        && var rec := ds.data[old(ds.counter)];
        && rec.Valid()
        && Items(rec.tables, PARTICIPANTS) == [CreatorItem(a.address)]
        && Items(rec.tables, MESSAGES) ==
             (if body == Null then [] else [FirstMessage(hash, a.address, a.conv, timestamp, body)])
    {
      var check := ConvId(hash, a.address, timestamp, subject);
      if check != a.conv {
        return Err(BadHash);
      }
      var c := CreateInternal(a.address, subject, Pending, timestamp, body);
      if c.Err? {
        return Err(c.error);
      }
      return Ok(Null);
    }

    /**
     * `publish`: the conversation becomes ACTIVE under a new id hashed from
     * the publisher, the time and the subject; then an ADD of the
     * conversation, carrying subject, time and first message body, is
     * recorded and propagated.
     */
    method Publish(cds: ConvHandle, a: Action, now: int) returns (r: Result<Value>)
      requires Valid() && cds.rec in ds.data.Values
      modifies this`propagated, cds.rec`status, cds.rec`draftConvId, cds.rec`convId, cds.rec`timestamp
      modifies ds.data.Values`updates
      ensures Valid()
      ensures cds.rec.status == Active && cds.rec.timestamp == now
      ensures cds.rec.convId == ConvId(hash, a.address, now, old(cds.rec.subject))
      ensures cds.rec.draftConvId == Some(old(cds.rec.convId))
      ensures r.Ok? ==> r.value == Null
      ensures |old(propagated)| <= |propagated| <= |old(propagated)| + 1
      ensures propagated[..|old(propagated)|] == old(propagated)
      ensures cds.rec.Valid()
      ensures old(forall r :: r in ds.data.Values && r != cds.rec ==>
                    r.convId != ConvId(hash, a.address, now, cds.rec.subject)) ==>
        Announced(hash, cds.rec.tables, cds.rec.convId, a.address, old(cds.rec.subject), now, r,
                  old(cds.rec.updates), cds.rec.updates, old(propagated), propagated)
    {
      var subject := cds.GetSubject();
      var newId := MarkPublished(ds, hash, cds, a.address, now);
      var h := ds.NewConvDs(newId);
      assert h.Ok?;
      var ncds := h.value;
      ghost var k :| ds.IsFirst(k, newId) && ds.data[k] == ncds.rec;
      r := Announce(ncds, a.address, subject, now);
      assert forall r :: r in ds.data.Values && r != ncds.rec ==> r.Valid();
    }

    /**
     * The second half of `publish`: the publisher is looked up again in the
     * conversation found under the new id, and its first message's body
     * travels with the recorded ADD of the conversation.
     */
    method Announce(ncds: ConvHandle, address: string, subject: string, now: int) returns (r: Result<Value>)
      requires LocalOnly() && ncds.rec.Valid() && ncds.rec.convId == ncds.conv
      modifies this`propagated, ncds.rec`updates
      ensures LocalOnly()
      ensures r.Ok? ==> r.value == Null
      ensures |old(propagated)| <= |propagated| <= |old(propagated)| + 1
      ensures propagated[..|old(propagated)|] == old(propagated)
      ensures ncds.rec.Valid()
      ensures ncds.rec.status == Active ==>
        Announced(hash, ncds.rec.tables, ncds.conv, address, subject, now, r,
                  old(ncds.rec.updates), ncds.rec.updates, old(propagated), propagated)
    {
      var found := ncds.GetParticipant(address);
      if found.Err? {
        return Err(found.error);
      }
      var na := NewAction(address, ncds.conv, ADD, CONVERSATIONS).(participantId := found.value.0, perm := found.value.1);
      var first := ncds.GetFirstMessage();
      if first.Err? {
        return Err(first.error);
      }
      var body := Field(first.value, "body");
      if body.Err? {
        return Err(body.error);
      }
      var data := [("p_subject", Str(subject)), ("p_timestamp", Int(now)), ("p_body", body.value)];
      PublishedDataSplit(subject, now, body.value);
      Event(ncds, na, Some(now), data, now);
      assert ncds.rec.Valid();
      return Ok(Null);
    }

    /**
     * The call of the verb method once the action is prepared: `publish`,
     * or an engine verb whose event is then recorded with no timestamp of
     * its own (so at `now`). A failed engine verb records nothing; a
     * successful one records exactly one event, by the acting participant,
     * with the action's verb and component.
     */
    method Invoke(cds: ConvHandle, t: Target, a: Action, args: map<string, Value>, now: int)
      returns (r: Result<Value>)
      requires Valid() && cds.rec in ds.data.Values && t != ConvAdd
      modifies this`propagated, ds.data.Values
      ensures Valid()
      ensures Bind(t, args).Fail? ==> r == Err(TypeError) && propagated == old(propagated)
      ensures |old(propagated)| <= |propagated| <= |old(propagated)| + 1
      ensures propagated[..|old(propagated)|] == old(propagated)
      ensures t != ConvPublish && r.Err? ==> cds.rec.updates == old(cds.rec.updates) && propagated == old(propagated)
      ensures t != ConvPublish && r.Ok? ==>
        && |cds.rec.updates| == |old(cds.rec.updates)| + 1
        && cds.rec.updates[..|old(cds.rec.updates)|] == old(cds.rec.updates)
        && var u := cds.rec.updates[|old(cds.rec.updates)|];
        && u.actor == a.participantId && u.verb == a.verb && u.component == a.component
        && u.timestamp == a.timestamp
      ensures t != ConvPublish ==>
        var e := EngineOf(hash, t, a, args, old(cds.rec.tables), old(cds.rec.participantCounter),
                          old(cds.rec.locked), old(cds.rec.updates));
        && cds.rec.tables == e.1 && cds.rec.participantCounter == e.2 && cds.rec.locked == e.3
        && (e.0.Err? ==> r == Err(e.0.error))
        && (e.0.Ok? ==>
              var b := e.0.value.action;
              && r == Ok(e.0.value.result)
              && cds.rec.updates == old(cds.rec.updates)
                   + [Update(a.participantId, a.verb, a.component, b.item, Subdict(e.0.value.data, {'s', 'b'}),
                             a.timestamp, EventIdOf(b, hash))]
              && (a.IsRemote() || cds.rec.status == Draft ==> propagated == old(propagated))
              && (!a.IsRemote() && cds.rec.status != Draft ==>
                    propagated == old(propagated) + [Propagation(b, Subdict(e.0.value.data, {'p', 'b'}), now)]))
    {
      if t == ConvPublish {
        var b := Bind(t, args);
        if b.Fail? {
          return Err(b.error);
        }
        r := Publish(cds, a, now);
        return;
      }
      r := PerformAndRecord(cds, t, a, args, now);
    }

    /**
     * An engine verb called from `act`: what the engine answers and leaves
     * in the conversation is `EngineOf`'s; a success records the event at
     * `now` and propagates it unless the action is remote or the
     * conversation a draft; a failure records and propagates nothing.
     */
    method PerformAndRecord(cds: ConvHandle, t: Target, a: Action, args: map<string, Value>, now: int)
      returns (r: Result<Value>)
      requires Valid() && cds.rec in ds.data.Values && t.Component() != CONVERSATIONS
      modifies this`propagated, cds.rec`tables, cds.rec`participantCounter, cds.rec`locked, cds.rec`updates
      ensures Valid()
      ensures var e := EngineOf(hash, t, a, args, old(cds.rec.tables), old(cds.rec.participantCounter),
                                old(cds.rec.locked), old(cds.rec.updates));
        && cds.rec.tables == e.1 && cds.rec.participantCounter == e.2 && cds.rec.locked == e.3
        && (e.0.Err? ==> r == Err(e.0.error) && propagated == old(propagated) && cds.rec.updates == old(cds.rec.updates))
        && (e.0.Ok? ==>
              var b := e.0.value.action;
              && r == Ok(e.0.value.result)
              && cds.rec.updates == old(cds.rec.updates)
                   + [Update(a.participantId, a.verb, a.component, b.item, Subdict(e.0.value.data, {'s', 'b'}),
                             a.timestamp, EventIdOf(b, hash))]
              && (a.IsRemote() || cds.rec.status == Draft ==> propagated == old(propagated))
              && (!a.IsRemote() && cds.rec.status != Draft ==>
                    propagated == old(propagated) + [Propagation(b, Subdict(e.0.value.data, {'p', 'b'}), now)]))
    {
      var e := PerformKeepingValid(cds, t, a, args);
      if e.Err? {
        return Err(e.error);
      }
      Record(cds, e.value.action, e.value.data, now);
      return Ok(e.value.result);
    }

    /** `Perform` on a conversation of the store, which stays valid. */
    method PerformKeepingValid(cds: ConvHandle, t: Target, a: Action, args: map<string, Value>)
      returns (e: Result<Effect>)
      requires Valid() && cds.rec in ds.data.Values && t.Component() != CONVERSATIONS
      modifies cds.rec`tables, cds.rec`participantCounter, cds.rec`locked
      ensures Valid()
      ensures (e, cds.rec.tables, cds.rec.participantCounter, cds.rec.locked)
              == EngineOf(hash, t, a, args, old(cds.rec.tables), old(cds.rec.participantCounter),
                          old(cds.rec.locked), old(cds.rec.updates))
    {
      e := Perform(cds, hash, t, a, args);
      assert forall r :: r in ds.data.Values && r != cds.rec ==> r.Valid();
      assert ds.AllValid();
    }

    /** `event` for an action of a conversation of the store, which stays valid. */
    method Record(cds: ConvHandle, a: Action, data: seq<(string, Value)>, now: int)
      requires Valid() && cds.rec in ds.data.Values
      modifies this`propagated, cds.rec`updates
      ensures Valid()
      ensures cds.rec.updates == old(cds.rec.updates)
        + [Update(a.participantId, a.verb, a.component, a.item, Subdict(data, {'s', 'b'}), a.timestamp, EventIdOf(a, hash))]
      ensures a.IsRemote() || cds.rec.status == Draft ==> propagated == old(propagated)
      ensures !a.IsRemote() && cds.rec.status != Draft ==>
        propagated == old(propagated) + [Propagation(a, Subdict(data, {'p', 'b'}), now)]
    {
      Event(cds, a, None, data, now);
      assert cds.rec.Valid();
      assert forall r :: r in ds.data.Values && r != cds.rec ==> r.Valid();
      assert ds.AllValid();
    }

    /**
     * `act`: route the action to its verb method (ComponentNotFound or
     * VerbNotFound, with nothing changed, when there is none); prepare it,
     * unless it adds a conversation, by finding its conversation and the
     * acting participant; then call the method with the keyword arguments.
     * A TypeError from the call leaves as Em2TypeError.
     */
    method Act(a: Action, args: map<string, Value>, now: int) returns (r: Result<Value>)
      requires Valid()
      modifies this`propagated, ds, ds.data.Values
      ensures Valid()
      ensures r != Err(TypeError)
      ensures Dispatch(a.component, a.verb).Err? ==>
        && r == Err(Dispatch(a.component, a.verb).error)
        && propagated == old(propagated) && ds.data == old(ds.data) && ds.counter == old(ds.counter)
      ensures Dispatch(a.component, a.verb).Ok? && a.KnownConversation() && !old(ds.HasConv(a.conv)) ==>
        r == Err(ConversationNotFound) && propagated == old(propagated) && ds.data == old(ds.data)
        && unchanged(ds.data.Values)
      ensures Dispatch(a.component, a.verb).Ok? && a.KnownConversation() && old(ActorLookupFails(ds, a.conv, a.address)) ==>
        && r.Err? && r.error in {ComponentNotFound, KeyError}
        && (old(ActorMissing(ds, a.conv, a.address)) ==> r == Err(ComponentNotFound))
        && propagated == old(propagated) && ds.data == old(ds.data) && ds.counter == old(ds.counter)
        && unchanged(ds.data.Values)
      ensures Dispatch(a.component, a.verb).Ok? && Bind(Dispatch(a.component, a.verb).value, args).Fail?
              && (!a.KnownConversation() || old(ActorFound(ds, a.conv, a.address))) ==>
        r == Err(Em2TypeError) && propagated == old(propagated)
      ensures Dispatch(a.component, a.verb).Ok? && !a.KnownConversation()
              && Bind(ConvAdd, args).Pass? && IntArg(args, "timestamp").Err? ==>
        r == Err(AttributeError) && ds.data == old(ds.data)
      ensures |old(propagated)| <= |propagated| <= |old(propagated)| + 1
      ensures propagated[..|old(propagated)|] == old(propagated)
    {
      var t := Dispatch(a.component, a.verb);
      if t.Err? {
        return Err(t.error);
      }
      if t.value == ConvAdd {
        r := AddConversationWith(a, args);
        r := AsEm2(r);
        return;
      }
      r := ActOnConversation(t.value, a, args, now);
    }

    /** The rest of `act` for a verb on an existing conversation: prepare the action, then call the verb method. */
    method ActOnConversation(t: Target, a: Action, args: map<string, Value>, now: int) returns (r: Result<Value>)
      requires Valid() && t != ConvAdd
      modifies this`propagated, ds.data.Values
      ensures Valid()
      ensures r != Err(TypeError)
      ensures !old(ds.HasConv(a.conv)) ==>
        r == Err(ConversationNotFound) && propagated == old(propagated) && unchanged(ds.data.Values)
      ensures old(ActorLookupFails(ds, a.conv, a.address)) ==>
        && r.Err? && r.error in {ComponentNotFound, KeyError}
        && (old(ActorMissing(ds, a.conv, a.address)) ==> r == Err(ComponentNotFound))
        && propagated == old(propagated) && unchanged(ds.data.Values)
      ensures Bind(t, args).Fail? && old(ActorFound(ds, a.conv, a.address)) ==>
        r == Err(Em2TypeError) && propagated == old(propagated)
      ensures |old(propagated)| <= |propagated| <= |old(propagated)| + 1
      ensures propagated[..|old(propagated)|] == old(propagated)
    {
      var p := Prepare(a);
      if p.Err? {
        return Err(p.error);
      }
      r := Invoke(p.value.0, t, p.value.1, args, now);
      r := AsEm2(r);
    }

    /**
     * `Action.prepare`: the oldest conversation with the action's id (else
     * ConversationNotFound) and the acting participant's id and permissions
     * in it (else the lookup's error). Nothing in the store changes.
     */
    method Prepare(a: Action) returns (r: Result<(ConvHandle, Action)>)
      requires Valid()
      ensures r.Ok? ==> && r.value.0.ds == ds && r.value.0.conv == a.conv && r.value.0.rec in ds.data.Values
                        && FindParticipant(Items(r.value.0.rec.tables, PARTICIPANTS), a.address)
                           == Ok((r.value.1.participantId, r.value.1.perm))
                        && r.value.1 == a.(participantId := r.value.1.participantId, perm := r.value.1.perm)
      ensures r.Err? ==> r.error in {ConversationNotFound, ComponentNotFound, KeyError}
      ensures !ds.HasConv(a.conv) ==> r == Err(ConversationNotFound)
      ensures ActorFound(ds, a.conv, a.address) ==> r.Ok?
      ensures ActorLookupFails(ds, a.conv, a.address) ==> r.Err? && r.error in {ComponentNotFound, KeyError}
      ensures ActorMissing(ds, a.conv, a.address) ==> r == Err(ComponentNotFound)
    {
      var h := ds.NewConvDs(a.conv);
      if h.Err? {
        return Err(h.error);
      }
      var cds := h.value;
      ghost var k :| ds.IsFirst(k, a.conv) && ds.data[k] == cds.rec;
      var found := cds.GetParticipant(a.address);
      if found.Err? {
        return Err(found.error);
      }
      return Ok((cds, a.(participantId := found.value.0, perm := found.value.1)));
    }

    /** `Conversations.add` called with keyword arguments: subject, timestamp and body. */
    method AddConversationWith(a: Action, args: map<string, Value>) returns (r: Result<Value>)
      requires Valid()
      modifies ds, ds.data.Values`tables, ds.data.Values`participantCounter
      ensures Valid()
      ensures propagated == old(propagated)
      ensures Bind(ConvAdd, args).Fail? ==>
        r == Err(TypeError) && ds.data == old(ds.data) && ds.counter == old(ds.counter)
      ensures Bind(ConvAdd, args).Pass? && IntArg(args, "timestamp").Err? ==>
        r == Err(AttributeError) && ds.data == old(ds.data) && ds.counter == old(ds.counter)
      ensures Bind(ConvAdd, args).Pass? && IntArg(args, "timestamp").Ok? && StrArg(args, "subject").Err? ==>
        r == Err(TypeError) && ds.data == old(ds.data) && ds.counter == old(ds.counter)
      ensures Bind(ConvAdd, args).Pass? && StrArg(args, "subject").Ok? && IntArg(args, "timestamp").Ok? ==>
        (r == Err(BadHash) <==> ConvId(hash, a.address, args["timestamp"].i, args["subject"].s) != a.conv)
      ensures Bind(ConvAdd, args).Pass? && StrArg(args, "subject").Ok? && IntArg(args, "timestamp").Ok?
              && ConvId(hash, a.address, args["timestamp"].i, args["subject"].s) != a.conv ==>
        ds.data == old(ds.data) && ds.counter == old(ds.counter)
      ensures Bind(ConvAdd, args).Pass? && StrArg(args, "subject").Ok? && IntArg(args, "timestamp").Ok?
              && ConvId(hash, a.address, args["timestamp"].i, args["subject"].s) == a.conv
              && !old(ds.HasConv(a.conv)) ==>
        && r == Ok(Null)
        && ds.counter == old(ds.counter) + 1 && old(ds.counter) in ds.data
        && var rec := ds.data[old(ds.counter)];
        && rec.convId == a.conv && rec.creator == a.address && rec.status == Pending
        && rec.timestamp == args["timestamp"].i && rec.subject == args["subject"].s
        && rec.Valid()
        && Items(rec.tables, PARTICIPANTS) == [CreatorItem(a.address)]
        && Items(rec.tables, MESSAGES) ==
             (if args["body"] == Null then []
              else [FirstMessage(hash, a.address, a.conv, args["timestamp"].i, args["body"])])
    {
      var b := Bind(ConvAdd, args);
      if b.Fail? {
        return Err(b.error);
      }
      var timestamp := IntArg(args, "timestamp");
      if timestamp.Err? {
        return Err(timestamp.error);
      }
      var subject := StrArg(args, "subject");
      if subject.Err? {
        return Err(subject.error);
      }
      r := AddConversation(a, subject.value, timestamp.value, args["body"]);
    }
  }

  /** `get_participant` on the oldest conversation with this id finds the acting address. */
  ghost predicate ActorFound(ds: SimpleStore, conv: string, address: string)
    requires ds.AllValid()
    reads ds, ds.data.Values
  {
    exists k :: ds.IsFirst(k, conv) && FindParticipant(Items(ds.data[k].tables, PARTICIPANTS), address).Ok?
  }

  /** `get_participant` on the oldest conversation with this id fails. */
  ghost predicate ActorLookupFails(ds: SimpleStore, conv: string, address: string)
    requires ds.AllValid()
    reads ds, ds.data.Values
  {
    exists k :: ds.IsFirst(k, conv) && FindParticipant(Items(ds.data[k].tables, PARTICIPANTS), address).Err?
  }

  /** No participant of the oldest conversation with this id has the acting address. */
  ghost predicate ActorMissing(ds: SimpleStore, conv: string, address: string)
    requires ds.AllValid()
    reads ds, ds.data.Values
  {
    exists k :: ds.IsFirst(k, conv)
      && FindParticipant(Items(ds.data[k].tables, PARTICIPANTS), address) == Err(ComponentNotFound)
  }

  /**
   * The first half of `_create`: `create_conversation`, then `add_first`
   * on the conversation found under the new id.
   */
  method CreateRecord(ds: SimpleStore, convId: string, creator: string, timestamp: int, subject: string,
                      status: Status)
    returns (h: Result<ConvHandle>, ghost k: nat)
    requires ds.AllValid()
    modifies ds, ds.data.Values`tables, ds.data.Values`participantCounter
    ensures ds.AllValid()
    ensures k == old(ds.counter) && ds.counter == k + 1 && k !in old(ds.data)
    ensures ds.data == old(ds.data)[k := ds.data[k]] && fresh(ds.data[k]) && ds.data[k].Valid()
    ensures var rec := ds.data[k];
      && rec.convId == convId && rec.creator == creator
      && rec.subject == subject && rec.status == status && rec.timestamp == timestamp
      && rec.updates == [] && rec.locked == {}
    ensures h.Ok? && h.value.conv == convId
    ensures !old(ds.HasConv(convId)) ==>
      && h.Ok? && h.value.rec == ds.data[k] && OnlyRecord(ds, k, convId)
      && Items(ds.data[k].tables, PARTICIPANTS) == [CreatorItem(creator)]
      && TableOf(ds.data[k].tables, MESSAGES) == EmptyTable
  {
    ghost var isNew := !ds.HasConv(convId);
    k := ds.counter;
    var _ := ds.CreateConversation(convId, creator, timestamp, None, subject, status);
    assert isNew ==> OnlyRecord(ds, k, convId);
    h := ds.NewConvDs(convId);
    assert h.Ok?;
    var cds := h.value;
    ghost var kk :| ds.IsFirst(kk, convId) && ds.data[kk] == cds.rec;
    var pid := AddCreator(ds, cds, creator);
  }

  /**
   * The first half of `publish`: the record becomes ACTIVE, keeps its old id
   * as its draft id and takes the new id hashed from publisher, time and subject.
   */
  method MarkPublished(ds: SimpleStore, hash: Hasher, cds: ConvHandle, address: string, now: int)
    returns (newId: string)
    requires ds.AllValid() && cds.rec in ds.data.Values
    modifies cds.rec`status, cds.rec`draftConvId, cds.rec`convId, cds.rec`timestamp
    ensures ds.AllValid()
    ensures newId == ConvId(hash, address, now, cds.rec.subject)
    ensures cds.rec.status == Active && cds.rec.timestamp == now && cds.rec.convId == newId
    ensures cds.rec.draftConvId == Some(old(cds.rec.convId))
  {
    cds.SetStatus(Active);
    var subject := cds.GetSubject();
    newId := ConvId(hash, address, now, subject);
    cds.SetPublishedId(now, newId);
    assert forall r :: r in ds.data.Values && r != cds.rec ==> r.Valid();
  }

  /**
   * The second half of `_create` when a body is given: the conversation
   * just created is found again under its id and gets the body as its
   * first message.
   */
  method AddFirstMessage(ds: SimpleStore, hash: Hasher, ghost k: nat, convId: string, creator: string,
                         timestamp: int, body: Value)
    returns (o: Outcome)
    requires ds.AllValid() && k in ds.data && ds.data[k].convId == convId && ds.data[k].Valid()
    modifies ds.data.Values`tables, ds.data.Values`participantCounter
    ensures ds.AllValid()
    ensures o.Fail? ==> o.error in {ComponentNotFound, KeyError}
    ensures old(OnlyRecord(ds, k, convId)
                && Items(ds.data[k].tables, PARTICIPANTS) == [CreatorItem(creator)]
                && TableOf(ds.data[k].tables, MESSAGES) == EmptyTable) ==>
      && o.Pass?
      && Items(ds.data[k].tables, PARTICIPANTS) == [CreatorItem(creator)]
      && Items(ds.data[k].tables, MESSAGES) == [FirstMessage(hash, creator, convId, timestamp, body)]
  {
    // Record k has this id, so the lookup cannot fail.
    var h := ds.NewConvDs(convId);
    assert h.Ok?;
    var cds := h.value;
    ghost var k2 :| ds.IsFirst(k2, convId) && ds.data[k2] == cds.rec;
    o := AddCreatorMessage(ds, hash, cds, creator, timestamp, body);
  }

  /**
   * What the engine `act` calls for a verb of the Messages or Participants
   * component answers, and the tables, participant counter and locks it
   * leaves: keyword arguments that do not fit are a TypeError; otherwise
   * the verb's own engine function decides. A failure changes nothing,
   * only `lock` and `unlock` touch the locks, and only `lock`, `unlock`
   * and participants' `add` leave the tables as they are or not.
   */
  function EngineOf(hash: Hasher, t: Target, a: Action, args: map<string, Value>, tables: map<string, Table>,
                    counter: nat, locked: set<string>, updates: seq<Update>)
    : (s: (Result<Effect>, map<string, Table>, nat, set<string>))
    requires TablesValid(tables) && t.Component() != CONVERSATIONS
    ensures Bind(t, args).Fail? || t == MsgDeltaEdit ==> s.0 == Err(TypeError)
    ensures s.0.Err? ==> s.1 == tables && s.2 == counter && s.3 == locked
    ensures s.0.Ok? ==> s.0.value.action == a.(item := s.0.value.action.item)
    ensures t != PartAdd ==> s.2 == counter
    ensures t != MsgLock && t != MsgUnlock ==> s.3 == locked
    ensures t == MsgLock || t == MsgUnlock ==> s.1 == tables
  {
    if Bind(t, args).Fail? then (Err(TypeError), tables, counter, locked)
    else
      match t
      case MsgAdd =>
        var (r, ts) := Messages.AddOf(hash, a, args["body"], args["parent_id"], tables);
        (r, ts, counter, locked)
      case MsgEdit =>
        var (r, ts) := Messages.EditOf(a, args["body"], tables, locked, updates);
        (r, ts, counter, locked)
      case MsgDeltaEdit =>
        (Messages.DeltaEdit(a, args["body"]), tables, counter, locked)
      case MsgDelete =>
        var (r, ts) := Messages.DeleteOf(a, tables, locked, updates);
        (r, ts, counter, locked)
      case MsgLock =>
        var (r, ls) := Messages.LockOf(a, tables, locked, updates);
        (r, tables, counter, ls)
      case MsgUnlock =>
        var (r, ls) := Messages.UnlockOf(a, tables, locked, updates);
        (r, tables, counter, ls)
      case PartAdd =>
        (match StrArg(args, "address")
         case Err(e) => (Err(e), tables, counter, locked)
         case Ok(address) =>
           var (r, ts, c) := Participants.AddOf(a, address, args["permissions"], tables, counter);
           (r, ts, c, locked))
      case PartDelete =>
        (match StrArg(args, "address")
         case Err(e) => (Err(e), tables, counter, locked)
         case Ok(address) =>
           var (r, ts) := Participants.DeleteOf(a, address, tables);
           (r, ts, counter, locked))
  }

  /**
   * The engine call `act` makes for a verb of the Messages or Participants
   * component: its keyword arguments are bound first (a TypeError when they
   * do not fit), then the engine checks and changes the conversation and
   * reports the event to record. A verb that fails changes nothing.
   */
  method Perform(cds: ConvHandle, hash: Hasher, t: Target, a: Action, args: map<string, Value>)
    returns (r: Result<Effect>)
    requires cds.rec.Valid() && t.Component() != CONVERSATIONS
    modifies cds.rec`tables, cds.rec`participantCounter, cds.rec`locked
    ensures cds.rec.Valid()
    ensures Bind(t, args).Fail? ==> r == Err(TypeError)
    ensures r.Err? ==> && cds.rec.tables == old(cds.rec.tables) && cds.rec.locked == old(cds.rec.locked)
                       && cds.rec.participantCounter == old(cds.rec.participantCounter)
    ensures r.Ok? ==> r.value.action == a.(item := r.value.action.item)
    ensures t == MsgDeltaEdit ==> r == Err(TypeError)
    ensures (r, cds.rec.tables, cds.rec.participantCounter, cds.rec.locked)
            == EngineOf(hash, t, a, args, old(cds.rec.tables), old(cds.rec.participantCounter), old(cds.rec.locked),
                        cds.rec.updates)
  {
    var b := Bind(t, args);
    if b.Fail? {
      return Err(b.error);
    }
    match t {
      case MsgAdd =>
        r := Messages.Add(cds, hash, a, args["body"], args["parent_id"]);
      case MsgEdit =>
        r := Messages.Edit(cds, a, args["body"]);
      case MsgDeltaEdit =>
        r := Messages.DeltaEdit(a, args["body"]);
      case MsgDelete =>
        r := Messages.Delete(cds, a);
      case MsgLock =>
        r := Messages.Lock(cds, a);
      case MsgUnlock =>
        r := Messages.Unlock(cds, a);
      case PartAdd =>
        var address := StrArg(args, "address");
        if address.Err? {
          return Err(address.error);
        }
        r := Participants.Add(cds, a, address.value, args["permissions"]);
      case PartDelete =>
        var address := StrArg(args, "address");
        if address.Err? {
          return Err(address.error);
        }
        r := Participants.Delete(cds, a, address.value);
    }
  }

  /** The propagated data of the event `publish` records. */
  function PublishedData(subject: string, now: int, body: Value): map<string, Value> {
    map["subject" := Str(subject), "timestamp" := Int(now), "body" := body]
  }

  /** `publish`'s event fields are all `p_`: nothing of them is saved, all of them are propagated. */
  lemma PublishedDataSplit(subject: string, now: int, body: Value)
    ensures var data := [("p_subject", Str(subject)), ("p_timestamp", Int(now)), ("p_body", body)];
      && Subdict(data, {'s', 'b'}) == map[]
      && Subdict(data, {'p', 'b'}) == PublishedData(subject, now, body)
  {
    var data := [("p_subject", Str(subject)), ("p_timestamp", Int(now)), ("p_body", body)];
    var d1, d2 := [data[0]], [data[0], data[1]];
    assert data[..2] == d2 && d2[..1] == d1 && d1[..0] == [];
    assert StripPrefix("p_subject") == "subject";
    assert StripPrefix("p_timestamp") == "timestamp";
    assert StripPrefix("p_body") == "body";
    assert Subdict(d1, {'p', 'b'}) == map["subject" := Str(subject)];
    assert Subdict(d2, {'p', 'b'}) == map["subject" := Str(subject), "timestamp" := Int(now)];
    assert Subdict(d1, {'s', 'b'}) == map[];
    assert Subdict(d2, {'s', 'b'}) == map[];
  }

  /**
   * What `publish` leaves behind once the conversation is found under its
   * new id: it succeeds exactly when the publisher is a participant and
   * the first message has a body, and then one ADD of the conversation
   * is saved and propagated with subject, time and body.
   */
  ghost predicate Announced(hash: Hasher, tables: map<string, Table>, convId: string, address: string,
                            subject: string, now: int, r: Result<Value>,
                            updates0: seq<Update>, updates: seq<Update>,
                            propagated0: seq<Propagation>, propagated: seq<Propagation>)
    requires TablesValid(tables)
  {
    var ms := Items(tables, MESSAGES);
    var found := FindParticipant(Items(tables, PARTICIPANTS), address);
    && (r.Ok? <==> found.Ok? && ms != [] && "body" in ms[0])
    && (r.Err? ==> updates == updates0 && propagated == propagated0)
    && (r.Ok? ==>
          var na := NewAction(address, convId, ADD, CONVERSATIONS)
            .(participantId := found.value.0, perm := found.value.1);
          && updates == updates0 + [Update(found.value.0, ADD, CONVERSATIONS, Null, map[], None, na.CalcEventId(hash))]
          && propagated == propagated0 + [Propagation(na, PublishedData(subject, now, ms[0]["body"]), now)])
  }

  /** Record `k` is the only conversation of the store whose id is `convId`. */
  ghost predicate OnlyRecord(ds: SimpleStore, k: nat, convId: string)
    reads ds, ds.data.Values
  {
    && k in ds.data && ds.data[k].convId == convId
    && forall j :: j in ds.data && ds.data[j].convId == convId ==> j == k
  }

  /** `add_first` on the handle of a new conversation: the creator becomes participant 0. */
  method AddCreator(ds: SimpleStore, cds: ConvHandle, creator: string) returns (pid: Value)
    requires ds.AllValid() && cds.rec in ds.data.Values
    modifies cds.rec`tables, cds.rec`participantCounter
    ensures ds.AllValid()
    ensures old(cds.rec.tables) == map[] && old(cds.rec.participantCounter) == 0 ==>
      Items(cds.rec.tables, PARTICIPANTS) == [CreatorItem(creator)] && TableOf(cds.rec.tables, MESSAGES) == EmptyTable
  {
    pid := Participants.AddFirst(cds, creator);
    assert forall r :: r in ds.data.Values && r != cds.rec ==> r.Valid();
  }

  /** The only participant is the creator, so looking the creator up finds participant 0 with FULL. */
  lemma FindCreator(creator: string)
    ensures Store.FindParticipant([CreatorItem(creator)], creator) == Ok((Int(0), Perm(Full)))
  {
    assert HasAddress(CreatorItem(creator), creator);
  }

  /** Storing the first item of an empty component. */
  lemma {:induction false} FirstPut(tables: map<string, Table>, model: string, id: Value, item: Item)
    requires TablesValid(tables) && TableOf(tables, model) == EmptyTable
    ensures TablesValid(tables[model := EmptyTable.Put(id, item)])
    ensures Items(tables[model := EmptyTable.Put(id, item)], model) == [item]
    ensures forall m :: m != model ==> Items(tables[model := EmptyTable.Put(id, item)], m) == Items(tables, m)
  {
    PutKeepsValid(EmptyTable, id, item);
  }

  /**
   * The second half of `_create` when a body is given: look the creator up
   * in the new conversation and store the body as its first message.
   */
  method AddCreatorMessage(ds: SimpleStore, hash: Hasher, cds: ConvHandle, creator: string,
                           timestamp: int, body: Value)
    returns (o: Outcome)
    requires ds.AllValid() && cds.rec in ds.data.Values && cds.rec.Valid()
    modifies cds.rec`tables, cds.rec`participantCounter
    ensures ds.AllValid()
    ensures o.Fail? ==> o.error in {ComponentNotFound, KeyError}
    ensures old(Items(cds.rec.tables, PARTICIPANTS) == [CreatorItem(creator)]
                && TableOf(cds.rec.tables, MESSAGES) == EmptyTable) ==>
      && o.Pass?
      && Items(cds.rec.tables, PARTICIPANTS) == [CreatorItem(creator)]
      && Items(cds.rec.tables, MESSAGES) == [FirstMessage(hash, creator, cds.conv, timestamp, body)]
  {
    ghost var before := cds.rec.tables;
    var found := cds.GetParticipant(creator);
    if found.Err? {
      FindCreator(creator);
      return Fail(found.error);
    }
    var a := NewAction(creator, cds.conv, ADD, MESSAGES, timestamp := Some(timestamp))
      .(participantId := found.value.0, perm := found.value.1);
    var mid := Messages.AddBasic(cds, hash, a, body, Null);
    assert forall r :: r in ds.data.Values && r != cds.rec ==> r.Valid();
    if Items(before, PARTICIPANTS) == [CreatorItem(creator)] && TableOf(before, MESSAGES) == EmptyTable {
      FindCreator(creator);
      FirstPut(before, MESSAGES, mid, Messages.MessageItem(mid, a, body, Null));
    }
    return Pass;
  }
}

=== FILE: common.dfy ===
/**
 * Values shared by every part of the em2 model: the enumerations of
 * em2/core/components.py and em2/core/interactions.py, the exceptions the
 * engines raise, the dictionary values the data store keeps, and the
 * opaque `hash_id`.
 */
module Common {

  datatype Option<+T> = None | Some(value: T) {
    function GetOr(default: T): T {
      match this
      case Some(v) => v
      case None => default
    }
  }

  /** The exceptions of em2 (and the few built-in Python ones the core can raise). */
  datatype Error =
    | ComponentNotFound
    | ConversationNotFound
    | VerbNotFound
    | InsufficientPermissions
    | ComponentLocked
    | ComponentNotLocked
    | DataConsistency
    | BadData
    | MisshapedData
    | BadHash
    | Em2TypeError
    | NotImplemented
    // built-in Python exceptions
    | TypeError
    | KeyError
    | ValueError
    | UnboundLocalError
    | AttributeError

  datatype Result<+T> = Ok(value: T) | Err(error: Error) {
    predicate IsFailure() { Err? }
    function PropagateFailure<U>(): Result<U>
      requires Err?
    {
      Err(error)
    }
    function Extract(): T
      requires Ok?
    {
      value
    }
  }

  /** A check that either passes or raises. */
  datatype Outcome = Pass | Fail(error: Error) {
    predicate IsFailure() { Fail? }
    function PropagateFailure<U>(): Result<U>
      requires Fail?
    {
      Err(error)
    }
  }

  /** Participants.Permissions */
  datatype Permission = Full | Write | Comment | Read

  /** ConversationsStatus */
  datatype Status = Draft | Pending | Active | Expired | Deleted

  /** A value held in one of the store's dictionaries (or passed as a keyword argument). */
  datatype Value = Null | Int(i: int) | Str(s: string) | Perm(p: Permission)

  /** A component item: the dictionary of keyword arguments it was stored with. */
  type Item = map<string, Value>

  /** `d[key]`, raising KeyError when the key is absent. */
  function Field(d: Item, key: string): (r: Result<Value>)
    ensures r.Ok? <==> key in d
    ensures r.Ok? ==> r.value == d[key]
    ensures r.Err? ==> r.error == KeyError
  {
    if key in d then Ok(d[key]) else Err(KeyError)
  }

  /** Python truthiness of a stored value. */
  predicate Truthy(v: Value) {
    match v
    case Null => false
    case Int(i) => i != 0
    case Str(s) => s != ""
    case Perm(_) => true
  }

  // Components (em2/core/components.py, em2/core/common.py)
  const MESSAGES: string := "messages"
  const COMMENTS: string := "comments"
  const PARTICIPANTS: string := "participants"
  const LABELS: string := "labels"
  const SUBJECT: string := "subject"
  const EXPIRY: string := "expiry"
  const ATTACHMENTS: string := "attachments"
  const EXTRAS: string := "extras"
  const RESPONSES: string := "responses"
  const CONVERSATIONS: string := "conversations"

  const COMPONENT_NAMES: set<string> :=
    {MESSAGES, COMMENTS, PARTICIPANTS, LABELS, SUBJECT, EXPIRY, ATTACHMENTS, EXTRAS, RESPONSES, CONVERSATIONS}

  // Verbs (em2/core/interactions.py)
  const ADD: string := "add"
  const EDIT: string := "edit"
  const DELTA_EDIT: string := "delta_edit"
  const DELETE: string := "delete"
  const LOCK: string := "lock"
  const UNLOCK: string := "unlock"
  const PUBLISH: string := "publish"

  const VERB_NAMES: set<string> := {ADD, EDIT, DELTA_EDIT, DELETE, LOCK, UNLOCK, PUBLISH}

  /** `hash_id(*args, sha256=...)`: SHA-1 by default, SHA-256 when asked. */
  datatype HashAlg = Sha1 | Sha256

  /**
   * One argument of `hash_id`, before `str()` is applied to it: a value, a
   * timestamp rendered with `isoformat()`, or a raw (possibly absent)
   * timestamp rendered with `str()`.
   */
  datatype HashArg = Val(v: Value) | IsoTime(t: int) | RawTime(rt: Option<int>)

  /**
   * `hash_id` as an opaque function of its argument list; the model assumes
   * nothing about it (not even that the '_' join it hashes is injective).
   */
  type Hasher = (HashAlg, seq<HashArg>) -> string
}

/** Decimal rendering and parsing of integers, and small sequence helpers. */
module Strings {

  import opened Common

  predicate IsDigit(c: char) { '0' <= c <= '9' }

  predicate AllDigits(s: string) {
    forall i :: 0 <= i < |s| ==> IsDigit(s[i])
  }

  function DigitChar(d: nat): (c: char)
    requires d < 10
    ensures IsDigit(c) && c as int - '0' as int == d
  {
    ('0' as int + d) as char
  }

  function DigitsValue(s: string): nat
    requires AllDigits(s)
  {
    if s == [] then 0
    else DigitsValue(s[..|s| - 1]) * 10 + (s[|s| - 1] as int - '0' as int)
  }

  /** `str(n)` for a natural number. */
  function NatToString(n: nat): (s: string)
    ensures |s| >= 1 && AllDigits(s)
    ensures DigitsValue(s) == n
    decreases n
  {
    if n < 10 then [DigitChar(n)]
    else
      var p := NatToString(n / 10);
      var s := p + [DigitChar(n % 10)];
      assert s[..|s| - 1] == p;
      s
  }

  /** `str(i)` for an integer. */
  function IntToString(i: int): (s: string)
    ensures |s| >= 1
    ensures ':' !in s
  {
    if i < 0 then "-" + NatToString(-i) else NatToString(i)
  }

  /**
   * `int(s)` for base-ten literals: an optional sign followed by at least
   * one ASCII digit; anything else is Python's ValueError (None here).
   */
  function ParseInt(s: string): (r: Option<int>)
    ensures r.Some? ==> |s| >= 1
  {
    if |s| >= 1 && (s[0] == '-' || s[0] == '+') then
      if |s| >= 2 && AllDigits(s[1..]) then
        var v: int := DigitsValue(s[1..]);
        Some(if s[0] == '-' then -v else v)
      else None
    else if |s| >= 1 && AllDigits(s) then Some(DigitsValue(s))
    else None
  }

  lemma ParseIntRoundTrip(i: int)
    ensures ParseInt(IntToString(i)) == Some(i)
  {
    var s := IntToString(i);
    if i < 0 {
      assert s[1..] == NatToString(-i);
    } else {
      var t := NatToString(i);
      assert IsDigit(t[0]);
    }
  }

  /** The first occurrence of `c` is at `k` when `s[k]` is `c` and no earlier character is. */
  lemma {:induction false} IndexOfAt(s: string, c: char, k: nat)
    requires k < |s| && s[k] == c && c !in s[..k]
    ensures IndexOf(s, c) == Some(k)
  {
    if k > 0 {
      assert s[..k][0] == s[0];
      assert s[1..][..k - 1] == s[..k][1..];
      IndexOfAt(s[1..], c, k - 1);
    }
  }

  /** A sequence is what precedes position `k`, the element there, and what follows. */
  lemma Around(s: string, k: nat)
    requires k < |s|
    ensures s == s[..k] + [s[k]] + s[k + 1..]
  {
  }

  /** `str(v)` for a stored value. */
  function Render(v: Value): string {
    match v
    case Null => "None"
    case Int(i) => IntToString(i)
    case Str(s) => s
    case Perm(p) =>
      match p
      case Full => "full"
      case Write => "write"
      case Comment => "comment"
      case Read => "read"
  }

  /** Index of the first occurrence of `c` in `s`, as `s.index(c)`. */
  function IndexOf(s: string, c: char): (r: Option<nat>)
    ensures r.Some? <==> c in s
    ensures r.Some? ==> r.value < |s| && s[r.value] == c && c !in s[..r.value]
    ensures r.Some? ==> forall m :: 0 <= m < r.value ==> s[m] != c
  {
    if s == [] then None
    else if s[0] == c then Some(0)
    else
      match IndexOf(s[1..], c)
      case None => None
      case Some(k) =>
        assert s[..k + 1] == [s[0]] + s[1..][..k];
        Some(k + 1)
  }
}

=== FILE: components.dfy ===
/**
 * The component engines of em2/core/components.py: what an engine checks
 * before it changes a conversation, and how it changes it.
 *
 * Each verb ends by asking the controller to record an event; here it
 * returns that request as an `Effect` and the controller records it next
 * (base.dfy), which keeps the same order of store changes.
 */
module Components {

  import opened Common
  import opened Interactions

  /**
   * What a verb hands to `Controller.event`: the action (with its item id
   * filled in) and the event's keyword data, plus the verb's own result.
   */
  datatype Effect = Effect(action: Action, data: seq<(string, Value)>, result: Value)

  /** A stored timestamp as a number, when it is one. */
  function TimeOf(v: Value): Option<int> {
    if v.Int? then Some(v.i) else None
  }

  /** `x <= y` on timestamps; comparing a missing timestamp is a TypeError. */
  function NotAfter(x: Option<int>, y: Option<int>): (r: Result<bool>)
    ensures r.Ok? <==> x.Some? && y.Some?
    ensures r.Ok? ==> (r.value <==> x.value <= y.value)
    ensures r.Err? ==> r.error == TypeError
  {
    if x.Some? && y.Some? then Ok(x.value <= y.value) else Err(TypeError)
  }

  /** `x > y` holds of two timestamps that are both present. */
  predicate StrictlyAfter(x: Option<int>, y: Option<int>) {
    x.Some? && y.Some? && x.value > y.value
  }

  predicate WriteOrFull(perm: Value) {
    perm == Perm(Full) || perm == Perm(Write)
  }
}

module Messages {

  import opened Common
  import opened Interactions
  import opened Store
  import opened Components

  // ---------------------------------------------------------------------------
  // The checks

  /** The message is stored, with a readable author and timestamp, and `pid` wrote it. */
  predicate AuthoredBy(tables: map<string, Table>, id: Value, pid: Value) {
    MessageMeta(tables, id).Ok? && MessageMeta(tables, id).value.author == pid
  }

  /**
   * `_check_permissions`: FULL may act on any message, WRITE only on a
   * message it authored; any other permission is refused.
   */
  function CheckPermissions(a: Action, tables: map<string, Table>): (o: Outcome)
    ensures o.Pass? <==> a.perm == Perm(Full) || (a.perm == Perm(Write) && AuthoredBy(tables, a.item, a.participantId))
    ensures o.Fail? && !(a.perm == Perm(Write) && MessageMeta(tables, a.item).Err?) ==>
      o.error == InsufficientPermissions
    ensures a.perm == Perm(Write) && MessageMeta(tables, a.item).Err? ==>
      o == Fail(MessageMeta(tables, a.item).error)
  {
    if a.perm == Perm(Write) then
      match MessageMeta(tables, a.item)
      case Err(e) => Fail(e)
      case Ok(meta) => if a.participantId != meta.author then Fail(InsufficientPermissions) else Pass
    else if a.perm != Perm(Full) then Fail(InsufficientPermissions)
    else Pass
  }

  /**
   * `_check_consistency`: an item nobody has acted on accepts anything;
   * otherwise the action must name the item's newest event as its parent
   * and come strictly after it.
   */
  function CheckConsistency(a: Action, last: Option<LastEvent>): (o: Outcome)
    ensures o.Pass? <==> (last.None?
      || (a.parentEventId == Some(last.value.id) && StrictlyAfter(a.timestamp, last.value.timestamp)))
    ensures last.Some? && a.parentEventId != Some(last.value.id) ==> o == Fail(DataConsistency)
    ensures (last.Some? && a.parentEventId == Some(last.value.id)
             && a.timestamp.Some? && last.value.timestamp.Some? && a.timestamp.value <= last.value.timestamp.value)
      ==> o == Fail(BadData)
    ensures (last.Some? && a.parentEventId == Some(last.value.id)
             && (a.timestamp.None? || last.value.timestamp.None?))
      ==> o == Fail(TypeError)
  {
    match last
    case None => Pass
    case Some(ev) =>
      if a.parentEventId != Some(ev.id) then Fail(DataConsistency)
      else
        match NotAfter(a.timestamp, ev.timestamp)
        case Err(e) => Fail(e)
        case Ok(notAfter) => if notAfter then Fail(BadData) else Pass
  }

  /**
   * `_check_locked`: a locked item is refused, an action without a parent
   * event id is refused, and then the consistency check decides.
   */
  function CheckLocked(a: Action, locked: bool, last: Option<LastEvent>): (o: Outcome)
    ensures o.Pass? <==> !locked && a.parentEventId.Some? && CheckConsistency(a, last).Pass?
    ensures locked ==> o == Fail(ComponentLocked)
    ensures !locked && a.parentEventId.None? ==> o == Fail(BadData)
  {
    if locked then Fail(ComponentLocked)
    else if a.parentEventId.None? then Fail(BadData)
    else CheckConsistency(a, last)
  }

  /** The checks `edit`, `delete` and `lock` run before touching a message, in their order. */
  function MayModify(a: Action, tables: map<string, Table>, locked: set<string>, updates: seq<Update>)
    : (o: Outcome)
    ensures o.Pass? <==>
      && CheckPermissions(a, tables).Pass?
      && LockKey(MESSAGES, a.item) !in locked
      && a.parentEventId.Some?
      && CheckConsistency(a, LastEventOf(updates, MESSAGES, a.item)).Pass?
  {
    var p := CheckPermissions(a, tables);
    if p.Fail? then p
    else CheckLocked(a, LockKey(MESSAGES, a.item) in locked, LastEventOf(updates, MESSAGES, a.item))
  }

  /**
   * A message can be changed only by its author (or a FULL participant),
   * only while unlocked, and only by an action that follows the message's
   * newest event in the update log: both its parent event id and its
   * timestamp.
   */
  lemma MayModifyMeans(a: Action, tables: map<string, Table>, locked: set<string>, updates: seq<Update>)
    requires MayModify(a, tables, locked, updates).Pass?
    ensures a.perm == Perm(Full) || (a.perm == Perm(Write) && AuthoredBy(tables, a.item, a.participantId))
    ensures LockKey(MESSAGES, a.item) !in locked
    ensures forall i :: 0 <= i < |updates| && Concerns(updates[i], MESSAGES, a.item) ==>
      exists j :: (i <= j < |updates| && Concerns(updates[j], MESSAGES, a.item)
        && a.parentEventId == Some(updates[j].eventId)
        && StrictlyAfter(a.timestamp, updates[j].timestamp))
  {
    var last := LastEventOf(updates, MESSAGES, a.item);
    if last.Some? {
      var j :| 0 <= j < |updates| && Concerns(updates[j], MESSAGES, a.item)
        && last.value == LastEvent(updates[j].eventId, updates[j].timestamp)
        && forall k :: j < k < |updates| ==> !Concerns(updates[k], MESSAGES, a.item);
      forall i | 0 <= i < |updates| && Concerns(updates[i], MESSAGES, a.item)
        ensures exists j :: (i <= j < |updates| && Concerns(updates[j], MESSAGES, a.item)
          && a.parentEventId == Some(updates[j].eventId)
          && StrictlyAfter(a.timestamp, updates[j].timestamp))
      {
        assert i <= j;
      }
    }
  }

  /** The checks `add` runs: FULL or WRITE, and a timestamp strictly after the parent message's. */
  function CheckAdd(a: Action, tables: map<string, Table>, parentId: Value): (o: Outcome)
    ensures o.Pass? <==> (WriteOrFull(a.perm) && MessageMeta(tables, parentId).Ok?
      && StrictlyAfter(a.timestamp, TimeOf(MessageMeta(tables, parentId).value.timestamp)))
    ensures !WriteOrFull(a.perm) ==> o == Fail(InsufficientPermissions)
    ensures WriteOrFull(a.perm) && MessageMeta(tables, parentId).Err? ==> o == Fail(MessageMeta(tables, parentId).error)
    ensures (WriteOrFull(a.perm) && MessageMeta(tables, parentId).Ok?
             && a.timestamp.Some? && TimeOf(MessageMeta(tables, parentId).value.timestamp).Some?
             && a.timestamp.value <= TimeOf(MessageMeta(tables, parentId).value.timestamp).value)
      ==> o == Fail(BadData)
    ensures (WriteOrFull(a.perm) && MessageMeta(tables, parentId).Ok?
             && (a.timestamp.None? || TimeOf(MessageMeta(tables, parentId).value.timestamp).None?))
      ==> o == Fail(TypeError)
  {
    if !WriteOrFull(a.perm) then Fail(InsufficientPermissions)
    else
      match MessageMeta(tables, parentId)
      case Err(e) => Fail(e)
      case Ok(meta) =>
        match NotAfter(a.timestamp, TimeOf(meta.timestamp))
        case Err(e) => Fail(e)
        case Ok(notAfter) => if notAfter then Fail(BadData) else Pass
  }

  /** The id `add_basic` gives a local message: the hash of address, time, body and parent. */
  function MessageId(hash: Hasher, a: Action, body: Value, parentId: Value): string
    requires a.timestamp.Some?
  {
    hash(Sha1, [Val(Str(a.address)), IsoTime(a.timestamp.value), Val(body), Val(parentId)])
  }

  /** The item `add`/`add_basic` store for a message. */
  function MessageItem(id: Value, a: Action, body: Value, parentId: Value): Item
    requires a.timestamp.Some?
  {
    map["id" := id, "author" := a.participantId, "timestamp" := Int(a.timestamp.value),
        "body" := body, "parent" := parentId]
  }

  /** The id `add` stores a message under: the originating platform's item id, or a fresh hash. */
  function AddedId(hash: Hasher, a: Action, body: Value, parentId: Value): (id: Value)
    requires a.timestamp.Some?
    ensures a.IsRemote() ==> id == a.item
    ensures !a.IsRemote() ==> id == Str(MessageId(hash, a, body, parentId))
  {
    if a.IsRemote() then a.item else Str(MessageId(hash, a, body, parentId))
  }

  // ---------------------------------------------------------------------------
  // The verbs

  /**
   * What `add` answers and the tables it leaves: when its checks pass, the
   * message is stored under its id, which becomes the action's item, and
   * only the messages table changes; otherwise the check's error with the
   * tables unchanged.
   */
  function AddOf(hash: Hasher, a: Action, body: Value, parentId: Value, tables: map<string, Table>)
    : (s: (Result<Effect>, map<string, Table>))
    ensures s.0.Ok? <==> CheckAdd(a, tables, parentId).Pass?
    ensures s.0.Err? ==> s.0.error == CheckAdd(a, tables, parentId).error && s.1 == tables
    ensures s.0.Ok? ==>
      && s.0.value.action == a.(item := s.0.value.action.item)
      && MESSAGES in s.1 && s.0.value.action.item in s.1[MESSAGES].rows
      && a.timestamp.Some?
      && s.1[MESSAGES].rows[s.0.value.action.item] == MessageItem(s.0.value.action.item, a, body, parentId)
      && (a.IsRemote() ==> s.0.value.action.item == a.item)
      && s.1.Keys == tables.Keys + {MESSAGES}
      && (forall m :: m in tables && m != MESSAGES ==> s.1[m] == tables[m])
  {
    var c := CheckAdd(a, tables, parentId);
    if c.Fail? then (Err(c.error), tables)
    else
      var id := AddedId(hash, a, body, parentId);
      (Ok(Effect(a.(item := id), [("p_parent_id", parentId), ("p_body", body)], Null)),
       tables[MESSAGES := TableOf(tables, MESSAGES).Put(id, MessageItem(id, a, body, parentId))])
  }

  /** `add`: checks, stores the message under its id, and reports the event. */
  method Add(cds: ConvHandle, hash: Hasher, a: Action, body: Value, parentId: Value) returns (r: Result<Effect>)
    requires cds.rec.Valid()
    modifies cds.rec`tables, cds.rec`participantCounter
    ensures cds.rec.Valid()
    ensures cds.rec.participantCounter == old(cds.rec.participantCounter)
    ensures (r, cds.rec.tables) == AddOf(hash, a, body, parentId, old(cds.rec.tables))
    ensures var c := CheckAdd(a, old(cds.rec.tables), parentId);
      && (c.Fail? ==> r == Err(c.error) && cds.rec.tables == old(cds.rec.tables))
      && (c.Pass? ==>
            var id := AddedId(hash, a, body, parentId);
            && r == Ok(Effect(a.(item := id), [("p_parent_id", parentId), ("p_body", body)], Null))
            && cds.rec.tables == old(cds.rec.tables)[MESSAGES :=
                 TableOf(old(cds.rec.tables), MESSAGES).Put(id, MessageItem(id, a, body, parentId))])
  {
    var c := CheckAdd(a, cds.rec.tables, parentId);
    if c.Fail? {
      return Err(c.error);
    }
    var id := AddedId(hash, a, body, parentId);
    var added := cds.AddComponent(MESSAGES, MessageItem(id, a, body, parentId));
    return Ok(Effect(a.(item := id), [("p_parent_id", parentId), ("p_body", body)], Null));
  }

  /** `add_basic`: stores a local message under its hashed id and returns that id. */
  method AddBasic(cds: ConvHandle, hash: Hasher, a: Action, body: Value, parentId: Value) returns (id: Value)
    requires cds.rec.Valid() && a.timestamp.Some?
    modifies cds.rec`tables, cds.rec`participantCounter
    ensures cds.rec.Valid()
    ensures id == Str(MessageId(hash, a, body, parentId))
    ensures cds.rec.participantCounter == old(cds.rec.participantCounter)
    ensures cds.rec.tables == old(cds.rec.tables)[MESSAGES :=
      TableOf(old(cds.rec.tables), MESSAGES).Put(id, MessageItem(id, a, body, parentId))]
  {
    id := Str(MessageId(hash, a, body, parentId));
    var added := cds.AddComponent(MESSAGES, MessageItem(id, a, body, parentId));
  }

  /**
   * What `edit` answers and the tables it leaves: it succeeds exactly when
   * the checks pass and the message exists, and then only that message's
   * body changes; otherwise the tables are unchanged.
   */
  function EditOf(a: Action, body: Value, tables: map<string, Table>, locked: set<string>, updates: seq<Update>)
    : (s: (Result<Effect>, map<string, Table>))
    ensures s.0.Ok? <==>
      MayModify(a, tables, locked, updates).Pass? && MESSAGES in tables && a.item in tables[MESSAGES].rows
    ensures s.0.Err? ==> s.1 == tables
    ensures s.0.Ok? ==>
      && s.0.value.action == a
      && s.1.Keys == tables.Keys && s.1[MESSAGES].rows.Keys == tables[MESSAGES].rows.Keys
      && s.1[MESSAGES].rows[a.item] == tables[MESSAGES].rows[a.item]["body" := body]
      && (forall k :: k in tables[MESSAGES].rows && k != a.item ==>
            s.1[MESSAGES].rows[k] == tables[MESSAGES].rows[k])
      && (forall m :: m in tables && m != MESSAGES ==> s.1[m] == tables[m])
  {
    var c := MayModify(a, tables, locked, updates);
    if c.Fail? then (Err(c.error), tables)
    else
      match EditItem(tables, MESSAGES, a.item, map["body" := body])
      case Err(e) => (Err(e), tables)
      case Ok(t) => (Ok(Effect(a, [("b_value", body)], Null)), t)
  }

  /** `edit`: after the checks, replaces the message's body. */
  method Edit(cds: ConvHandle, a: Action, body: Value) returns (r: Result<Effect>)
    requires cds.rec.Valid()
    modifies cds.rec`tables
    ensures cds.rec.Valid()
    ensures (r, cds.rec.tables) == EditOf(a, body, old(cds.rec.tables), cds.rec.locked, cds.rec.updates)
    ensures var c := MayModify(a, old(cds.rec.tables), cds.rec.locked, cds.rec.updates);
      var e := EditItem(old(cds.rec.tables), MESSAGES, a.item, map["body" := body]);
      && (c.Fail? ==> r == Err(c.error) && cds.rec.tables == old(cds.rec.tables))
      && (c.Pass? && e.Err? ==> r == Err(e.error) && cds.rec.tables == old(cds.rec.tables))
      && (c.Pass? && e.Ok? ==> r == Ok(Effect(a, [("b_value", body)], Null)) && cds.rec.tables == e.value)
  {
    var c := MayModify(a, cds.rec.tables, cds.rec.locked, cds.rec.updates);
    if c.Fail? {
      return Err(c.error);
    }
    var o := cds.EditComponent(MESSAGES, a.item, map["body" := body]);
    if o.Fail? {
      return Err(o.error);
    }
    return Ok(Effect(a, [("b_value", body)], Null));
  }

  /**
   * `delta_edit` calls the `NotImplemented` constant, which Python refuses
   * with a TypeError; nothing changes.
   */
  function DeltaEdit(a: Action, body: Value): (r: Result<Effect>)
    ensures r == Err(TypeError)
  {
    Err(TypeError)
  }

  /**
   * What `delete` answers and the tables it leaves: it succeeds exactly
   * when the checks pass and the message exists, and then exactly that
   * message is gone; otherwise the tables are unchanged.
   */
  function DeleteOf(a: Action, tables: map<string, Table>, locked: set<string>, updates: seq<Update>)
    : (s: (Result<Effect>, map<string, Table>))
    ensures s.0.Ok? <==>
      MayModify(a, tables, locked, updates).Pass? && MESSAGES in tables && a.item in tables[MESSAGES].rows
    ensures s.0.Err? ==> s.1 == tables
    ensures s.0.Ok? ==>
      && s.0.value.action == a
      && s.1.Keys == tables.Keys && s.1[MESSAGES].rows == tables[MESSAGES].rows - {a.item}
      && (forall m :: m in tables && m != MESSAGES ==> s.1[m] == tables[m])
  {
    var c := MayModify(a, tables, locked, updates);
    if c.Fail? then (Err(c.error), tables)
    else
      match DeleteItem(tables, MESSAGES, a.item)
      case Err(e) => (Err(e), tables)
      case Ok(t) => (Ok(Effect(a, [], Null)), t)
  }

  /** `delete`: after the checks, removes the message. */
  method Delete(cds: ConvHandle, a: Action) returns (r: Result<Effect>)
    requires cds.rec.Valid()
    modifies cds.rec`tables
    ensures cds.rec.Valid()
    ensures (r, cds.rec.tables) == DeleteOf(a, old(cds.rec.tables), cds.rec.locked, cds.rec.updates)
    ensures var c := MayModify(a, old(cds.rec.tables), cds.rec.locked, cds.rec.updates);
      var e := DeleteItem(old(cds.rec.tables), MESSAGES, a.item);
      && (c.Fail? ==> r == Err(c.error) && cds.rec.tables == old(cds.rec.tables))
      && (c.Pass? && e.Err? ==> r == Err(e.error) && cds.rec.tables == old(cds.rec.tables))
      && (c.Pass? && e.Ok? ==> r == Ok(Effect(a, [], Null)) && cds.rec.tables == e.value)
  {
    var c := MayModify(a, cds.rec.tables, cds.rec.locked, cds.rec.updates);
    if c.Fail? {
      return Err(c.error);
    }
    var o := cds.DeleteComponent(MESSAGES, a.item);
    if o.Fail? {
      return Err(o.error);
    }
    return Ok(Effect(a, [], Null));
  }

  /**
   * What `lock` answers and the locked set it leaves: it succeeds exactly
   * when the checks pass and the message exists, and then the message's
   * key, unlocked before, joins the set; otherwise the set is unchanged.
   */
  function LockOf(a: Action, tables: map<string, Table>, locked: set<string>, updates: seq<Update>)
    : (s: (Result<Effect>, set<string>))
    ensures s.0.Ok? <==> MayModify(a, tables, locked, updates).Pass? && a.item in TableOf(tables, MESSAGES).rows
    ensures s.0.Ok? ==> LockKey(MESSAGES, a.item) !in locked && s.1 == locked + {LockKey(MESSAGES, a.item)}
    ensures s.0.Err? ==> s.1 == locked
  {
    var c := MayModify(a, tables, locked, updates);
    if c.Fail? then (Err(c.error), locked)
    else if a.item !in TableOf(tables, MESSAGES).rows then (Err(ComponentNotFound), locked)
    else (Ok(Effect(a, [], Null)), locked + {LockKey(MESSAGES, a.item)})
  }

  /** `lock`: after the checks, locks the message. */
  method Lock(cds: ConvHandle, a: Action) returns (r: Result<Effect>)
    modifies cds.rec`locked
    ensures (r, cds.rec.locked) == LockOf(a, cds.rec.tables, old(cds.rec.locked), cds.rec.updates)
    ensures var c := MayModify(a, cds.rec.tables, old(cds.rec.locked), cds.rec.updates);
      var exists_ := a.item in TableOf(cds.rec.tables, MESSAGES).rows;
      && (c.Fail? ==> r == Err(c.error) && cds.rec.locked == old(cds.rec.locked))
      && (c.Pass? && !exists_ ==> r == Err(ComponentNotFound) && cds.rec.locked == old(cds.rec.locked))
      && (c.Pass? && exists_ ==> (r == Ok(Effect(a, [], Null))
            && cds.rec.locked == old(cds.rec.locked) + {LockKey(MESSAGES, a.item)}))
  {
    var c := MayModify(a, cds.rec.tables, cds.rec.locked, cds.rec.updates);
    if c.Fail? {
      return Err(c.error);
    }
    var o := cds.LockComponent(MESSAGES, a.item);
    if o.Fail? {
      return Err(o.error);
    }
    return Ok(Effect(a, [], Null));
  }

  /** The checks `unlock` runs: permissions, the item must be locked, then consistency. */
  function MayUnlock(a: Action, tables: map<string, Table>, locked: set<string>, updates: seq<Update>)
    : (o: Outcome)
    ensures o.Pass? <==>
      && CheckPermissions(a, tables).Pass?
      && LockKey(MESSAGES, a.item) in locked
      && CheckConsistency(a, LastEventOf(updates, MESSAGES, a.item)).Pass?
    ensures CheckPermissions(a, tables).Pass? && LockKey(MESSAGES, a.item) !in locked ==>
      o == Fail(ComponentNotLocked)
  {
    var p := CheckPermissions(a, tables);
    if p.Fail? then p
    else if LockKey(MESSAGES, a.item) !in locked then Fail(ComponentNotLocked)
    else CheckConsistency(a, LastEventOf(updates, MESSAGES, a.item))
  }

  /**
   * What `unlock` answers and the locked set it leaves: it succeeds exactly
   * when its checks pass, and then the message's key, locked before, leaves
   * the set; otherwise the set is unchanged.
   */
  function UnlockOf(a: Action, tables: map<string, Table>, locked: set<string>, updates: seq<Update>)
    : (s: (Result<Effect>, set<string>))
    ensures s.0.Ok? <==> MayUnlock(a, tables, locked, updates).Pass?
    ensures s.0.Ok? ==> LockKey(MESSAGES, a.item) in locked && s.1 == locked - {LockKey(MESSAGES, a.item)}
    ensures s.0.Err? ==> s.1 == locked
  {
    var c := MayUnlock(a, tables, locked, updates);
    if c.Fail? then (Err(c.error), locked)
    else (Ok(Effect(a, [], Null)), locked - {LockKey(MESSAGES, a.item)})
  }

  /** `unlock`: after the checks, unlocks the message. */
  method Unlock(cds: ConvHandle, a: Action) returns (r: Result<Effect>)
    modifies cds.rec`locked
    ensures (r, cds.rec.locked) == UnlockOf(a, cds.rec.tables, old(cds.rec.locked), cds.rec.updates)
    ensures var c := MayUnlock(a, cds.rec.tables, old(cds.rec.locked), cds.rec.updates);
      && (c.Fail? ==> r == Err(c.error) && cds.rec.locked == old(cds.rec.locked))
      && (c.Pass? ==> (r == Ok(Effect(a, [], Null))
            && cds.rec.locked == old(cds.rec.locked) - {LockKey(MESSAGES, a.item)}))
  {
    var c := MayUnlock(a, cds.rec.tables, cds.rec.locked, cds.rec.updates);
    if c.Fail? {
      return Err(c.error);
    }
    var o := cds.UnlockComponent(MESSAGES, a.item);
    return Ok(Effect(a, [], Null));
  }

  /**
   * A `lock` that succeeds, followed by an `unlock` of the same message
   * whose checks pass (whatever events were logged in between), answers
   * Ok and gives back the locked set as it was before the lock: the
   * message was not locked before.
   */
  lemma LockUnlockRoundTrip(a: Action, b: Action, tables: map<string, Table>, locked: set<string>,
                            updates: seq<Update>, later: seq<Update>)
    requires LockOf(a, tables, locked, updates).0.Ok? && b.item == a.item
    requires MayUnlock(b, tables, LockOf(a, tables, locked, updates).1, later).Pass?
    ensures LockKey(MESSAGES, a.item) !in locked
    ensures UnlockOf(b, tables, LockOf(a, tables, locked, updates).1, later) == (Ok(Effect(b, [], Null)), locked)
  {
    var key := LockKey(MESSAGES, a.item);
    assert (locked + {key}) - {key} == locked;
  }

  /**
   * `unlock` of a message that is not locked, by a participant whose
   * permissions pass, answers ComponentNotLocked and leaves the set alone.
   */
  lemma UnlockNotLocked(a: Action, tables: map<string, Table>, locked: set<string>, updates: seq<Update>)
    requires CheckPermissions(a, tables).Pass? && LockKey(MESSAGES, a.item) !in locked
    ensures UnlockOf(a, tables, locked, updates) == (Err(ComponentNotLocked), locked)
  {
  }

  /**
   * A message that was just locked cannot be locked again: a second `lock`
   * by a participant whose permissions pass answers ComponentLocked.
   */
  lemma LockTwiceRefused(a: Action, b: Action, tables: map<string, Table>, locked: set<string>,
                         updates: seq<Update>, later: seq<Update>)
    requires LockOf(a, tables, locked, updates).0.Ok? && b.item == a.item
    requires CheckPermissions(b, tables).Pass?
    ensures LockOf(b, tables, LockOf(a, tables, locked, updates).1, later)
            == (Err(ComponentLocked), LockOf(a, tables, locked, updates).1)
  {
  }

  // ---------------------------------------------------------------------------
  // Importing a whole thread

  /**
   * The `parents` map `add_multiple` builds over a non-empty list: message
   * id to timestamp, checking each message as it goes.
   */
  function ThreadCheck(data: seq<Item>): (r: Result<map<Value, Value>>)
    requires data != []
    ensures r.Err? ==> r.error in {MisshapedData, BadData, ComponentNotFound, KeyError, TypeError}
    ensures "parent" !in data[0] ==> r == Err(KeyError)
    ensures "parent" in data[0] && data[0]["parent"] != Null ==> r == Err(MisshapedData)
  {
    if |data| == 1 then
      var parent :- Field(data[0], "parent");
      if parent != Null then Err(MisshapedData)
      else
        var id :- Field(data[0], "id");
        var ts :- Field(data[0], "timestamp");
        Ok(map[id := ts])
    else
      var parents :- ThreadCheck(data[..|data| - 1]);
      ThreadStep(parents, data[|data| - 1])
  }

  /** One pass of the loop of `add_multiple` over a message after the first. */
  function ThreadStep(parents: map<Value, Value>, d: Item): (r: Result<map<Value, Value>>)
    ensures r.Ok? <==> ("id" in d && d["id"] !in parents && "parent" in d && d["parent"] in parents
      && "timestamp" in d && StrictlyAfter(TimeOf(d["timestamp"]), TimeOf(parents[d["parent"]])))
    ensures r.Ok? ==> r.value == parents[d["id"] := d["timestamp"]]
    ensures "id" !in d ==> r == Err(KeyError)
    ensures "id" in d && d["id"] in parents ==> r == Err(BadData)
    ensures "id" in d && d["id"] !in parents && "parent" !in d ==> r == Err(KeyError)
    ensures ("id" in d && d["id"] !in parents && "parent" in d
             && (d["parent"] !in parents || parents[d["parent"]] == Null))
      ==> r == Err(ComponentNotFound)
    ensures ("id" in d && d["id"] !in parents && "parent" in d && d["parent"] in parents
             && parents[d["parent"]] != Null && "timestamp" !in d)
      ==> r == Err(KeyError)
    ensures ("id" in d && d["id"] !in parents && "parent" in d && d["parent"] in parents
             && parents[d["parent"]] != Null && "timestamp" in d
             && TimeOf(d["timestamp"]).Some? && TimeOf(parents[d["parent"]]).Some?
             && TimeOf(d["timestamp"]).value <= TimeOf(parents[d["parent"]]).value)
      ==> r == Err(BadData)
    ensures ("id" in d && d["id"] !in parents && "parent" in d && d["parent"] in parents
             && parents[d["parent"]] != Null && "timestamp" in d
             && (TimeOf(d["timestamp"]).None? || TimeOf(parents[d["parent"]]).None?))
      ==> r == Err(TypeError)
  {
    var id :- Field(d, "id");
    if id in parents then Err(BadData)
    else
      var p :- Field(d, "parent");
      var parentTs := if p in parents then parents[p] else Null;
      if parentTs == Null then Err(ComponentNotFound)
      else
        var ts :- Field(d, "timestamp");
        match NotAfter(TimeOf(ts), TimeOf(parentTs))
        case Err(e) => Err(e)
        case Ok(notAfter) => if notAfter then Err(BadData) else Ok(parents[id := ts])
  }

  predicate ThreadShaped(data: seq<Item>) {
    forall i :: 0 <= i < |data| ==> "id" in data[i] && "parent" in data[i] && "timestamp" in data[i]
  }

  /** Message `j` is the parent of message `i` and strictly older. */
  predicate ParentOf(data: seq<Item>, j: int, i: int)
    requires ThreadShaped(data) && 0 <= j < |data| && 0 <= i < |data|
  {
    data[j]["id"] == data[i]["parent"] && StrictlyAfter(TimeOf(data[i]["timestamp"]), TimeOf(data[j]["timestamp"]))
  }

  /** Message `i` has a parent among the messages before it. */
  predicate HasParent(data: seq<Item>, i: int)
    requires ThreadShaped(data) && 0 <= i < |data|
  {
    exists j :: 0 <= j < i && ParentOf(data, j, i)
  }

  /**
   * A well-formed thread: the first message has no parent, the ids are
   * unique, and every later message's parent is an earlier message with a
   * strictly earlier timestamp.
   */
  predicate WellFormedThread(data: seq<Item>) {
    && data != []
    && ThreadShaped(data)
    && data[0]["parent"] == Null
    && (forall i, j :: 0 <= i < j < |data| ==> data[i]["id"] != data[j]["id"])
    && (forall i :: 1 <= i < |data| ==> HasParent(data, i))
  }

  /** The id-to-timestamp map of a list of messages. */
  function Timestamps(data: seq<Item>): map<Value, Value>
    requires ThreadShaped(data)
  {
    if data == [] then map[]
    else Timestamps(data[..|data| - 1])[data[|data| - 1]["id"] := data[|data| - 1]["timestamp"]]
  }

  lemma {:induction false} TimestampsAt(data: seq<Item>, j: nat)
    requires ThreadShaped(data) && j < |data|
    requires forall i, k :: 0 <= i < k < |data| ==> data[i]["id"] != data[k]["id"]
    ensures data[j]["id"] in Timestamps(data) && Timestamps(data)[data[j]["id"]] == data[j]["timestamp"]
  {
    if j < |data| - 1 {
      var front := data[..|data| - 1];
      assert front[j] == data[j];
      TimestampsAt(front, j);
    }
  }

  lemma {:induction false} TimestampsKeys(data: seq<Item>, k: Value)
    requires ThreadShaped(data)
    ensures k in Timestamps(data) <==> exists j :: 0 <= j < |data| && data[j]["id"] == k
  {
    if data != [] {
      var n := |data| - 1;
      var front := data[..n];
      TimestampsKeys(front, k);
      if k != data[n]["id"] && exists j :: 0 <= j < |data| && data[j]["id"] == k {
        var j :| 0 <= j < |data| && data[j]["id"] == k;
        assert front[j] == data[j];
      }
    }
  }

  /** Every non-empty prefix of a well-formed thread is well formed. */
  lemma FrontWellFormed(data: seq<Item>)
    requires WellFormedThread(data) && |data| >= 2
    ensures WellFormedThread(data[..|data| - 1])
  {
    var front := data[..|data| - 1];
    forall i | 1 <= i < |front|
      ensures HasParent(front, i)
    {
      assert HasParent(data, i);
      var j :| 0 <= j < i && ParentOf(data, j, i);
      assert front[j] == data[j] && front[i] == data[i];
      assert ParentOf(front, j, i);
    }
  }

  /** A well-formed thread extended by a message with a fresh id and an older parent is well formed. */
  lemma ExtendWellFormed(data: seq<Item>, j: nat)
    requires |data| >= 2 && WellFormedThread(data[..|data| - 1]) && ThreadShaped(data)
    requires forall i :: 0 <= i < |data| - 1 ==> data[i]["id"] != data[|data| - 1]["id"]
    requires j < |data| - 1 && ParentOf(data, j, |data| - 1)
    ensures WellFormedThread(data)
  {
    var n := |data| - 1;
    var front := data[..n];
    assert front[0] == data[0];
    forall i, k | 0 <= i < k < |data|
      ensures data[i]["id"] != data[k]["id"]
    {
      if k < n {
        assert front[i] == data[i] && front[k] == data[k];
      }
    }
    forall i | 1 <= i < |data|
      ensures HasParent(data, i)
    {
      if i < n {
        assert HasParent(front, i);
        var k :| 0 <= k < i && ParentOf(front, k, i);
        assert front[k] == data[k] && front[i] == data[i];
        assert ParentOf(data, k, i);
      } else {
        assert ParentOf(data, j, i);
      }
    }
  }

  /** A well-formed thread passes the validation with the map of all its timestamps. */
  lemma {:induction false} WellFormedThreadAccepted(data: seq<Item>)
    requires WellFormedThread(data)
    ensures ThreadCheck(data) == Ok(Timestamps(data))
  {
    var n := |data| - 1;
    if n == 0 {
      assert data[..0] == [];
    } else {
      var front := data[..n];
      var d := data[n];
      FrontWellFormed(data);
      WellFormedThreadAccepted(front);
      TimestampsKeys(front, d["id"]);
      assert HasParent(data, n);
      var j :| 0 <= j < n && ParentOf(data, j, n);
      TimestampsAt(front, j);
      assert front[j] == data[j];
    }
  }

  /** Whatever the validation accepts is a well-formed thread, with the map of all its timestamps. */
  lemma {:induction false} AcceptedThreadWellFormed(data: seq<Item>)
    requires data != [] && ThreadCheck(data).Ok?
    ensures WellFormedThread(data) && ThreadCheck(data).value == Timestamps(data)
  {
    var n := |data| - 1;
    if n == 0 {
      assert data[..0] == [];
    } else {
      var front := data[..n];
      var d := data[n];
      AcceptedThreadWellFormed(front);
      var m := ThreadCheck(front).value;
      assert ThreadStep(m, d).Ok?;
      assert ThreadShaped(data) by {
        forall i | 0 <= i < |data|
          ensures "id" in data[i] && "parent" in data[i] && "timestamp" in data[i]
        {
          if i < n {
            assert front[i] == data[i];
          }
        }
      }
      TimestampsKeys(front, d["id"]);
      forall i | 0 <= i < n
        ensures data[i]["id"] != d["id"]
      {
        assert front[i] == data[i];
      }
      TimestampsKeys(front, d["parent"]);
      var j :| 0 <= j < n && front[j]["id"] == d["parent"];
      TimestampsAt(front, j);
      assert front[j] == data[j];
      ExtendWellFormed(data, j);
    }
  }

  /**
   * The validation of `add_multiple` accepts exactly the well-formed
   * threads, and then its `parents` map holds every message's timestamp.
   */
  lemma ThreadCheckAcceptsWellFormed(data: seq<Item>)
    requires data != []
    ensures ThreadCheck(data).Ok? <==> WellFormedThread(data)
    ensures ThreadCheck(data).Ok? ==> ThreadCheck(data).value == Timestamps(data)
  {
    if WellFormedThread(data) {
      WellFormedThreadAccepted(data);
    } else if ThreadCheck(data).Ok? {
      AcceptedThreadWellFormed(data);
    }
  }

  /**
   * `add_multiple`'s validation loop: the first message must have no
   * parent, then each later one is checked against the `parents` map.
   */
  method ValidateThread(data: seq<Item>) returns (r: Result<map<Value, Value>>)
    requires data != []
    ensures r == ThreadCheck(data)
  {
    assert data[..1] == [data[0]];
    var parent := Field(data[0], "parent");
    if parent.Err? {
      ThreadCheckStops(data, 1);
      return Err(parent.error);
    }
    if parent.value != Null {
      ThreadCheckStops(data, 1);
      return Err(MisshapedData);
    }
    var id := Field(data[0], "id");
    if id.Err? {
      ThreadCheckStops(data, 1);
      return Err(id.error);
    }
    var ts := Field(data[0], "timestamp");
    if ts.Err? {
      ThreadCheckStops(data, 1);
      return Err(ts.error);
    }
    var parents := map[id.value := ts.value];
    var i := 1;
    while i < |data|
      invariant 1 <= i <= |data|
      invariant ThreadCheck(data[..i]) == Ok(parents)
    {
      assert data[..i + 1][..i] == data[..i];
      var step := ThreadStep(parents, data[i]);
      if step.Err? {
        ThreadCheckStops(data, i + 1);
        return step;
      }
      parents := step.value;
      i := i + 1;
    }
    assert data[..|data|] == data;
    return Ok(parents);
  }

  /** Once a prefix of the thread is refused, so is the whole thread, for the same reason. */
  lemma {:induction false} ThreadCheckStops(data: seq<Item>, n: nat)
    requires 1 <= n <= |data|
    requires ThreadCheck(data[..n]).Err?
    ensures ThreadCheck(data) == ThreadCheck(data[..n])
    decreases |data| - n
  {
    if n < |data| {
      assert data[..n + 1][..n] == data[..n];
      ThreadCheckStops(data, n + 1);
    } else {
      assert data[..n] == data;
    }
  }

  /** `{p['address']: p['id'] for p in participants}`; a later participant with the same address wins. */
  function AuthorIds(ps: seq<Item>): (r: Result<map<Value, Value>>)
    ensures r.Ok? <==> forall i :: 0 <= i < |ps| ==> "address" in ps[i] && "id" in ps[i]
    ensures r.Err? ==> r.error == KeyError
  {
    if ps == [] then Ok(map[])
    else
      var front := ps[..|ps| - 1];
      var p := ps[|ps| - 1];
      assert forall i :: 0 <= i < |ps| - 1 ==> ps[i] == front[i];
      var m :- AuthorIds(front);
      if "address" in p && "id" in p then Ok(m[p["address"] := p["id"]]) else Err(KeyError)
  }

  /** Every message's author address replaced by that participant's id; KeyError for an unknown author. */
  function RewriteAuthorIds(lookup: map<Value, Value>, data: seq<Item>): (r: Result<seq<Item>>)
    ensures r.Ok? <==> forall i :: 0 <= i < |data| ==> "author" in data[i] && data[i]["author"] in lookup
    ensures r.Err? ==> r.error == KeyError
    ensures r.Ok? ==> (|r.value| == |data|
      && forall i :: 0 <= i < |data| ==> r.value[i] == data[i]["author" := lookup[data[i]["author"]]])
  {
    if data == [] then Ok([])
    else
      var front := data[..|data| - 1];
      var d := data[|data| - 1];
      assert forall i :: 0 <= i < |data| - 1 ==> data[i] == front[i];
      var done :- RewriteAuthorIds(lookup, front);
      if "author" in d && d["author"] in lookup then Ok(done + [d["author" := lookup[d["author"]]]])
      else Err(KeyError)
  }

  /**
   * `add_multiple`: nothing for an empty list; otherwise the thread must
   * be well formed and every author a participant address; the messages
   * are then stored, in list order, with author ids.
   */
  function AddMultipleOf(tables: map<string, Table>, data: seq<Item>): (r: Result<seq<Item>>)
    requires TablesValid(tables)
    ensures data == [] ==> r == Ok([])
    ensures data != [] && r.Ok? ==> WellFormedThread(data) && |r.value| == |data|
    ensures data != [] ==> (r.Ok? <==>
      && WellFormedThread(data)
      && AuthorIds(Items(tables, PARTICIPANTS)).Ok?
      && forall i :: 0 <= i < |data| ==>
           "author" in data[i] && data[i]["author"] in AuthorIds(Items(tables, PARTICIPANTS)).value)
    ensures data != [] && !WellFormedThread(data) ==> ThreadCheck(data).Err? && r == Err(ThreadCheck(data).error)
    ensures data != [] && r.Ok? ==>
      forall i :: 0 <= i < |data| ==>
        r.value[i] == data[i]["author" := AuthorIds(Items(tables, PARTICIPANTS)).value[data[i]["author"]]]
  {
    if data == [] then Ok([])
    else
      ThreadCheckAcceptsWellFormed(data);
      var parents :- ThreadCheck(data);
      var lookup :- AuthorIds(Items(tables, PARTICIPANTS));
      RewriteAuthorIds(lookup, data)
  }

  method AddMultiple(cds: ConvHandle, data: seq<Item>) returns (o: Outcome)
    requires cds.rec.Valid()
    modifies cds.rec`tables, cds.rec`participantCounter
    ensures cds.rec.Valid()
    ensures data == [] ==> o == Pass && cds.rec.tables == old(cds.rec.tables)
    ensures var m := AddMultipleOf(old(cds.rec.tables), data);
      && (m.Err? ==> o == Fail(m.error) && cds.rec.tables == old(cds.rec.tables)
                     && cds.rec.participantCounter == old(cds.rec.participantCounter))
      && (m.Ok? ==> var b := AddAll(old(cds.rec.tables), old(cds.rec.participantCounter), MESSAGES, m.value);
            && cds.rec.tables == b.tables && cds.rec.participantCounter == b.counter
            && (o.Pass? <==> b.error.None?))
  {
    if data == [] {
      return Pass;
    }
    var parents := ValidateThread(data);
    if parents.Err? {
      return Fail(parents.error);
    }
    var ps := cds.GetAllComponentItems(PARTICIPANTS);
    var lookup := AuthorIds(ps);
    if lookup.Err? {
      return Fail(lookup.error);
    }
    var rewritten := RewriteAuthorIds(lookup.value, data);
    if rewritten.Err? {
      return Fail(rewritten.error);
    }
    o := cds.AddMultipleComponents(MESSAGES, rewritten.value);
  }

  /** Every message of a validated thread has an id, so storing it in bulk never fails. */
  lemma {:induction false} AddAllWithIds(tables: map<string, Table>, counter: nat, model: string, data: seq<Item>)
    requires model != PARTICIPANTS
    requires forall i :: 0 <= i < |data| ==> "id" in data[i]
    ensures AddAll(tables, counter, model, data).error == None
    ensures AddAll(tables, counter, model, data).counter == counter
  {
    if data != [] {
      var front := data[..|data| - 1];
      assert forall i :: 0 <= i < |front| ==> front[i] == data[i];
      AddAllWithIds(tables, counter, model, front);
    }
  }
}

module Participants {

  import opened Common
  import opened Interactions
  import opened Store
  import opened Components

  /** The item `_add` stores for a participant; the store supplies the id. */
  function ParticipantItem(address: string, permissions: Value): Item {
    map["address" := Str(address), "permissions" := permissions]
  }

  /** `add`'s checks: FULL or WRITE, and only FULL may grant FULL. */
  function CheckAdd(a: Action, permissions: Value): (o: Outcome)
    ensures o.Pass? <==> WriteOrFull(a.perm) && !(a.perm == Perm(Write) && permissions == Perm(Full))
    ensures o.Fail? ==> o.error == InsufficientPermissions
  {
    if !WriteOrFull(a.perm) then Fail(InsufficientPermissions)
    else if a.perm == Perm(Write) && permissions == Perm(Full) then Fail(InsufficientPermissions)
    else Pass
  }

  /**
   * `delete`'s checks: FULL or WRITE, the address must be a participant,
   * and only FULL may remove a FULL participant. The result is the id to
   * delete.
   */
  function CheckDelete(a: Action, ps: seq<Item>, address: string): (r: Result<Value>)
    ensures r.Ok? <==> (WriteOrFull(a.perm) && FindParticipant(ps, address).Ok?
      && !(a.perm == Perm(Write) && FindParticipant(ps, address).value.1 == Perm(Full)))
    ensures r.Ok? ==> r.value == FindParticipant(ps, address).value.0
    ensures !WriteOrFull(a.perm) ==> r == Err(InsufficientPermissions)
  {
    if !WriteOrFull(a.perm) then Err(InsufficientPermissions)
    else
      var (pid, perm) :- FindParticipant(ps, address);
      if a.perm == Perm(Write) && perm == Perm(Full) then Err(InsufficientPermissions)
      else Ok(pid)
  }

  /** `_add`: stores the participant under the next participant id and returns it. */
  method AddParticipant(cds: ConvHandle, address: string, permissions: Value) returns (id: Value)
    requires cds.rec.Valid()
    modifies cds.rec`tables, cds.rec`participantCounter
    ensures cds.rec.Valid()
    ensures id == Int(old(cds.rec.participantCounter))
    ensures cds.rec.participantCounter == old(cds.rec.participantCounter) + 1
    ensures cds.rec.tables == old(cds.rec.tables)[PARTICIPANTS :=
      TableOf(old(cds.rec.tables), PARTICIPANTS).Put(id, ParticipantItem(address, permissions)["id" := id])]
  {
    var r := cds.AddComponent(PARTICIPANTS, ParticipantItem(address, permissions));
    id := r.value;
  }

  /** `add_first`: the creator joins with FULL permissions. */
  method AddFirst(cds: ConvHandle, address: string) returns (id: Value)
    requires cds.rec.Valid()
    modifies cds.rec`tables, cds.rec`participantCounter
    ensures cds.rec.Valid()
    ensures id == Int(old(cds.rec.participantCounter))
    ensures cds.rec.participantCounter == old(cds.rec.participantCounter) + 1
    ensures cds.rec.tables == old(cds.rec.tables)[PARTICIPANTS :=
      TableOf(old(cds.rec.tables), PARTICIPANTS).Put(id, ParticipantItem(address, Perm(Full))["id" := id])]
  {
    id := AddParticipant(cds, address, Perm(Full));
  }

  /**
   * What `add` answers and the tables and participant counter it leaves:
   * when its checks pass, the participant is stored under the counter's
   * value, which becomes the action's item and the result, and the
   * counter advances; otherwise nothing changes.
   */
  function AddOf(a: Action, address: string, permissions: Value, tables: map<string, Table>, counter: nat)
    : (s: (Result<Effect>, map<string, Table>, nat))
    ensures s.0.Ok? <==> CheckAdd(a, permissions).Pass?
    ensures s.0.Err? ==> s.0.error == InsufficientPermissions && s.1 == tables && s.2 == counter
    ensures s.0.Ok? ==>
      && s.0.value.action == a.(item := Int(counter)) && s.0.value.result == Int(counter)
      && s.2 == counter + 1
      && PARTICIPANTS in s.1 && Int(counter) in s.1[PARTICIPANTS].rows
      && s.1[PARTICIPANTS].rows[Int(counter)]
         == map["address" := Str(address), "permissions" := permissions, "id" := Int(counter)]
      && (forall m :: m in tables && m != PARTICIPANTS ==> m in s.1 && s.1[m] == tables[m])
  {
    if CheckAdd(a, permissions).Fail? then (Err(InsufficientPermissions), tables, counter)
    else
      var id := Int(counter);
      (Ok(Effect(a.(item := id), [("b_address", Str(address)), ("b_permissions", permissions)], id)),
       tables[PARTICIPANTS := TableOf(tables, PARTICIPANTS).Put(id, ParticipantItem(address, permissions)["id" := id])],
       counter + 1)
  }

  /** `add`: after the checks, adds the participant and reports the event; returns the new id. */
  method Add(cds: ConvHandle, a: Action, address: string, permissions: Value) returns (r: Result<Effect>)
    requires cds.rec.Valid()
    modifies cds.rec`tables, cds.rec`participantCounter
    ensures cds.rec.Valid()
    ensures (r, cds.rec.tables, cds.rec.participantCounter)
            == AddOf(a, address, permissions, old(cds.rec.tables), old(cds.rec.participantCounter))
    ensures var c := CheckAdd(a, permissions);
      && (c.Fail? ==> r == Err(c.error) && cds.rec.tables == old(cds.rec.tables)
                      && cds.rec.participantCounter == old(cds.rec.participantCounter))
      && (c.Pass? ==>
            var id := Int(old(cds.rec.participantCounter));
            && r == Ok(Effect(a.(item := id), [("b_address", Str(address)), ("b_permissions", permissions)], id))
            && cds.rec.participantCounter == old(cds.rec.participantCounter) + 1
            && cds.rec.tables == old(cds.rec.tables)[PARTICIPANTS :=
                 TableOf(old(cds.rec.tables), PARTICIPANTS).Put(id, ParticipantItem(address, permissions)["id" := id])])
  {
    var c := CheckAdd(a, permissions);
    if c.Fail? {
      return Err(c.error);
    }
    var id := AddParticipant(cds, address, permissions);
    return Ok(Effect(a.(item := id), [("b_address", Str(address)), ("b_permissions", permissions)], id));
  }

  /**
   * What `delete` answers and the tables it leaves: when the checks pass,
   * exactly the row of the participant with that address is gone;
   * otherwise the check's error with the tables unchanged.
   */
  function DeleteOf(a: Action, address: string, tables: map<string, Table>)
    : (s: (Result<Effect>, map<string, Table>))
    requires TablesValid(tables)
    ensures CheckDelete(a, Items(tables, PARTICIPANTS), address).Err? ==>
      s == (Err(CheckDelete(a, Items(tables, PARTICIPANTS), address).error), tables)
    ensures s.0.Err? ==> s.1 == tables
    ensures s.0.Ok? ==>
      && CheckDelete(a, Items(tables, PARTICIPANTS), address).Ok?
      && var pid := CheckDelete(a, Items(tables, PARTICIPANTS), address).value;
      && s.0.value.action == a
      && PARTICIPANTS in tables && s.1.Keys == tables.Keys
      && s.1[PARTICIPANTS].rows == tables[PARTICIPANTS].rows - {pid}
      && (forall m :: m in tables && m != PARTICIPANTS ==> s.1[m] == tables[m])
  {
    match CheckDelete(a, Items(tables, PARTICIPANTS), address)
    case Err(e) => (Err(e), tables)
    case Ok(pid) =>
      match DeleteItem(tables, PARTICIPANTS, pid)
      case Err(e) => (Err(e), tables)
      case Ok(t) => (Ok(Effect(a, [("b_address", Str(address))], Null)), t)
  }

  /** `delete`: after the checks, removes the participant and reports the event. */
  method Delete(cds: ConvHandle, a: Action, address: string) returns (r: Result<Effect>)
    requires cds.rec.Valid()
    modifies cds.rec`tables
    ensures cds.rec.Valid()
    ensures (r, cds.rec.tables) == DeleteOf(a, address, old(cds.rec.tables))
    ensures var c := CheckDelete(a, Items(old(cds.rec.tables), PARTICIPANTS), address);
      && (c.Err? ==> r == Err(c.error) && cds.rec.tables == old(cds.rec.tables))
      && (c.Ok? ==>
            var e := DeleteItem(old(cds.rec.tables), PARTICIPANTS, c.value);
            && (e.Err? ==> r == Err(e.error) && cds.rec.tables == old(cds.rec.tables))
            && (e.Ok? ==> r == Ok(Effect(a, [("b_address", Str(address))], Null)) && cds.rec.tables == e.value))
  {
    if !WriteOrFull(a.perm) {
      return Err(InsufficientPermissions);
    }
    var found := cds.GetParticipant(address);
    if found.Err? {
      return Err(found.error);
    }
    var (pid, perm) := found.value;
    if a.perm == Perm(Write) && perm == Perm(Full) {
      return Err(InsufficientPermissions);
    }
    var o := cds.DeleteComponent(PARTICIPANTS, pid);
    if o.Fail? {
      return Err(o.error);
    }
    return Ok(Effect(a, [("b_address", Str(address))], Null));
  }

  /** The items `add_multiple` prepares from (address, permissions) pairs. */
  function PreparedParticipants(data: seq<(string, Value)>): (r: seq<Item>)
    ensures |r| == |data|
    ensures forall i :: 0 <= i < |data| ==> r[i] == ParticipantItem(data[i].0, data[i].1)
  {
    seq(|data|, i requires 0 <= i < |data| => ParticipantItem(data[i].0, data[i].1))
  }

  /**
   * `add_multiple`: every (address, permissions) pair becomes a participant,
   * in list order, under successive ids; it never fails.
   */
  method AddMultiple(cds: ConvHandle, data: seq<(string, Value)>)
    requires cds.rec.Valid()
    modifies cds.rec`tables, cds.rec`participantCounter
    ensures cds.rec.Valid()
    ensures cds.rec.participantCounter == old(cds.rec.participantCounter) + |data|
    ensures AppendedTo(TableOf(old(cds.rec.tables), PARTICIPANTS), old(cds.rec.participantCounter),
                       PreparedParticipants(data), TableOf(cds.rec.tables, PARTICIPANTS))
    ensures forall m :: m in old(cds.rec.tables) && m != PARTICIPANTS ==>
      m in cds.rec.tables && cds.rec.tables[m] == old(cds.rec.tables)[m]
  {
    var prepared := PreparedParticipants(data);
    AddAllParticipantsTable(cds.rec.tables, cds.rec.participantCounter, prepared);
    AppendParticipantsMeaning(TableOf(cds.rec.tables, PARTICIPANTS), cds.rec.participantCounter, prepared);
    var o := cds.AddMultipleComponents(PARTICIPANTS, prepared);
  }
}

=== FILE: fallback.dfy ===
/**
 * The email fallback of em2/fallback/__init__.py: for participants whose
 * platform does not run em2, an action becomes an email from the actor to
 * every other participant, whose body is chosen by the action's component
 * and verb and carries a footer in plain text and in HTML.
 *
 * Sending the email (`send_message`) is external: the handler here returns
 * the email it would send.
 */
module Fallback {

  import opened Common
  import opened Strings

  /**
   * What the handler reads of an action: the actor's address, component,
   * verb, item, the message body and the conversation key.
   */
  datatype FallbackAction = FallbackAction(actor: string, component: string, verb: string, item: Value,
                                           body: string, convKey: string)

  /** An email as `send_message` receives it. */
  datatype Email = Email(from: Option<string>, to: seq<string>, bcc: seq<string>, subject: string,
                         plainBody: string, htmlBody: string)

  // ---------------------------------------------------------------------------
  // Senders and recipients

  /** The addresses other than the actor's, in their order. */
  function Others(addresses: seq<string>, actor: string): (to: seq<string>)
    ensures actor !in to && |to| <= |addresses|
    ensures forall x :: x in to ==> x in addresses
  {
    if addresses == [] then []
    else
      var front := Others(addresses[..|addresses| - 1], actor);
      if addresses[|addresses| - 1] == actor then front else front + [addresses[|addresses| - 1]]
  }

  /**
   * Every address is the actor's or one of the recipients, and the
   * recipients are exactly the other addresses, each as often as it occurs.
   */
  lemma {:induction false} OthersMeaning(addresses: seq<string>, actor: string)
    ensures forall x :: x in Others(addresses, actor) <==> x in addresses && x != actor
    ensures multiset(Others(addresses, actor)) == multiset(addresses)[actor := 0]
    ensures |Others(addresses, actor)| == |addresses| - multiset(addresses)[actor]
  {
    if addresses != [] {
      var n := |addresses| - 1;
      OthersMeaning(addresses[..n], actor);
      assert addresses == addresses[..n] + [addresses[n]];
      assert multiset(addresses) == multiset(addresses[..n]) + multiset{addresses[n]};
    }
  }

  /** Recipients keep the order of the addresses: the filter distributes over concatenation. */
  lemma {:induction false} OthersAppend(a: seq<string>, b: seq<string>, actor: string)
    ensures Others(a + b, actor) == Others(a, actor) + Others(b, actor)
  {
    if b != [] {
      var n := |b| - 1;
      assert (a + b)[..|a + b| - 1] == a + b[..n];
      OthersAppend(a, b[..n], actor);
    } else {
      assert a + b == a;
    }
  }

  /**
   * `get_from_to_bcc`: the address equal to the actor's is the sender,
   * every other one a recipient, in order; there is no blind copy.
   */
  method GetFromToBcc(actor: string, addresses: seq<string>) returns (from: Option<string>, to: seq<string>, bcc: seq<string>)
    ensures from == (if actor in addresses then Some(actor) else None)
    ensures to == Others(addresses, actor)
    ensures bcc == []
  {
    from := None;
    to := [];
    bcc := [];
    var i := 0;
    while i < |addresses|
      invariant 0 <= i <= |addresses|
      invariant from == (if actor in addresses[..i] then Some(actor) else None)
      invariant to == Others(addresses[..i], actor)
    {
      assert addresses[..i + 1][..i] == addresses[..i];
      assert addresses[..i + 1] == addresses[..i] + [addresses[i]];
      if addresses[i] == actor {
        from := Some(addresses[i]);
      } else {
        to := to + [addresses[i]];
      }
      i := i + 1;
    }
    assert addresses[..i] == addresses;
  }

  // ---------------------------------------------------------------------------
  // The body

  const ADDING_PREFIX: string := "adding "
  const ADDING_SUFFIX: string := " to the conversation"
  const REMOVING_PREFIX: string := "removing "
  const REMOVING_SUFFIX: string := " from the conversation"

  /**
   * The body of the email: a message's own body when one is added; a
   * sentence naming the participant added or removed; NotImplemented for
   * the other verbs of those components, and no body at all (Python's
   * UnboundLocalError) for any other component.
   */
  function FallbackBody(a: FallbackAction): (r: Result<string>)
    ensures r.Ok? <==> (a.component == MESSAGES && a.verb == ADD)
                       || (a.component == PARTICIPANTS && (a.verb == ADD || a.verb == DELETE))
    ensures a.component == MESSAGES && a.verb == ADD ==> r == Ok(a.body)
    ensures r.Err? ==> r.error == (if a.component in {MESSAGES, PARTICIPANTS} then NotImplemented else UnboundLocalError)
  {
    if a.component == MESSAGES then
      if a.verb == ADD then Ok(a.body) else Err(NotImplemented)
    else if a.component == PARTICIPANTS then
      if a.verb == ADD then Ok(ADDING_PREFIX + Render(a.item) + ADDING_SUFFIX)
      else if a.verb == DELETE then Ok(REMOVING_PREFIX + Render(a.item) + REMOVING_SUFFIX)
      else Err(NotImplemented)
    else Err(UnboundLocalError)
  }

  /** The sentence for a participant change names the item: cutting the fixed words off gives it back. */
  lemma ParticipantBodyNamesItem(a: FallbackAction)
    requires a.component == PARTICIPANTS && (a.verb == ADD || a.verb == DELETE)
    ensures var b := FallbackBody(a).value;
      var (pre, suf) := if a.verb == ADD then (ADDING_PREFIX, ADDING_SUFFIX) else (REMOVING_PREFIX, REMOVING_SUFFIX);
      && |b| == |pre| + |Render(a.item)| + |suf|
      && b[..|pre|] == pre && b[|b| - |suf|..] == suf
      && b[|pre|..|b| - |suf|] == Render(a.item)
  {
  }

  // ---------------------------------------------------------------------------
  // Footers

  /** `{conv_id:.6}`: at most the first six characters. */
  function Trunc6(s: string): (t: string)
    ensures |t| == if |s| < 6 then |s| else 6
    ensures t == s[..|t|]
  {
    if |s| <= 6 then s else s[..6]
  }

  /** The footer message around the truncated conversation id. */
  const FOOTER_HEAD: string := "You're participating in the em2 conversation "
  const FOOTER_TAIL: string :=
    ". Reply to this email to contribute to the conversation.\n"
    + "You might consider upgrading to email 2.0 to get a greatly improved email experience."

  function FooterMessage(convId: string): string {
    FOOTER_HEAD + Trunc6(convId) + FOOTER_TAIL
  }

  const PLAIN_OPEN: string := "\n\n--\n"
  const HTML_OPEN: string := "\n<p style=\"font-size:small;color:#666;\">&mdash;<br>\n"
  const HTML_CLOSE: string := "</p>\n"

  /**
   * The plain footer opens with the signature separator `--` on a line of
   * its own, ends with a line break, and is never longer than with a
   * six-character id.
   */
  function PlainFooter(convId: string): (f: string)
    ensures |f| > |PLAIN_OPEN| && f[..|PLAIN_OPEN|] == PLAIN_OPEN && f[|f| - 1] == '\n'
    ensures |f| <= |PLAIN_OPEN| + |FOOTER_HEAD| + 6 + |FOOTER_TAIL| + 1
  {
    var f := PLAIN_OPEN + FooterMessage(convId) + "\n";
    assert f[..|PLAIN_OPEN|] == PLAIN_OPEN;
    f
  }

  /** `plain_format`: the body, unchanged, then the signature separator opening the footer. */
  function PlainFormat(body: string, convId: string): (p: string)
    ensures |p| > |body| + |PLAIN_OPEN| && p[..|body|] == body
    ensures p[|body|..|body| + |PLAIN_OPEN|] == PLAIN_OPEN
  {
    var p := body + PlainFooter(convId);
    assert p[..|body|] == body;
    assert p[|body|..|body| + |PLAIN_OPEN|] == PlainFooter(convId)[..|PLAIN_OPEN|];
    p
  }

  /**
   * The plain email starts with the body, and its footer names the
   * conversation by at most six characters of its id.
   */
  lemma PlainFormatParts(body: string, convId: string)
    ensures var p := PlainFormat(body, convId);
      var at := |body| + |PLAIN_OPEN| + |FOOTER_HEAD|;
      && p[..|body|] == body
      && p[|body|..] == PlainFooter(convId)
      && at + |Trunc6(convId)| <= |p|
      && p[at..at + |Trunc6(convId)|] == Trunc6(convId)
      && Trunc6(convId) == convId[..|Trunc6(convId)|]
  {
    Placed(body, PLAIN_OPEN, FOOTER_HEAD, Trunc6(convId), FOOTER_TAIL, "\n");
  }

  /** Where the pieces of `b + (o + (h + m + t) + e)` sit. */
  lemma Placed(b: string, o: string, h: string, m: string, t: string, e: string)
    ensures var p := b + (o + (h + m + t) + e);
      var at := |b| + |o| + |h|;
      && p[..|b|] == b && p[|b|..] == o + (h + m + t) + e
      && at + |m| <= |p| && p[at..at + |m|] == m
  {
    var p := b + (o + (h + m + t) + e);
    var at := |b| + |o| + |h|;
    assert p == (b + o + h) + m + (t + e);
  }

  /** `s.replace('\n', '<br>\n')` */
  function ReplaceNewlines(s: string): string {
    if s == [] then []
    else (if s[0] == '\n' then "<br>\n" else [s[0]]) + ReplaceNewlines(s[1..])
  }

  lemma {:induction false} ReplaceNewlinesAppend(a: string, b: string)
    ensures ReplaceNewlines(a + b) == ReplaceNewlines(a) + ReplaceNewlines(b)
  {
    if a != [] {
      assert (a + b)[0] == a[0] && (a + b)[1..] == a[1..] + b;
      ReplaceNewlinesAppend(a[1..], b);
    } else {
      assert a + b == b;
    }
  }

  lemma {:induction false} ReplaceNewlinesNone(s: string)
    requires '\n' !in s
    ensures ReplaceNewlines(s) == s
  {
    if s != [] {
      assert '\n' !in s[1..];
      ReplaceNewlinesNone(s[1..]);
    }
  }

  /**
   * The HTML footer: the footer message with every line break written as
   * `<br>` and a break, in a small grey paragraph. The breaks are replaced
   * in the message before the conversation id is put in.
   */
  function HtmlFooter(convId: string): (f: string)
    ensures |f| >= |HTML_OPEN| + |HTML_CLOSE|
    ensures f[..|HTML_OPEN|] == HTML_OPEN && f[|f| - |HTML_CLOSE|..] == HTML_CLOSE
  {
    Bracketed(HTML_OPEN, ReplaceNewlines(FOOTER_HEAD), Trunc6(convId), ReplaceNewlines(FOOTER_TAIL), HTML_CLOSE);
    HTML_OPEN + ReplaceNewlines(FOOTER_HEAD) + Trunc6(convId) + ReplaceNewlines(FOOTER_TAIL) + HTML_CLOSE
  }

  /** `o + a + b + c + e` starts with `o` and ends with `e`. */
  lemma Bracketed(o: string, a: string, b: string, c: string, e: string)
    ensures var s := o + a + b + c + e; |s| >= |o| + |e| && s[..|o|] == o && s[|s| - |e|..] == e
  {
    var s := o + a + b + c + e;
    assert s == o + (a + b + c) + e;
  }

  /** For an id whose first six characters hold no line break, the HTML footer is the whole message with its breaks replaced. */
  lemma HtmlFooterOfMessage(convId: string)
    requires '\n' !in Trunc6(convId)
    ensures HtmlFooter(convId) == HTML_OPEN + ReplaceNewlines(FooterMessage(convId)) + HTML_CLOSE
  {
    ReplacedAround(HTML_OPEN, FOOTER_HEAD, Trunc6(convId), FOOTER_TAIL, HTML_CLOSE);
  }

  /** Replacing line breaks in `h + m + t` leaves a middle `m` without line breaks as it is. */
  lemma ReplacedAround(o: string, h: string, m: string, t: string, c: string)
    requires '\n' !in m
    ensures o + ReplaceNewlines(h) + m + ReplaceNewlines(t) + c == o + ReplaceNewlines(h + m + t) + c
  {
    ReplaceNewlinesNone(m);
    ReplaceNewlinesAppend(h, m);
    ReplaceNewlinesAppend(h + m, t);
  }

  // ---------------------------------------------------------------------------
  // Lines

  /** `s.split(sep)` for a one-character separator: at least one part, none holding the separator. */
  function Split(s: string, sep: char): (parts: seq<string>)
    ensures |parts| >= 1
    ensures forall i :: 0 <= i < |parts| ==> sep !in parts[i]
    decreases |s|
  {
    match IndexOf(s, sep)
    case None => [s]
    case Some(i) => [s[..i]] + Split(s[i + 1..], sep)
  }

  /** `sep.join(parts)` */
  function Join(sep: string, parts: seq<string>): string {
    if parts == [] then ""
    else if |parts| == 1 then parts[0]
    else parts[0] + sep + Join(sep, parts[1..])
  }

  lemma JoinCons(sep: string, a: string, ps: seq<string>)
    requires |ps| >= 1
    ensures Join(sep, [a] + ps) == a + sep + Join(sep, ps)
  {
    assert ([a] + ps)[1..] == ps;
  }

  /** Joining the parts of a split with the separator gives the string back. */
  lemma {:induction false} JoinSplit(s: string, sep: char)
    ensures Join([sep], Split(s, sep)) == s
    decreases |s|
  {
    var r := IndexOf(s, sep);
    if r.Some? {
      var i := r.value;
      JoinSplit(s[i + 1..], sep);
      JoinCons([sep], s[..i], Split(s[i + 1..], sep));
      Around(s, i);
    }
  }

  /** Splitting the join of parts that hold no separator gives the parts back. */
  lemma {:induction false} SplitJoin(parts: seq<string>, sep: char)
    requires |parts| >= 1 && forall i :: 0 <= i < |parts| ==> sep !in parts[i]
    ensures Split(Join([sep], parts), sep) == parts
  {
    if |parts| > 1 {
      var rest := Join([sep], parts[1..]);
      var s := parts[0] + [sep] + rest;
      assert Join([sep], parts) == s;
      assert s[..|parts[0]|] == parts[0];
      IndexOfAt(s, sep, |parts[0]|);
      assert s[|parts[0]| + 1..] == rest;
      SplitJoin(parts[1..], sep);
    } else {
      assert IndexOf(parts[0], sep).None?;
    }
  }

  /** Replacing each line break is joining the lines with `<br>` and a break. */
  lemma {:induction false} ReplaceNewlinesIsJoin(s: string)
    ensures ReplaceNewlines(s) == Join("<br>\n", Split(s, '\n'))
    decreases |s|
  {
    var r := IndexOf(s, '\n');
    if r.None? {
      ReplaceNewlinesNone(s);
    } else {
      var i := r.value;
      var rest := s[i + 1..];
      ReplaceNewlinesIsJoin(rest);
      JoinCons("<br>\n", s[..i], Split(rest, '\n'));
      Around(s, i);
      ReplaceNewlinesAppend(s[..i] + "\n", rest);
      ReplaceNewlinesAppend(s[..i], "\n");
      ReplaceNewlinesNone(s[..i]);
      assert ReplaceNewlines("\n") == "<br>\n";
    }
  }

  // ---------------------------------------------------------------------------
  // HTML

  /** Each line as its own paragraph followed by a blank line. */
  function Paragraphs(lines: seq<string>): (ps: seq<string>)
    ensures |ps| == |lines|
    ensures forall i :: 0 <= i < |lines| ==> ps[i] == "<p>" + lines[i] + "</p>\n\n"
  {
    seq(|lines|, i requires 0 <= i < |lines| => "<p>" + lines[i] + "</p>\n\n")
  }

  /** `html_format`: the paragraphs of the body's lines, joined by line breaks, then the HTML footer. */
  function HtmlFormat(body: string, convId: string): (h: string)
    ensures |h| >= 3 + |HtmlFooter(convId)|
    ensures h[..3] == "<p>" && h[|h| - |HtmlFooter(convId)|..] == HtmlFooter(convId)
  {
    ParagraphsThenFooter(Split(body, '\n'), HtmlFooter(convId));
    Join("\n", Paragraphs(Split(body, '\n'))) + HtmlFooter(convId)
  }

  /** Paragraphs of at least one line, then a footer: a paragraph first, the footer last. */
  lemma ParagraphsThenFooter(lines: seq<string>, footer: string)
    requires |lines| >= 1
    ensures var h := Join("\n", Paragraphs(lines)) + footer;
      |h| >= 3 + |footer| && h[..3] == "<p>" && h[|h| - |footer|..] == footer
  {
    var ps := Paragraphs(lines);
    var j := Join("\n", ps);
    assert j[..|ps[0]|] == ps[0];
    assert ps[0][..3] == "<p>";
    assert (j + footer)[..3] == j[..3];
  }

  /**
   * The HTML email has one paragraph per line of the body, in order, and
   * those lines joined by line breaks are the body.
   */
  lemma HtmlFormatLines(body: string, convId: string)
    ensures var lines := Split(body, '\n');
      && HtmlFormat(body, convId) == Join("\n", Paragraphs(lines)) + HtmlFooter(convId)
      && Join("\n", lines) == body
      && (forall i :: 0 <= i < |lines| ==> '\n' !in lines[i])
      && |lines| == multiset(body)['\n'] + 1
  {
    JoinSplit(body, '\n');
    SplitCount(body, '\n');
  }

  /** A split has one more part than the string has separators. */
  lemma {:induction false} SplitCount(s: string, sep: char)
    ensures |Split(s, sep)| == multiset(s)[sep] + 1
    decreases |s|
  {
    match IndexOf(s, sep)
    case None =>
      assert multiset(s)[sep] == 0;
    case Some(i) =>
      SplitCount(s[i + 1..], sep);
      assert s == s[..i] + [sep] + s[i + 1..];
      assert multiset(s) == multiset(s[..i]) + multiset{sep} + multiset(s[i + 1..]);
      assert multiset(s[..i])[sep] == 0;
  }

  // ---------------------------------------------------------------------------
  // push

  /**
   * `push`: the email from the actor to the other addresses, under the
   * conversation's subject, with the chosen body in plain text and HTML,
   * both with the footer for the conversation's key.
   */
  method Push(a: FallbackAction, addresses: seq<string>, convSubject: string) returns (r: Result<Email>)
    ensures FallbackBody(a).Err? ==> r == Err(FallbackBody(a).error)
    ensures FallbackBody(a).Ok? ==>
      && r.Ok?
      && r.value.from == (if a.actor in addresses then Some(a.actor) else None)
      && r.value.to == Others(addresses, a.actor) && r.value.bcc == []
      && r.value.subject == convSubject
      && r.value.plainBody == PlainFormat(FallbackBody(a).value, a.convKey)
      && r.value.htmlBody == HtmlFormat(FallbackBody(a).value, a.convKey)
  {
    var from, to, bcc := GetFromToBcc(a.actor, addresses);
    var body := FallbackBody(a);
    if body.Err? {
      return Err(body.error);
    }
    return Ok(Email(from, to, bcc, convSubject, PlainFormat(body.value, a.convKey), HtmlFormat(body.value, a.convKey)));
  }
}

=== FILE: interactions.dfy ===
/**
 * The Action and Retrieval value objects of em2/core/interactions.py:
 * who does what to which component and item of which conversation, and
 * whether it came from another platform.
 */
module Interactions {

  import opened Common

  /**
   * An action. `participantId` and `perm` start as None and are filled in
   * when the acting participant is looked up (`prepare`/`set_participant`).
   */
  datatype Action = Action(
    address: string,
    conv: string,
    verb: string,
    component: string,
    item: Value,
    timestamp: Option<int>,
    eventId: Option<string>,
    parentEventId: Option<string>,
    participantId: Value,
    perm: Value)
  {
    /** An action is remote exactly when it carries the event id another platform gave it. */
    predicate IsRemote() {
      eventId.Some?
    }

    /** Only adding a conversation acts on a conversation this platform does not know yet. */
    predicate KnownConversation() {
      !(component == CONVERSATIONS && verb == ADD)
    }

    /** `calc_event_id`: the hash of timestamp, address, conversation, verb, component and item. */
    function CalcEventId(hash: Hasher): string {
      hash(Sha1, [RawTime(timestamp), Val(Str(address)), Val(Str(conv)), Val(Str(verb)),
                  Val(Str(component)), Val(item)])
    }
  }

  /** `Action(address, conversation, verb, component=CONVERSATIONS, item=None, ...)` */
  function NewAction(address: string, conv: string, verb: string,
                     component: string := CONVERSATIONS, item: Value := Null,
                     timestamp: Option<int> := None, eventId: Option<string> := None,
                     parentEventId: Option<string> := None): Action
  {
    Action(address, conv, verb, component, item, timestamp, eventId, parentEventId, Null, Null)
  }

  /**
   * The id an action's event is recorded under: the id the originating
   * platform gave a remote action, `calc_event_id` for a local one.
   */
  function EventIdOf(a: Action, hash: Hasher): (id: string)
    ensures a.IsRemote() ==> id == a.eventId.value
    ensures !a.IsRemote() ==> id == a.CalcEventId(hash)
  {
    if a.IsRemote() then a.eventId.value else a.CalcEventId(hash)
  }

  /** An action built with the defaults is a local action on the conversation itself. */
  lemma NewActionDefaults(address: string, conv: string, verb: string)
    ensures var a := NewAction(address, conv, verb);
      && a.component == CONVERSATIONS && a.item == Null && a.timestamp == None
      && !a.IsRemote() && a.parentEventId == None
      && (a.KnownConversation() <==> verb != ADD)
  {
  }

  /**
   * `calc_event_id` depends on the six hashed fields only: two actions that
   * agree on them get the same event id whatever their other fields.
   */
  lemma CalcEventIdDeterministic(a: Action, b: Action, hash: Hasher)
    requires a.timestamp == b.timestamp && a.address == b.address && a.conv == b.conv
    requires a.verb == b.verb && a.component == b.component && a.item == b.item
    ensures a.CalcEventId(hash) == b.CalcEventId(hash)
  {
  }

  /** Retrieval verbs. */
  datatype RVerb = Get | List | Search

  /** A request to read data; `remote` is the flag given at construction. */
  datatype Retrieval = Retrieval(address: string, conv: Option<string>, verb: RVerb,
                                 component: string, remote: bool)
  {
    predicate IsRemote() {
      remote
    }

    /** Listing and searching conversations is the only retrieval without a known conversation. */
    predicate KnownConversation() {
      !(component == CONVERSATIONS && (verb == List || verb == Search))
    }
  }

  /** `Retrieval(address, conversation=None, verb=GET, component=CONVERSATIONS, is_remote=False)` */
  function NewRetrieval(address: string, conv: Option<string> := None, verb: RVerb := Get,
                        component: string := CONVERSATIONS, isRemote: bool := false): Retrieval
  {
    Retrieval(address, conv, verb, component, isRemote)
  }

  /** A retrieval built with the defaults is local and concerns a known conversation. */
  lemma NewRetrievalDefaults(address: string, conv: Option<string>)
    ensures !NewRetrieval(address, conv).IsRemote()
    ensures NewRetrieval(address, conv).KnownConversation()
    ensures !NewRetrieval(address, verb := List).KnownConversation()
    ensures !NewRetrieval(address, verb := Search).KnownConversation()
    ensures NewRetrieval(address, isRemote := true).IsRemote()
  {
  }
}

=== FILE: push.dfy ===
/**
 * The pusher of em2/comms/push.py: finding the platform (node) that serves
 * each participant's domain, with a cache of earlier answers; sorting the
 * nodes of a conversation into this platform, the email fallback and the
 * remote em2 platforms; and fetching, then caching, the token that
 * authenticates this platform to another one.
 *
 * The Redis store the pusher reaches is the field `cache`; the DNS lookup
 * (`get_node`) and the direct authentication (`_authenticate_direct`) are
 * functions given by the caller, and the pusher keeps the list of calls
 * made to each.
 */
module Push {

  import opened Common
  import opened Strings

  /** The node values that are not remote em2 platforms. */
  const LOCAL: string := "L"
  const FALLBACK: string := "F"

  /** Cache key prefixes: address domain -> node, and node -> auth token. */
  const DOMAIN_NODE_PREFIX: string := "dn:"
  const AUTH_TOKEN_PREFIX: string := "ak:"

  // ---------------------------------------------------------------------------
  // Domains

  /** `get_domain`: what follows the first '@'; a ValueError when there is none. */
  function GetDomain(address: string): (r: Result<string>)
    ensures r.Ok? <==> '@' in address
    ensures r.Err? ==> r.error == ValueError
    ensures r.Ok? ==> exists i :: (0 <= i < |address| && address[i] == '@' && '@' !in address[..i]
                                    && r.value == address[i + 1..])
  {
    match IndexOf(address, '@')
    case None => Err(ValueError)
    case Some(i) => Ok(address[i + 1..])
  }

  /** The domain of `local@domain`, for a local part without '@', is `domain`. */
  lemma GetDomainOf(local: string, domain: string)
    requires '@' !in local
    ensures GetDomain(local + "@" + domain) == Ok(domain)
  {
    var address := local + "@" + domain;
    assert address[..|local|] == local;
    IndexOfAt(address, '@', |local|);
    assert address[|local| + 1..] == domain;
  }

  // ---------------------------------------------------------------------------
  // The cache

  /** When a cache entry lapses: after some seconds (`setex`) or at a time (`set_exat`). */
  datatype Expiry = In(seconds: int) | At(time: int)

  datatype Entry = Entry(value: string, expiry: Expiry)

  type Cache = map<string, Entry>

  function NodeKey(domain: string): string {
    DOMAIN_NODE_PREFIX + domain
  }

  function TokenKey(node: string): string {
    AUTH_TOKEN_PREFIX + node
  }

  /** A cached node never shares its key with a cached token, and each domain has its own key. */
  lemma KeysApart(d: string, e: string, n: string)
    ensures NodeKey(d) != TokenKey(n)
    ensures NodeKey(d) == NodeKey(e) ==> d == e
  {
    assert NodeKey(d)[1] == 'n' && TokenKey(n)[1] == 'k';
    if NodeKey(d) == NodeKey(e) {
      assert d == NodeKey(d)[3..] && e == NodeKey(e)[3..];
    }
  }

  /** `redis.get(key)` found a value that is true (an empty value counts as a miss). */
  predicate Cached(cache: Cache, key: string) {
    key in cache && cache[key].value != ""
  }

  /**
   * The node a domain resolves to: the cached one, else the lookup's answer,
   * which is None when the domain has no em2 node.
   */
  function NodeFor(cache: Cache, lookup: string -> Option<string>, d: string): Option<string> {
    if Cached(cache, NodeKey(d)) then Some(cache[NodeKey(d)].value) else lookup(d)
  }

  /**
   * An address at which `get_nodes` raises: it has no '@' (ValueError), or
   * its domain is not cached and the lookup answers None, whose `encode()`
   * is an AttributeError.
   */
  predicate Stops(cache: Cache, lookup: string -> Option<string>, address: string) {
    GetDomain(address).Err? || NodeFor(cache, lookup, GetDomain(address).value).None?
  }

  /** The error `get_nodes` raises at an address where it stops. */
  function StopError(address: string): (e: Error)
    ensures e == ValueError <==> '@' !in address
    ensures e in {ValueError, AttributeError}
  {
    if '@' in address then AttributeError else ValueError
  }

  // ---------------------------------------------------------------------------
  // get_nodes, as a specification

  /**
   * The state of `get_nodes` after some of the addresses: the nodes found,
   * the domains checked, the cache, the domains looked up (in order), and
   * the error that stopped it, if any.
   */
  datatype Scan = Scan(nodes: set<string>, checked: set<string>, cache: Cache, lookups: seq<string>,
                       error: Option<Error>)

  /**
   * One address: skipped when its domain was checked, else read from the
   * cache, or looked up and cached; a missing '@' or a lookup answering
   * None stops the scan with the error.
   */
  function ScanStep(s: Scan, lookup: string -> Option<string>, ttl: int, address: string): (t: Scan)
    ensures s.error.Some? ==> t == s
    ensures s.error.None? && t.error.Some? ==>
      && t.error == Some(StopError(address)) && t.cache == s.cache && t.nodes == s.nodes
    ensures s.error.None? && '@' in address ==>
      var d := GetDomain(address).value;
      && t.checked == s.checked + {d}
      && t.lookups == s.lookups + (if d in s.checked || Cached(s.cache, NodeKey(d)) then [] else [d])
      && (t.error.None? <==> d in s.checked || NodeFor(s.cache, lookup, d).Some?)
      && (t.error.None? && d !in s.checked ==> t.nodes == s.nodes + {NodeFor(s.cache, lookup, d).value})
  {
    if s.error.Some? then s
    else
      match GetDomain(address)
      case Err(e) => s.(error := Some(e))
      case Ok(d) =>
        if d in s.checked then s
        else if Cached(s.cache, NodeKey(d)) then
          s.(checked := s.checked + {d}, nodes := s.nodes + {s.cache[NodeKey(d)].value})
        else
          match lookup(d)
          case None => s.(checked := s.checked + {d}, lookups := s.lookups + [d], error := Some(AttributeError))
          case Some(node) =>
            s.(checked := s.checked + {d}, cache := s.cache[NodeKey(d) := Entry(node, In(ttl))],
               lookups := s.lookups + [d], nodes := s.nodes + {node})
  }

  /** `get_nodes` as a fold of ScanStep over the addresses, from an empty scan. */
  function ScanNodes(cache: Cache, lookup: string -> Option<string>, ttl: int, addresses: seq<string>): (s: Scan)
    ensures |s.lookups| <= |addresses|
  {
    if addresses == [] then Scan({}, {}, cache, [], None)
    else ScanStep(ScanNodes(cache, lookup, ttl, addresses[..|addresses| - 1]), lookup, ttl,
                  addresses[|addresses| - 1])
  }

  /** The cache keys of the looked-up domains. */
  function KeysOf(ds: seq<string>): set<string> {
    set d | d in ds :: NodeKey(d)
  }

  /** The nodes of the domains that resolve to one. */
  function NodesOf(cache: Cache, lookup: string -> Option<string>, domains: set<string>): set<string> {
    set d | d in domains && NodeFor(cache, lookup, d).Some? :: NodeFor(cache, lookup, d).value
  }

  /**
   * What `get_nodes` keeps true while it has not stopped, relative to the
   * cache it started from: only missed domains are looked up, each once,
   * and every missed checked domain is; every checked domain resolves and
   * its node is in the cache under its key; the cache is otherwise
   * unchanged; and the nodes are those of the checked domains.
   */
  ghost predicate ScanInvariant(cache0: Cache, lookup: string -> Option<string>, ttl: int, s: Scan) {
    s.error.None? ==>
      && LookupsOnMisses(cache0, s)
      && CacheHoldsNodes(cache0, lookup, ttl, s)
      && CacheElsewhere(cache0, s)
      && s.nodes == NodesOf(cache0, lookup, s.checked)
  }

  /** Only missed domains are looked up, each once, and every missed checked domain is. */
  ghost predicate LookupsOnMisses(cache0: Cache, s: Scan) {
    && (forall d :: d in s.lookups ==> d in s.checked && !Cached(cache0, NodeKey(d)))
    && (forall i, j :: 0 <= i < j < |s.lookups| ==> s.lookups[i] != s.lookups[j])
    && (forall d :: d in s.checked && !Cached(cache0, NodeKey(d)) ==> d in s.lookups)
  }

  /** Every checked domain's node is cached under its key; a looked-up one with the lookup's answer. */
  ghost predicate CacheHoldsNodes(cache0: Cache, lookup: string -> Option<string>, ttl: int, s: Scan) {
    && (forall d :: d in s.checked ==>
          NodeKey(d) in s.cache && NodeFor(cache0, lookup, d) == Some(s.cache[NodeKey(d)].value))
    && (forall d :: d in s.lookups ==>
          lookup(d).Some? && NodeKey(d) in s.cache && s.cache[NodeKey(d)] == Entry(lookup(d).value, In(ttl)))
  }

  /** Only the keys of looked-up domains are added or changed. */
  ghost predicate CacheElsewhere(cache0: Cache, s: Scan) {
    && s.cache.Keys == cache0.Keys + KeysOf(s.lookups)
    && (forall k :: k in cache0 && k !in KeysOf(s.lookups) ==> s.cache[k] == cache0[k])
  }

  /** A domain not yet checked still has, in the cache, what it had at the start. */
  lemma UncheckedAsBefore(cache0: Cache, lookup: string -> Option<string>, ttl: int, s: Scan, d: string)
    requires s.error.None? && ScanInvariant(cache0, lookup, ttl, s) && d !in s.checked
    ensures NodeKey(d) !in KeysOf(s.lookups)
    ensures NodeKey(d) in s.cache <==> NodeKey(d) in cache0
    ensures NodeKey(d) in cache0 ==> s.cache[NodeKey(d)] == cache0[NodeKey(d)]
    ensures Cached(s.cache, NodeKey(d)) <==> Cached(cache0, NodeKey(d))
  {
    forall e | e in s.lookups
      ensures NodeKey(e) != NodeKey(d)
    {
      KeysApart(e, d, "");
    }
  }

  lemma NodesOfPlus(cache: Cache, lookup: string -> Option<string>, domains: set<string>, d: string)
    requires NodeFor(cache, lookup, d).Some?
    ensures NodesOf(cache, lookup, domains + {d}) == NodesOf(cache, lookup, domains) + {NodeFor(cache, lookup, d).value}
  {
  }

  /** A domain found in the cache: checked, its node added, nothing looked up. */
  lemma StepHitKeeps(cache0: Cache, lookup: string -> Option<string>, ttl: int, s: Scan, d: string)
    requires s.error.None? && ScanInvariant(cache0, lookup, ttl, s) && d !in s.checked && Cached(s.cache, NodeKey(d))
    ensures ScanInvariant(cache0, lookup, ttl,
      s.(checked := s.checked + {d}, nodes := s.nodes + {s.cache[NodeKey(d)].value}))
  {
    UncheckedAsBefore(cache0, lookup, ttl, s, d);
    NodesOfPlus(cache0, lookup, s.checked, d);
  }

  /** The scan state after a domain missing from the cache, which the lookup resolves. */
  function Missed(s: Scan, lookup: string -> Option<string>, ttl: int, d: string): Scan
    requires lookup(d).Some?
  {
    s.(checked := s.checked + {d}, cache := s.cache[NodeKey(d) := Entry(lookup(d).value, In(ttl))],
       lookups := s.lookups + [d], nodes := s.nodes + {lookup(d).value})
  }

  /** A domain missing from the cache: checked, looked up, and its node cached and added. */
  lemma StepMissKeeps(cache0: Cache, lookup: string -> Option<string>, ttl: int, s: Scan, d: string)
    requires s.error.None? && ScanInvariant(cache0, lookup, ttl, s) && d !in s.checked
    requires !Cached(s.cache, NodeKey(d)) && lookup(d).Some?
    ensures ScanInvariant(cache0, lookup, ttl, Missed(s, lookup, ttl, d))
  {
    var t := Missed(s, lookup, ttl, d);
    UncheckedAsBefore(cache0, lookup, ttl, s, d);
    NodesOfPlus(cache0, lookup, s.checked, d);
    MissLookups(cache0, s, t, d);
    MissCache(cache0, lookup, ttl, s, d);
    assert KeysOf(t.lookups) == KeysOf(s.lookups) + {NodeKey(d)};
  }

  lemma MissLookups(cache0: Cache, s: Scan, t: Scan, d: string)
    requires LookupsOnMisses(cache0, s) && d !in s.checked && !Cached(cache0, NodeKey(d))
    requires t.checked == s.checked + {d} && t.lookups == s.lookups + [d]
    ensures LookupsOnMisses(cache0, t)
  {
  }

  lemma MissCache(cache0: Cache, lookup: string -> Option<string>, ttl: int, s: Scan, d: string)
    requires CacheHoldsNodes(cache0, lookup, ttl, s) && LookupsOnMisses(cache0, s)
    requires d !in s.checked && !Cached(cache0, NodeKey(d)) && lookup(d).Some?
    ensures CacheHoldsNodes(cache0, lookup, ttl, Missed(s, lookup, ttl, d))
  {
    forall e | e in s.checked
      ensures NodeKey(e) != NodeKey(d)
    {
      KeysApart(e, d, "");
    }
  }

  lemma ScanStepKeeps(cache0: Cache, lookup: string -> Option<string>, ttl: int, s: Scan, address: string)
    requires ScanInvariant(cache0, lookup, ttl, s)
    ensures ScanInvariant(cache0, lookup, ttl, ScanStep(s, lookup, ttl, address))
  {
    if s.error.None? && GetDomain(address).Ok? {
      var d := GetDomain(address).value;
      if d !in s.checked {
        if Cached(s.cache, NodeKey(d)) {
          StepHitKeeps(cache0, lookup, ttl, s, d);
        } else if lookup(d).Some? {
          StepMissKeeps(cache0, lookup, ttl, s, d);
          assert ScanStep(s, lookup, ttl, address) == Missed(s, lookup, ttl, d);
        }
      }
    }
  }

  lemma {:induction false} ScanNodesInvariant(cache: Cache, lookup: string -> Option<string>, ttl: int,
                                              addresses: seq<string>)
    ensures ScanInvariant(cache, lookup, ttl, ScanNodes(cache, lookup, ttl, addresses))
  {
    if addresses != [] {
      ScanNodesInvariant(cache, lookup, ttl, addresses[..|addresses| - 1]);
      ScanStepKeeps(cache, lookup, ttl, ScanNodes(cache, lookup, ttl, addresses[..|addresses| - 1]),
                    addresses[|addresses| - 1]);
    }
  }

  /**
   * A scan that has not stopped passes over an address exactly when that
   * address would not stop `get_nodes` run from the starting cache.
   */
  lemma StepStopsIff(cache0: Cache, lookup: string -> Option<string>, ttl: int, s: Scan, address: string)
    requires s.error.None? && ScanInvariant(cache0, lookup, ttl, s)
    ensures ScanStep(s, lookup, ttl, address).error.Some? <==> Stops(cache0, lookup, address)
  {
    if GetDomain(address).Ok? {
      var d := GetDomain(address).value;
      if d !in s.checked {
        UncheckedAsBefore(cache0, lookup, ttl, s, d);
      }
    }
  }

  /** Past a prefix that did not stop it, `get_nodes` stops at the last address exactly when that address stops it. */
  lemma LastStepStops(cache: Cache, lookup: string -> Option<string>, ttl: int, addresses: seq<string>)
    requires addresses != [] && ScanNodes(cache, lookup, ttl, addresses[..|addresses| - 1]).error.None?
    ensures ScanNodes(cache, lookup, ttl, addresses).error.Some? <==> Stops(cache, lookup, addresses[|addresses| - 1])
  {
    var front := addresses[..|addresses| - 1];
    ScanNodesInvariant(cache, lookup, ttl, front);
    StepStopsIff(cache, lookup, ttl, ScanNodes(cache, lookup, ttl, front), addresses[|addresses| - 1]);
  }

  /**
   * `get_nodes` stops exactly when some address would stop it: one without
   * '@', or one whose domain the cache does not hold and the lookup cannot
   * resolve.
   */
  lemma {:induction false} ScanNodesStops(cache: Cache, lookup: string -> Option<string>, ttl: int,
                                          addresses: seq<string>)
    ensures ScanNodes(cache, lookup, ttl, addresses).error.Some? <==>
      exists i :: 0 <= i < |addresses| && Stops(cache, lookup, addresses[i])
  {
    if addresses != [] {
      var n := |addresses| - 1;
      var front := addresses[..n];
      ScanNodesStops(cache, lookup, ttl, front);
      if ScanNodes(cache, lookup, ttl, front).error.None? {
        LastStepStops(cache, lookup, ttl, addresses);
      }
      if exists i :: 0 <= i < n && Stops(cache, lookup, front[i]) {
        var i :| 0 <= i < n && Stops(cache, lookup, front[i]);
        assert Stops(cache, lookup, addresses[i]);
      }
      if exists i :: 0 <= i < |addresses| && Stops(cache, lookup, addresses[i]) {
        var i :| 0 <= i < |addresses| && Stops(cache, lookup, addresses[i]);
        if i < n {
          assert Stops(cache, lookup, front[i]);
        }
      }
    }
  }

  /** A stopped `get_nodes` raises the error of the first address that stops it. */
  lemma {:induction false} ScanNodesStopError(cache: Cache, lookup: string -> Option<string>, ttl: int,
                                              addresses: seq<string>)
    requires ScanNodes(cache, lookup, ttl, addresses).error.Some?
    ensures exists i :: (0 <= i < |addresses| && Stops(cache, lookup, addresses[i])
      && (forall j :: 0 <= j < i ==> !Stops(cache, lookup, addresses[j]))
      && ScanNodes(cache, lookup, ttl, addresses).error == Some(StopError(addresses[i])))
  {
    var n := |addresses| - 1;
    var front := addresses[..n];
    var s0 := ScanNodes(cache, lookup, ttl, front);
    assert forall j :: 0 <= j < n ==> front[j] == addresses[j];
    if s0.error.Some? {
      ScanNodesStopError(cache, lookup, ttl, front);
      var i :| 0 <= i < n && Stops(cache, lookup, front[i])
        && (forall j :: 0 <= j < i ==> !Stops(cache, lookup, front[j]))
        && s0.error == Some(StopError(front[i]));
      assert Stops(cache, lookup, addresses[i]);
    } else {
      ScanNodesStops(cache, lookup, ttl, front);
      LastStepStops(cache, lookup, ttl, addresses);
      assert forall j :: 0 <= j < n ==> !Stops(cache, lookup, front[j]);
    }
  }

  /** When it does not stop, `get_nodes` checks exactly the domains of the addresses. */
  lemma {:induction false} ScanNodesChecked(cache: Cache, lookup: string -> Option<string>, ttl: int,
                                            addresses: seq<string>, d: string)
    requires ScanNodes(cache, lookup, ttl, addresses).error.None?
    ensures d in ScanNodes(cache, lookup, ttl, addresses).checked <==>
      exists i :: 0 <= i < |addresses| && GetDomain(addresses[i]) == Ok(d)
  {
    if addresses != [] {
      var n := |addresses| - 1;
      var front := addresses[..n];
      ScanNodesChecked(cache, lookup, ttl, front, d);
      assert ScanNodes(cache, lookup, ttl, addresses) == ScanStep(ScanNodes(cache, lookup, ttl, front), lookup, ttl, addresses[n]);
      if exists i :: 0 <= i < |addresses| && GetDomain(addresses[i]) == Ok(d) {
        var i :| 0 <= i < |addresses| && GetDomain(addresses[i]) == Ok(d);
        if i < n {
          assert GetDomain(front[i]) == Ok(d);
        }
      }
      if exists i :: 0 <= i < n && GetDomain(front[i]) == Ok(d) {
        var i :| 0 <= i < n && GetDomain(front[i]) == Ok(d);
        assert GetDomain(addresses[i]) == Ok(d);
      }
    }
  }

  /** The scan of one more address is one more step. */
  lemma ScanNodesSnoc(cache: Cache, lookup: string -> Option<string>, ttl: int, addresses: seq<string>, i: nat)
    requires i < |addresses|
    ensures ScanNodes(cache, lookup, ttl, addresses[..i + 1])
            == ScanStep(ScanNodes(cache, lookup, ttl, addresses[..i]), lookup, ttl, addresses[i])
  {
    assert addresses[..i + 1][..i] == addresses[..i];
  }

  /** Once an error has stopped `get_nodes`, the rest of the addresses change nothing. */
  lemma {:induction false} ScanStaysFailed(cache: Cache, lookup: string -> Option<string>, ttl: int,
                                           addresses: seq<string>, n: nat)
    requires n <= |addresses| && ScanNodes(cache, lookup, ttl, addresses[..n]).error.Some?
    ensures ScanNodes(cache, lookup, ttl, addresses) == ScanNodes(cache, lookup, ttl, addresses[..n])
    decreases |addresses| - n
  {
    if n < |addresses| {
      assert addresses[..n + 1][..n] == addresses[..n];
      ScanStaysFailed(cache, lookup, ttl, addresses, n + 1);
    } else {
      assert addresses[..n] == addresses;
    }
  }

  /**
   * The meaning of `get_nodes` for addresses none of which stops it: the
   * result holds the node of each distinct domain; a domain found in the
   * cache is not looked up; a domain missing from it is looked up exactly
   * once and its node is cached under `dn:` + domain; no other key changes.
   */
  lemma ScanNodesMeaning(cache: Cache, lookup: string -> Option<string>, ttl: int, addresses: seq<string>)
    requires forall i :: 0 <= i < |addresses| ==>
      GetDomain(addresses[i]).Ok? && NodeFor(cache, lookup, GetDomain(addresses[i]).value).Some?
    ensures var s := ScanNodes(cache, lookup, ttl, addresses);
      && s.error.None?
      && (forall n :: n in s.nodes <==>
            exists i :: 0 <= i < |addresses| && n == NodeFor(cache, lookup, GetDomain(addresses[i]).value).value)
      && (forall i :: 0 <= i < |addresses| ==>
            var d := GetDomain(addresses[i]).value;
            && NodeKey(d) in s.cache
            && (Cached(cache, NodeKey(d)) ==> d !in s.lookups && s.cache[NodeKey(d)] == cache[NodeKey(d)])
            && (!Cached(cache, NodeKey(d)) ==>
                  multiset(s.lookups)[d] == 1 && s.cache[NodeKey(d)] == Entry(lookup(d).value, In(ttl))))
      && (forall k :: k in cache && k !in KeysOf(s.lookups) ==> k in s.cache && s.cache[k] == cache[k])
  {
    var s := ScanNodes(cache, lookup, ttl, addresses);
    ScanNodesInvariant(cache, lookup, ttl, addresses);
    ScanNodesStops(cache, lookup, ttl, addresses);
    forall n
      ensures n in s.nodes <==>
        exists i :: 0 <= i < |addresses| && n == NodeFor(cache, lookup, GetDomain(addresses[i]).value).value
    {
      if n in s.nodes {
        var d :| d in s.checked && NodeFor(cache, lookup, d).Some? && n == NodeFor(cache, lookup, d).value;
        ScanNodesChecked(cache, lookup, ttl, addresses, d);
        var i :| 0 <= i < |addresses| && GetDomain(addresses[i]) == Ok(d);
      }
      if exists i :: 0 <= i < |addresses| && n == NodeFor(cache, lookup, GetDomain(addresses[i]).value).value {
        var i :| 0 <= i < |addresses| && n == NodeFor(cache, lookup, GetDomain(addresses[i]).value).value;
        ScanNodesChecked(cache, lookup, ttl, addresses, GetDomain(addresses[i]).value);
        assert GetDomain(addresses[i]).value in s.checked;
      }
    }
    forall i | 0 <= i < |addresses|
      ensures var d := GetDomain(addresses[i]).value;
        && (Cached(cache, NodeKey(d)) ==> d !in s.lookups && s.cache[NodeKey(d)] == cache[NodeKey(d)])
        && (!Cached(cache, NodeKey(d)) ==> multiset(s.lookups)[d] == 1)
    {
      var d := GetDomain(addresses[i]).value;
      ScanNodesChecked(cache, lookup, ttl, addresses, d);
      assert d in s.checked;
      if Cached(cache, NodeKey(d)) {
        assert NodeKey(d) !in KeysOf(s.lookups) by {
          forall e | e in s.lookups
            ensures NodeKey(e) != NodeKey(d)
          {
            KeysApart(e, d, "");
          }
        }
      } else {
        OnceInDistinct(s.lookups, d);
      }
    }
  }

  /** An element of a sequence without repetitions occurs in it once. */
  lemma {:induction false} OnceInDistinct(xs: seq<string>, x: string)
    requires forall i, j :: 0 <= i < j < |xs| ==> xs[i] != xs[j]
    requires x in xs
    ensures multiset(xs)[x] == 1
  {
    var n := |xs| - 1;
    assert xs == xs[..n] + [xs[n]];
    assert multiset(xs) == multiset(xs[..n]) + multiset{xs[n]};
    if xs[n] == x {
      assert x !in xs[..n];
    } else {
      OnceInDistinct(xs[..n], x);
    }
  }

  // ---------------------------------------------------------------------------
  // _send's classification

  /** The remote em2 nodes of `_send`: every node but LOCAL and FALLBACK. */
  function RemoteNodes(nodes: set<string>): (remote: set<string>)
    ensures remote <= nodes && LOCAL !in remote && FALLBACK !in remote
  {
    set n | n in nodes && n != LOCAL && n != FALLBACK
  }

  /** The nodes fall apart into this platform, the fallback and the remote em2 nodes. */
  lemma NodesPartition(nodes: set<string>)
    ensures forall n :: n in nodes <==> (n in RemoteNodes(nodes) || (n in nodes && n in {LOCAL, FALLBACK}))
    ensures (exists n :: n in nodes && n == FALLBACK) <==> FALLBACK in nodes
  {
  }

  /** The subject handed to the fallback: `data['subject']` when it is true, else the stored one. */
  function FallbackSubject(data: map<string, Value>, stored: string): (s: Value)
    ensures "subject" in data && Truthy(data["subject"]) ==> s == data["subject"]
    ensures !("subject" in data && Truthy(data["subject"])) ==> s == Str(stored)
  {
    if "subject" in data && Truthy(data["subject"]) then data["subject"] else Str(stored)
  }

  /**
   * What `_send` hands on: the remote em2 nodes to push to, each once, and
   * the subject the fallback is called with when any node is FALLBACK.
   */
  datatype Delivery = Delivery(remote: set<string>, fallbackSubject: Option<Value>)

  // ---------------------------------------------------------------------------
  // Authentication

  /**
   * `token.split(':', 2)` unpacked into three names: the text before the
   * first ':', between the first and second, and the rest; None (Python's
   * ValueError) with fewer than two ':'.
   */
  function SplitToken(token: string): Option<(string, string, string)> {
    match IndexOf(token, ':')
    case None => None
    case Some(i) =>
      var rest := token[i + 1..];
      match IndexOf(rest, ':')
      case None => None
      case Some(j) => Some((token[..i], rest[..j], rest[j + 1..]))
  }

  /** The three parts joined again by ':' give back the token; the first two hold no ':'. */
  lemma SplitTokenParts(token: string)
    requires SplitToken(token).Some?
    ensures var p := SplitToken(token).value;
      token == p.0 + ":" + p.1 + ":" + p.2 && ':' !in p.0 && ':' !in p.1
  {
    var i := IndexOf(token, ':').value;
    var rest := token[i + 1..];
    var j := IndexOf(rest, ':').value;
    Around(token, i);
    Around(rest, j);
    Join3(token[..i], rest[..j], rest[j + 1..], rest, token);
  }

  lemma Join3(a: string, b: string, c: string, rest: string, token: string)
    requires rest == b + ":" + c && token == a + ":" + rest
    ensures token == a + ":" + b + ":" + c
  {
  }

  /** With two ':' or more the split succeeds (so a None means fewer than two). */
  lemma SplitTokenTwoColons(token: string, i: nat, j: nat)
    requires i < j < |token| && token[i] == ':' && token[j] == ':'
    ensures SplitToken(token).Some?
  {
    assert ':' in token;
    var k := IndexOf(token, ':').value;
    var rest := token[k + 1..];
    assert rest[j - k - 1] == ':';
  }

  /** The expiry a fresh token carries: `int()` of its second ':'-separated field. */
  function TokenExpiry(token: string): (r: Result<int>)
    ensures r.Err? ==> r.error == ValueError
    ensures r.Ok? <==> SplitToken(token).Some? && ParseInt(SplitToken(token).value.1).Some?
  {
    match SplitToken(token)
    case None => Err(ValueError)
    case Some((_, expiresAt, _)) =>
      match ParseInt(expiresAt)
      case None => Err(ValueError)
      case Some(t) => Ok(t)
  }

  /** A token `platform:expiry:rest` carries its expiry, whatever `rest` holds. */
  lemma TokenExpiryOf(platform: string, expiry: int, rest: string)
    requires ':' !in platform
    ensures TokenExpiry(platform + ":" + IntToString(expiry) + ":" + rest) == Ok(expiry)
  {
    var e := IntToString(expiry);
    var token := platform + ":" + e + ":" + rest;
    assert token[..|platform|] == platform;
    IndexOfAt(token, ':', |platform|);
    var after := token[|platform| + 1..];
    assert after == e + ":" + rest;
    assert after[..|e|] == e;
    IndexOfAt(after, ':', |e|);
    assert SplitToken(token).value.1 == e;
    ParseIntRoundTrip(expiry);
  }

  /** The message `get_auth_data` signs: `{LOCAL_DOMAIN}:{timestamp}`. */
  function AuthMessage(localDomain: string, timestamp: int): string {
    localDomain + ":" + IntToString(timestamp)
  }

  /** The platform and the time can be read back from the signed message. */
  lemma AuthMessageParts(localDomain: string, timestamp: int)
    requires ':' !in localDomain
    ensures var m := AuthMessage(localDomain, timestamp);
      && IndexOf(m, ':') == Some(|localDomain|)
      && m[..|localDomain|] == localDomain
      && ParseInt(m[|localDomain| + 1..]) == Some(timestamp)
  {
    var m := AuthMessage(localDomain, timestamp);
    assert m[..|localDomain|] == localDomain;
    IndexOfAt(m, ':', |localDomain|);
    assert m[|localDomain| + 1..] == IntToString(timestamp);
    ParseIntRoundTrip(timestamp);
  }

  /** The authentication data `get_auth_data` sends; `sign` is the RSA signature of the message. */
  datatype AuthData = AuthData(platform: string, timestamp: int, signature: string)

  function GetAuthData(localDomain: string, now: int, sign: string -> string): (d: AuthData)
    ensures d.platform == localDomain && d.timestamp == now
    ensures d.signature == sign(AuthMessage(d.platform, d.timestamp))
  {
    AuthData(localDomain, now, sign(AuthMessage(localDomain, now)))
  }

  // ---------------------------------------------------------------------------
  // The pusher

  class Pusher {
    /** COMMS_DNS_CACHE_EXPIRY and COMMS_PUSH_TOKEN_EARLY_EXPIRY of the settings. */
    const dnsCacheExpiry: int
    const earlyTokenExpiry: int
    /** The Redis store. */
    var cache: Cache
    /** The domains `get_node` was asked for, and the nodes `_authenticate_direct` was, oldest first. */
    var lookups: seq<string>
    var authCalls: seq<string>

    constructor (dnsCacheExpiry: int, earlyTokenExpiry: int, cache: Cache)
      ensures this.dnsCacheExpiry == dnsCacheExpiry && this.earlyTokenExpiry == earlyTokenExpiry
      ensures this.cache == cache && lookups == [] && authCalls == []
    {
      this.dnsCacheExpiry := dnsCacheExpiry;
      this.earlyTokenExpiry := earlyTokenExpiry;
      this.cache := cache;
      lookups := [];
      authCalls := [];
    }

    /**
     * `get_nodes`: the node of each distinct domain of the addresses, from
     * the cache or else from `get_node` (whose answer is cached); a
     * ValueError at an address without '@', and an AttributeError when
     * `get_node` answers None, whichever comes first.
     */
    method GetNodes(addresses: seq<string>, lookup: string -> Option<string>) returns (r: Result<set<string>>)
      modifies this`cache, this`lookups
      ensures var s := ScanNodes(old(cache), lookup, dnsCacheExpiry, addresses);
        && cache == s.cache && lookups == old(lookups) + s.lookups
        && (s.error.Some? ==> r == Err(s.error.value))
        && (s.error.None? ==> r == Ok(s.nodes))
    {
      ghost var cache0 := cache;
      var nodes: set<string> := {};
      var checked: set<string> := {};
      var stop: Option<Error> := None;
      ghost var called: seq<string> := [];
      var i := 0;
      while i < |addresses| && stop.None?
        invariant 0 <= i <= |addresses|
        invariant ScanNodes(cache0, lookup, dnsCacheExpiry, addresses[..i]) == Scan(nodes, checked, cache, called, stop)
        invariant lookups == old(lookups) + called
      {
        ScanNodesSnoc(cache0, lookup, dnsCacheExpiry, addresses, i);
        var looked;
        nodes, checked, looked, stop := Visit(addresses[i], lookup, nodes, checked, called);
        called := called + looked;
        i := i + 1;
      }
      if stop.Some? {
        // the exception that ends `get_nodes`
        ScanStaysFailed(cache0, lookup, dnsCacheExpiry, addresses, i);
        return Err(stop.value);
      }
      assert addresses[..i] == addresses;
      return Ok(nodes);
    }

    /**
     * One pass of the loop of `get_nodes`: the address's domain, unless
     * already checked, is read from the cache or looked up and cached; the
     * domains looked up and the error that stops the loop are returned.
     */
    method Visit(address: string, lookup: string -> Option<string>, nodes: set<string>, checked: set<string>,
                 ghost called: seq<string>)
      returns (nodes': set<string>, checked': set<string>, looked: seq<string>, stop: Option<Error>)
      modifies this`cache, this`lookups
      ensures ScanStep(Scan(nodes, checked, old(cache), called, None), lookup, dnsCacheExpiry, address)
              == Scan(nodes', checked', cache, called + looked, stop)
      ensures lookups == old(lookups) + looked
    {
      nodes', checked', looked, stop := nodes, checked, [], None;
      var d := GetDomain(address);
      if d.Err? {
        return nodes, checked, [], Some(d.error);
      }
      var domain := d.value;
      if domain !in checked {
        checked' := checked + {domain};
        var key := NodeKey(domain);
        if key in cache && cache[key].value != "" {
          nodes' := nodes + {cache[key].value};
        } else {
          var found := lookup(domain);
          lookups := lookups + [domain];
          looked := [domain];
          if found.None? {
            // `None.encode()`
            return nodes, checked', looked, Some(AttributeError);
          }
          cache := cache[key := Entry(found.value, In(dnsCacheExpiry))];
          nodes' := nodes + {found.value};
        }
      }
    }

    /**
     * `_send`: the nodes of the receiving participants' addresses, of
     * which every one but LOCAL and FALLBACK is pushed to, and the
     * fallback is called when some node is FALLBACK. The store is read for
     * the subject only then, and only when the data carries none.
     */
    method Send(data: map<string, Value>, addresses: seq<string>, storedSubject: string,
                lookup: string -> Option<string>)
      returns (r: Result<Delivery>)
      modifies this`cache, this`lookups
      ensures var s := ScanNodes(old(cache), lookup, dnsCacheExpiry, addresses);
        && cache == s.cache && lookups == old(lookups) + s.lookups
        && (s.error.Some? ==> r == Err(s.error.value))
        && (s.error.None? ==>
              && r.Ok? && r.value.remote == RemoteNodes(s.nodes)
              && (r.value.fallbackSubject.Some? <==> FALLBACK in s.nodes)
              && (r.value.fallbackSubject.Some? ==> r.value.fallbackSubject.value == FallbackSubject(data, storedSubject)))
    {
      var nodes := GetNodes(addresses, lookup);
      if nodes.Err? {
        return Err(nodes.error);
      }
      var remote := set n | n in nodes.value && n != LOCAL && n != FALLBACK;
      var subject := None;
      if exists n :: n in nodes.value && n == FALLBACK {
        subject := Some(FallbackSubject(data, storedSubject));
      }
      return Ok(Delivery(remote, subject));
    }

    /**
     * `authenticate`: a cached `ak:` token is reused; otherwise a fresh
     * token is fetched from the node and cached (see AuthenticateOf).
     */
    method Authenticate(nodeDomain: string, direct: string -> string) returns (r: Result<string>)
      modifies this`cache, this`authCalls
      ensures (r, cache) == AuthenticateOf(old(cache), nodeDomain, direct(nodeDomain), earlyTokenExpiry)
      ensures authCalls == old(authCalls) + (if Cached(old(cache), TokenKey(nodeDomain)) then [] else [nodeDomain])
    {
      var key := TokenKey(nodeDomain);
      if key in cache && cache[key].value != "" {
        return Ok(cache[key].value);
      }
      var token := direct(nodeDomain);
      authCalls := authCalls + [nodeDomain];
      var expiresAt := TokenExpiry(token);
      if expiresAt.Err? {
        return Err(expiresAt.error);
      }
      cache := cache[key := Entry(token, At(expiresAt.value - earlyTokenExpiry))];
      return Ok(token);
    }
  }

  /**
   * The result and the new cache of `authenticate`, given the token the
   * node would hand out: the cached token when there is one; else the
   * fresh token, cached until its embedded expiry less the early margin,
   * or a ValueError with the cache unchanged when it carries no expiry.
   */
  function AuthenticateOf(cache: Cache, nodeDomain: string, token: string, early: int): (r: (Result<string>, Cache))
    ensures r.1.Keys <= cache.Keys + {TokenKey(nodeDomain)}
    ensures forall k :: k in cache && k != TokenKey(nodeDomain) ==> k in r.1 && r.1[k] == cache[k]
    ensures r.1 != cache ==> r.0 == Ok(token) && TokenKey(nodeDomain) in r.1 && r.1[TokenKey(nodeDomain)].value == token
    ensures r.0.Err? ==> r.0 == Err(ValueError) && r.1 == cache
  {
    var key := TokenKey(nodeDomain);
    if Cached(cache, key) then (Ok(cache[key].value), cache)
    else
      match TokenExpiry(token)
      case Err(e) => (Err(e), cache)
      case Ok(t) => (Ok(token), cache[key := Entry(token, At(t - early))])
  }

  /** A cached token is returned whatever the node would hand out, and nothing changes. */
  lemma AuthenticateReuses(cache: Cache, nodeDomain: string, token: string, early: int)
    requires Cached(cache, TokenKey(nodeDomain))
    ensures AuthenticateOf(cache, nodeDomain, token, early) == (Ok(cache[TokenKey(nodeDomain)].value), cache)
  {
  }

  /**
   * A fresh token that carries an expiry (as `platform:expiry:rest` does,
   * by TokenExpiryOf) is returned and cached until that expiry less the
   * margin, no other key changes, and the next `authenticate` for the same
   * node reuses it.
   */
  lemma AuthenticateStores(cache: Cache, nodeDomain: string, token: string, early: int, next: string)
    requires !Cached(cache, TokenKey(nodeDomain)) && TokenExpiry(token).Ok?
    ensures var c := cache[TokenKey(nodeDomain) := Entry(token, At(TokenExpiry(token).value - early))];
      && AuthenticateOf(cache, nodeDomain, token, early) == (Ok(token), c)
      && AuthenticateOf(c, nodeDomain, next, early) == (Ok(token), c)
  {
    assert ':' in token;
  }

  /** A fresh token without an expiry field is refused and nothing is cached. */
  lemma AuthenticateRefuses(cache: Cache, nodeDomain: string, token: string, early: int)
    requires !Cached(cache, TokenKey(nodeDomain)) && ':' !in token
    ensures AuthenticateOf(cache, nodeDomain, token, early) == (Err(ValueError), cache)
  {
  }
}

=== FILE: store.dfy ===
/**
 * The data-store contract of em2/data_store.py and the in-memory store of
 * tests/tools/fixture_classes/simple_datastore.py that gives the engines a
 * concrete state to act on.
 *
 * A conversation is a `ConvRecord` object (the store's per-conversation
 * dictionary); a `ConvHandle` is the `SimpleConversationDataStore` that
 * wraps one record, so every change made through a handle is a change of the
 * record the store holds.
 */
module Store {

  import opened Common
  import opened Strings
  import opened Interactions

  // ---------------------------------------------------------------------------
  // Ordered dictionaries

  predicate Distinct<T(==)>(s: seq<T>) {
    forall i, j :: 0 <= i < j < |s| ==> s[i] != s[j]
  }

  /** `s` without the key `k`. */
  function Without(s: seq<Value>, k: Value): (r: seq<Value>)
    ensures forall x :: x in r <==> x in s && x != k
    ensures Distinct(s) ==> Distinct(r)
  {
    if s == [] then []
    else if s[0] == k then Without(s[1..], k)
    else
      var rest := Without(s[1..], k);
      assert Distinct(s) ==> s[0] !in s[1..];
      [s[0]] + rest
  }

  /**
   * An `OrderedDict` of items: `keys` lists the keys in insertion order.
   * Assigning an existing key keeps its position.
   */
  datatype Table = Table(keys: seq<Value>, rows: map<Value, Item>) {

    ghost predicate Valid() {
      Distinct(keys) && forall k :: k in rows <==> k in keys
    }

    function Put(k: Value, item: Item): (t: Table)
      ensures t.rows == rows[k := item]
      ensures t.keys == if k in rows then keys else keys + [k]
    {
      if k in rows then Table(keys, rows[k := item]) else Table(keys + [k], rows[k := item])
    }

    function Remove(k: Value): (t: Table)
      ensures t.rows == rows - {k}
    {
      Table(Without(keys, k), rows - {k})
    }

    /** `list(d.values())`: the items in insertion order. */
    function Values(): (vs: seq<Item>)
      requires Valid()
      ensures |vs| == |keys|
      ensures forall i :: 0 <= i < |keys| ==> vs[i] == rows[keys[i]]
    {
      seq(|keys|, i requires 0 <= i < |keys| => rows[keys[i]])
    }
  }

  const EmptyTable: Table := Table([], map[])

  lemma PutKeepsValid(t: Table, k: Value, item: Item)
    requires t.Valid()
    ensures t.Put(k, item).Valid()
  {
  }

  lemma RemoveKeepsValid(t: Table, k: Value)
    requires t.Valid()
    ensures t.Remove(k).Valid()
  {
  }

  /** `conv_obj.get(model, {})` */
  function TableOf(tables: map<string, Table>, model: string): Table {
    if model in tables then tables[model] else EmptyTable
  }

  ghost predicate TablesValid(tables: map<string, Table>) {
    forall m :: m in tables ==> tables[m].Valid()
  }

  /** `get_all_component_items`: the items of one component in insertion order. */
  function Items(tables: map<string, Table>, model: string): seq<Item>
    requires TablesValid(tables)
  {
    TableOf(tables, model).Values()
  }

  // ---------------------------------------------------------------------------
  // Pure state transitions of the component tables

  datatype Added = Added(tables: map<string, Table>, counter: nat, id: Value)

  /**
   * `add_component`: a participant gets the next sequence number as its id,
   * overriding any id it was given; any other item needs an `id` of its own
   * (KeyError otherwise). The item is stored under its id, which is returned.
   */
  function AddItem(tables: map<string, Table>, counter: nat, model: string, kwargs: Item): (r: Result<Added>)
    ensures r.Ok? <==> model == PARTICIPANTS || "id" in kwargs
    ensures r.Err? ==> r.error == KeyError
    ensures r.Ok? && model == PARTICIPANTS ==>
      r.value.id == Int(counter) && r.value.counter == counter + 1
    ensures r.Ok? && model != PARTICIPANTS ==>
      r.value.id == kwargs["id"] && r.value.counter == counter
    ensures r.Ok? ==>
      && r.value.tables.Keys == tables.Keys + {model}
      && r.value.tables[model] == TableOf(tables, model).Put(r.value.id, kwargs["id" := r.value.id])
      && (forall m :: m in tables && m != model ==> r.value.tables[m] == tables[m])
  {
    if model == PARTICIPANTS then
      var id := Int(counter);
      Ok(Added(tables[model := TableOf(tables, model).Put(id, kwargs["id" := id])], counter + 1, id))
    else if "id" in kwargs then
      var id := kwargs["id"];
      assert kwargs["id" := id] == kwargs;
      Ok(Added(tables[model := TableOf(tables, model).Put(id, kwargs)], counter, id))
    else
      Err(KeyError)
  }

  /**
   * `edit_component`: `item.update(kwargs)` on an existing item; only the
   * fields passed change. A missing model or item is ComponentNotFound.
   */
  function EditItem(tables: map<string, Table>, model: string, id: Value, kwargs: Item)
    : (r: Result<map<string, Table>>)
    ensures r.Ok? <==> model in tables && id in tables[model].rows
    ensures r.Err? ==> r.error == ComponentNotFound
    ensures r.Ok? ==>
      && r.value.Keys == tables.Keys
      && r.value[model].keys == tables[model].keys
      && r.value[model].rows.Keys == tables[model].rows.Keys
      && (forall k :: k in tables[model].rows && k != id ==> r.value[model].rows[k] == tables[model].rows[k])
      && (forall m :: m in tables && m != model ==> r.value[m] == tables[m])
    ensures r.Ok? ==>
      var before, after := tables[model].rows[id], r.value[model].rows[id];
      && after.Keys == before.Keys + kwargs.Keys
      && (forall f :: f in kwargs ==> after[f] == kwargs[f])
      && (forall f :: f in before && f !in kwargs ==> after[f] == before[f])
  {
    if model in tables && id in tables[model].rows then
      var t := tables[model];
      Ok(tables[model := Table(t.keys, t.rows[id := t.rows[id] + kwargs])])
    else
      Err(ComponentNotFound)
  }

  /** `delete_component`: removes exactly the named item; a missing model or item is ComponentNotFound. */
  function DeleteItem(tables: map<string, Table>, model: string, id: Value): (r: Result<map<string, Table>>)
    ensures r.Ok? <==> model in tables && id in tables[model].rows
    ensures r.Err? ==> r.error == ComponentNotFound
    ensures r.Ok? ==>
      && r.value.Keys == tables.Keys
      && r.value[model].rows == tables[model].rows - {id}
      && (forall m :: m in tables && m != model ==> r.value[m] == tables[m])
  {
    if model in tables && id in tables[model].rows then
      Ok(tables[model := tables[model].Remove(id)])
    else
      Err(ComponentNotFound)
  }

  // ---------------------------------------------------------------------------
  // Locks

  /** The key `"{model}:{id}"` under which a locked item is remembered. */
  function LockKey(model: string, id: Value): string {
    model + ":" + Render(id)
  }

  /** Lock keys of two different components never collide (component names hold no ':'). */
  lemma LockKeysOfDifferentModelsDiffer(m1: string, m2: string, i1: Value, i2: Value)
    requires ':' !in m1 && ':' !in m2 && m1 != m2
    ensures LockKey(m1, i1) != LockKey(m2, i2)
  {
    FirstColonAt(m1, Render(i1));
    FirstColonAt(m2, Render(i2));
    if |m1| == |m2| {
      assert LockKey(m1, i1)[..|m1|] == m1;
      assert LockKey(m2, i2)[..|m2|] == m2;
    }
  }

  /** The first ':' of a lock key ends the component name. */
  lemma {:induction false} FirstColonAt(m: string, rest: string)
    requires ':' !in m
    ensures IndexOf(m + ":" + rest, ':') == Some(|m|)
  {
    if m != [] {
      assert (m + ":" + rest)[1..] == m[1..] + ":" + rest;
      FirstColonAt(m[1..], rest);
    }
  }

  // ---------------------------------------------------------------------------
  // The update log

  /** One entry of a conversation's `updates` list. */
  datatype Update = Update(
    actor: Value,
    verb: string,
    component: string,
    item: Value,
    data: map<string, Value>,
    timestamp: Option<int>,
    eventId: string)

  predicate Concerns(u: Update, model: string, item: Value) {
    u.component == model && u.item == item
  }

  datatype LastEvent = LastEvent(id: string, timestamp: Option<int>)

  /** `get_item_last_event`: the id and timestamp of the newest update of the item. */
  function LastEventOf(updates: seq<Update>, model: string, item: Value): (r: Option<LastEvent>)
    ensures r.None? <==> forall i :: 0 <= i < |updates| ==> !Concerns(updates[i], model, item)
    ensures r.Some? ==> exists i :: (0 <= i < |updates| && Concerns(updates[i], model, item)
      && r.value == LastEvent(updates[i].eventId, updates[i].timestamp)
      && forall j :: i < j < |updates| ==> !Concerns(updates[j], model, item))
  {
    if updates == [] then None
    else
      var u := updates[|updates| - 1];
      if Concerns(u, model, item) then Some(LastEvent(u.eventId, u.timestamp))
      else LastEventOf(updates[..|updates| - 1], model, item)
  }

  // ---------------------------------------------------------------------------
  // Reads

  /** What `get_message_meta` returns: only the author and the timestamp. */
  datatype Meta = Meta(author: Value, timestamp: Value)

  /** `get_message_meta`: ComponentNotFound for an unknown message. */
  function MessageMeta(tables: map<string, Table>, id: Value): (r: Result<Meta>)
    ensures r.Ok? <==> (id in TableOf(tables, MESSAGES).rows
      && "author" in TableOf(tables, MESSAGES).rows[id] && "timestamp" in TableOf(tables, MESSAGES).rows[id])
    ensures r.Ok? ==> r.value == Meta(TableOf(tables, MESSAGES).rows[id]["author"],
                                      TableOf(tables, MESSAGES).rows[id]["timestamp"])
    ensures id !in TableOf(tables, MESSAGES).rows ==> r == Err(ComponentNotFound)
  {
    var msgs := TableOf(tables, MESSAGES);
    if id !in msgs.rows then Err(ComponentNotFound)
    else
      var author :- Field(msgs.rows[id], "author");
      var ts :- Field(msgs.rows[id], "timestamp");
      Ok(Meta(author, ts))
  }

  predicate HasAddress(p: Item, address: string) {
    "address" in p && p["address"] == Str(address)
  }

  /**
   * `get_participant`: the (id, permissions) of the first participant whose
   * address matches; ComponentNotFound when there is none. Reading a field an
   * item lacks is a KeyError.
   */
  function FindParticipant(ps: seq<Item>, address: string): (r: Result<(Value, Value)>)
    ensures r.Ok? ==> exists i :: (0 <= i < |ps| && HasAddress(ps[i], address)
      && "id" in ps[i] && "permissions" in ps[i] && r.value == (ps[i]["id"], ps[i]["permissions"])
      && forall j :: 0 <= j < i ==> "address" in ps[j] && !HasAddress(ps[j], address))
    ensures r == Err(ComponentNotFound) <==> forall i :: 0 <= i < |ps| ==> "address" in ps[i] && !HasAddress(ps[i], address)
    ensures r.Err? ==> r.error in {ComponentNotFound, KeyError}
  {
    if ps == [] then Err(ComponentNotFound)
    else
      var p := ps[0];
      if "address" !in p then Err(KeyError)
      else if p["address"] == Str(address) then
        var id :- Field(p, "id");
        var perm :- Field(p, "permissions");
        Ok((id, perm))
      else
        var r := FindParticipant(ps[1..], address);
        assert forall i :: 1 <= i < |ps| ==> ps[i] == ps[1..][i - 1];
        r
  }

  /** The core properties every store reports. */
  datatype CoreProperties = CoreProperties(
    timestamp: int,
    status: Status,
    ref: Option<string>,
    subject: string,
    creator: string,
    expiration: Option<int>)

  /** What `export` returns. */
  datatype ExportData = ExportData(
    core: CoreProperties,
    participants: seq<(Value, Value)>,
    messages: seq<Item>)

  predicate ParticipantShaped(p: Item) {
    "id" in p && "address" in p && "permissions" in p
  }

  predicate AllShaped(ps: seq<Item>) {
    forall i :: 0 <= i < |ps| ==> "id" in ps[i] && "address" in ps[i] && "permissions" in ps[i]
  }

  /** `participants_lookup`: participant id to address, built in stored order. */
  function AddressLookup(ps: seq<Item>): map<Value, Value>
    requires AllShaped(ps)
  {
    if ps == [] then map[]
    else
      var last := ps[|ps| - 1];
      AddressLookup(ps[..|ps| - 1])[last["id"] := last["address"]]
  }

  /** The lookup knows exactly the participant ids. */
  lemma {:induction false} AddressLookupKeys(ps: seq<Item>, k: Value)
    requires AllShaped(ps)
    ensures k in AddressLookup(ps) <==> exists i :: 0 <= i < |ps| && ps[i]["id"] == k
  {
    if ps != [] {
      var n := |ps| - 1;
      var front := ps[..n];
      AddressLookupKeys(front, k);
      if k != ps[n]["id"] && exists i :: 0 <= i < |ps| && ps[i]["id"] == k {
        var i :| 0 <= i < |ps| && ps[i]["id"] == k;
        assert front[i] == ps[i];
      }
    }
  }

  /** A participant id maps to the address of the last participant stored under it. */
  lemma {:induction false} AddressLookupLastWins(ps: seq<Item>, i: nat)
    requires AllShaped(ps) && i < |ps|
    requires forall j :: i < j < |ps| ==> ps[j]["id"] != ps[i]["id"]
    ensures ps[i]["id"] in AddressLookup(ps)
    ensures AddressLookup(ps)[ps[i]["id"]] == ps[i]["address"]
  {
    var n := |ps| - 1;
    if i < n {
      var front := ps[..n];
      assert front[i] == ps[i];
      AddressLookupLastWins(front, i);
    }
  }

  /** The (address, permissions) pairs `export` lists, in stored order. */
  function ParticipantPairs(ps: seq<Item>): (r: seq<(Value, Value)>)
    requires AllShaped(ps)
  {
    seq(|ps|, i requires 0 <= i < |ps| => (ps[i]["address"], ps[i]["permissions"]))
  }

  /** The message half of `export`: each author id replaced by its address; KeyError when it has none. */
  function RewriteAuthors(lookup: map<Value, Value>, ms: seq<Item>): (r: Result<seq<Item>>)
    ensures r.Ok? <==> forall i :: 0 <= i < |ms| ==> "author" in ms[i] && ms[i]["author"] in lookup
    ensures r.Err? ==> r.error == KeyError
    ensures r.Ok? ==> |r.value| == |ms|
    ensures r.Ok? ==> forall i :: 0 <= i < |ms| ==> r.value[i] == ms[i]["author" := lookup[ms[i]["author"]]]
  {
    if ms == [] then Ok([])
    else
      var front := ms[..|ms| - 1];
      var last := ms[|ms| - 1];
      assert forall i :: 0 <= i < |ms| - 1 ==> ms[i] == front[i];
      var done :- RewriteAuthors(lookup, front);
      if "author" !in last || last["author"] !in lookup then Err(KeyError)
      else Ok(done + [last["author" := lookup[last["author"]]]])
  }

  /**
   * `export`: the core properties, the participants as (address,
   * permissions) pairs in stored order, and the messages with each author
   * id replaced by that participant's address. It fails with KeyError
   * exactly when a participant lacks a field or a message's author is not
   * a participant id.
   */
  function ExportOf(core: CoreProperties, ps: seq<Item>, ms: seq<Item>): (r: Result<ExportData>)
    ensures r.Ok? <==> (AllShaped(ps)
      && forall i :: 0 <= i < |ms| ==> "author" in ms[i] && ms[i]["author"] in AddressLookup(ps))
    ensures r.Err? ==> r.error == KeyError
    ensures r.Ok? ==> r.value.core == core && |r.value.participants| == |ps| && |r.value.messages| == |ms|
    ensures r.Ok? ==> forall i :: 0 <= i < |ps| ==>
      r.value.participants[i] == (ps[i]["address"], ps[i]["permissions"])
    ensures r.Ok? ==> forall i :: 0 <= i < |ms| ==>
      r.value.messages[i] == ms[i]["author" := AddressLookup(ps)[ms[i]["author"]]]
  {
    if !AllShaped(ps) then Err(KeyError)
    else
      var msgs :- RewriteAuthors(AddressLookup(ps), ms);
      assert |ParticipantPairs(ps)| == |ps|;
      Ok(ExportData(core, ParticipantPairs(ps), msgs))
  }

  // ---------------------------------------------------------------------------
  // Bulk insertion

  datatype Bulk = Bulk(tables: map<string, Table>, counter: nat, error: Option<Error>)

  /**
   * `add_multiple_components`: `add_component` on each item in list order;
   * the first failure stops the loop and what was added before it stays.
   */
  function AddAll(tables: map<string, Table>, counter: nat, model: string, data: seq<Item>): Bulk
  {
    if data == [] then Bulk(tables, counter, None)
    else
      var b := AddAll(tables, counter, model, data[..|data| - 1]);
      if b.error.Some? then b
      else
        match AddItem(b.tables, b.counter, model, data[|data| - 1])
        case Ok(a) => Bulk(a.tables, a.counter, None)
        case Err(e) => Bulk(b.tables, b.counter, Some(e))
  }

  /** The ids `from`, `from + 1`, ... `from + n - 1`. */
  function Ids(from: nat, n: nat): (r: seq<Value>)
    ensures |r| == n && forall i :: 0 <= i < n ==> r[i] == Int(from + i)
  {
    if n == 0 then [] else Ids(from, n - 1) + [Int(from + n - 1)]
  }

  /**
   * Table `t` is table `t0` with the items of `data` appended under the ids
   * counter, counter + 1, ...: those ids follow the old keys in list order,
   * every earlier row is unchanged and no id reaches the new counter.
   * (Every `Put` keeps a table valid, so `t` is as valid as `t0`.)
   */
  ghost predicate AppendedTo(t0: Table, counter: nat, data: seq<Item>, t: Table) {
    && (forall k :: k in t.rows ==> k.Int? && k.i < counter + |data|)
    && t.keys == t0.keys + Ids(counter, |data|)
    && (forall k :: k in t0.rows ==> k in t.rows && t.rows[k] == t0.rows[k])
    && (forall i :: 0 <= i < |data| ==>
          NthId(counter, i) in t.rows && t.rows[NthId(counter, i)] == data[i]["id" := NthId(counter, i)])
  }

  /** The id the `i`-th appended participant receives. */
  function NthId(counter: nat, i: nat): Value {
    Int(counter + i)
  }

  lemma AppendedToStep(t0: Table, counter: nat, data: seq<Item>, t: Table, item: Item, d: seq<Item>)
    requires AppendedTo(t0, counter, data, t)
    requires d == data + [item]
    ensures var id := NthId(counter, |data|);
      AppendedTo(t0, counter, d, t.Put(id, item["id" := id]))
  {
    var id := NthId(counter, |data|);
    assert id !in t.rows;
    var rows := t.rows[id := item["id" := id]];
    assert t.Put(id, item["id" := id]) == Table(t.keys + [id], rows);
    assert Ids(counter, |d|) == Ids(counter, |data|) + [id];
    forall k | k in rows
      ensures k.Int? && k.i < counter + |d|
    {
      if k != id {
        assert k in t.rows;
      }
    }
    forall k | k in t0.rows
      ensures k in rows && rows[k] == t0.rows[k]
    {
      assert k in t.rows && k != id;
    }
    forall i | 0 <= i < |d|
      ensures NthId(counter, i) in rows && rows[NthId(counter, i)] == d[i]["id" := NthId(counter, i)]
    {
      if i < |data| {
        assert d[i] == data[i];
        assert NthId(counter, i) in t.rows && NthId(counter, i) != id;
      } else {
        assert d[i] == item;
      }
    }
  }

  /** The participants table after appending `data` one `add_component` at a time. */
  function AppendParticipants(t0: Table, counter: nat, data: seq<Item>): Table {
    if data == [] then t0
    else
      var id := Int(counter + |data| - 1);
      AppendParticipants(t0, counter, data[..|data| - 1]).Put(id, data[|data| - 1]["id" := id])
  }

  /**
   * Bulk-adding participants never fails, advances the counter by one per
   * item, changes only the participants table, and leaves it as
   * `AppendParticipants` describes.
   */
  lemma {:induction false} AddAllParticipantsTable(tables: map<string, Table>, counter: nat, data: seq<Item>)
    ensures var b := AddAll(tables, counter, PARTICIPANTS, data);
      && b.error == None
      && b.counter == counter + |data|
      && TableOf(b.tables, PARTICIPANTS) == AppendParticipants(TableOf(tables, PARTICIPANTS), counter, data)
      && (forall m :: m in tables && m != PARTICIPANTS ==> m in b.tables && b.tables[m] == tables[m])
  {
    if data != [] {
      var front := data[..|data| - 1];
      AddAllParticipantsTable(tables, counter, front);
      var b := AddAll(tables, counter, PARTICIPANTS, front);
      var id := Int(b.counter);
      var t := TableOf(b.tables, PARTICIPANTS).Put(id, data[|data| - 1]["id" := id]);
      assert AddItem(b.tables, b.counter, PARTICIPANTS, data[|data| - 1])
        == Ok(Added(b.tables[PARTICIPANTS := t], b.counter + 1, id));
      assert AddAll(tables, counter, PARTICIPANTS, data) == Bulk(b.tables[PARTICIPANTS := t], b.counter + 1, None);
    }
  }

  /** `AppendParticipants` appends the items under successive ids and keeps every earlier row. */
  lemma {:induction false} AppendParticipantsMeaning(t0: Table, counter: nat, data: seq<Item>)
    requires forall k :: k in t0.rows ==> k.Int? && k.i < counter
    ensures AppendedTo(t0, counter, data, AppendParticipants(t0, counter, data))
  {
    if data == [] {
      assert t0.keys + Ids(counter, 0) == t0.keys;
    } else {
      var front := data[..|data| - 1];
      AppendParticipantsMeaning(t0, counter, front);
      AppendedToStep(t0, counter, front, AppendParticipants(t0, counter, front), data[|data| - 1], data);
    }
  }

  // ---------------------------------------------------------------------------
  // The store's objects

  /** One conversation of the in-memory store: the dictionary `SimpleDataStore.data` holds per id. */
  class ConvRecord {
    var convId: string
    var draftConvId: Option<string>
    var timestamp: int
    var creator: string
    var subject: string
    var status: Status
    var ref: Option<string>
    var expiration: Option<int>
    var participantCounter: nat
    var updates: seq<Update>
    var locked: set<string>
    var tables: map<string, Table>

    /** Tables are well formed and participant ids were all drawn from the counter. */
    ghost predicate Valid()
      reads this
    {
      && TablesValid(tables)
      && forall k :: k in TableOf(tables, PARTICIPANTS).rows ==> k.Int? && 0 <= k.i < participantCounter
    }

    function Core(): CoreProperties
      reads this
    {
      CoreProperties(timestamp, status, ref, subject, creator, expiration)
    }

    constructor (convId: string, creator: string, timestamp: int, ref: Option<string>,
                 subject: string, status: Status)
      ensures Valid()
      ensures this.convId == convId && this.creator == creator && this.timestamp == timestamp
      ensures this.ref == ref && this.subject == subject && this.status == status
      ensures draftConvId == None && expiration == None
      ensures participantCounter == 0 && updates == [] && locked == {} && tables == map[]
    {
      this.convId := convId;
      this.creator := creator;
      this.timestamp := timestamp;
      this.ref := ref;
      this.subject := subject;
      this.status := status;
      draftConvId := None;
      expiration := None;
      participantCounter := 0;
      updates := [];
      locked := {};
      tables := map[];
    }
  }

  /** `SimpleDataStore`: conversations under successive counter ids. */
  class SimpleStore {
    var counter: nat
    var data: map<nat, ConvRecord>

    ghost predicate Valid()
      reads this
    {
      forall k: nat :: k in data <==> k < counter
    }

    /** The store is valid and so is every conversation it holds. */
    ghost predicate AllValid()
      reads this, data.Values
    {
      Valid() && forall r :: r in data.Values ==> r.Valid()
    }

    /** Record `k` is the first (oldest) conversation whose id is `convId`. */
    ghost predicate IsFirst(k: nat, convId: string)
      reads this, data.Values
    {
      && k in data && data[k].convId == convId
      && forall j: nat :: j < k && j in data ==> data[j].convId != convId
    }

    ghost predicate HasConv(convId: string)
      reads this, data.Values
    {
      exists k :: k in data && data[k].convId == convId
    }

    constructor ()
      ensures Valid() && AllValid() && counter == 0 && data == map[]
    {
      counter := 0;
      data := map[];
    }

    /**
     * `create_conversation`: the next counter id, a fresh record with an
     * empty update log, no locks and its own participant counter.
     */
    method CreateConversation(convId: string, creator: string, timestamp: int, ref: Option<string>,
                              subject: string, status: Status)
      returns (id: nat)
      requires AllValid()
      modifies this
      ensures AllValid()
      ensures id == old(counter) && counter == old(counter) + 1
      ensures id !in old(data) && data == old(data)[id := data[id]] && fresh(data[id])
      ensures var r := data[id];
        && r.convId == convId && r.creator == creator && r.timestamp == timestamp
        && r.ref == ref && r.subject == subject && r.status == status
        && r.draftConvId == None && r.expiration == None
        && r.participantCounter == 0 && r.updates == [] && r.locked == {} && r.tables == map[]
    {
      var r := new ConvRecord(convId, creator, timestamp, ref, subject, status);
      id := counter;
      data := data[id := r];
      counter := counter + 1;
    }

    /** `get_conv`: the oldest conversation with this id, or ConversationNotFound. */
    method GetConv(convId: string) returns (r: Result<ConvRecord>)
      requires Valid()
      ensures r.Ok? ==> exists k :: IsFirst(k, convId) && data[k] == r.value
      ensures r.Err? <==> !HasConv(convId)
      ensures r.Err? ==> r.error == ConversationNotFound
    {
      var i: nat := 0;
      while i < counter
        invariant i <= counter
        invariant forall j: nat :: j < i ==> data[j].convId != convId
      {
        if data[i].convId == convId {
          assert IsFirst(i, convId);
          return Ok(data[i]);
        }
        i := i + 1;
      }
      return Err(ConversationNotFound);
    }

    /** `new_conv_ds`: a handle on the conversation whose `conv` is the given id and whose `ds` is this store. */
    method NewConvDs(convId: string) returns (r: Result<ConvHandle>)
      requires Valid()
      ensures r.Ok? ==> (fresh(r.value) && r.value.ds == this && r.value.conv == convId
        && exists k :: IsFirst(k, convId) && data[k] == r.value.rec)
      ensures r.Err? <==> !HasConv(convId)
      ensures r.Err? ==> r.error == ConversationNotFound
    {
      var g := GetConv(convId);
      if g.Err? {
        return Err(g.error);
      }
      var h := new ConvHandle(this, convId, g.value);
      return Ok(h);
    }
  }

  /** `SimpleConversationDataStore`: the store's interface to one conversation. */
  class ConvHandle {
    const ds: SimpleStore
    const conv: string
    const rec: ConvRecord

    constructor (ds: SimpleStore, conv: string, rec: ConvRecord)
      ensures this.ds == ds && this.conv == conv && this.rec == rec
    {
      this.ds := ds;
      this.conv := conv;
      this.rec := rec;
    }

    /** `get_core_properties`: the record's time, status, ref and subject, among others. */
    function GetCoreProperties(): (c: CoreProperties)
      reads rec
      ensures c.timestamp == rec.timestamp && c.status == rec.status && c.ref == rec.ref
      ensures c.subject == rec.subject
    {
      rec.Core()
    }

    /** `get_status`: the status among the core properties, which is the record's own. */
    function GetStatus(): (s: Status)
      reads rec
      ensures s == rec.status
    {
      GetCoreProperties().status
    }

    /** `get_ref`: the ref among the core properties, which is the record's own. */
    function GetRef(): (r: Option<string>)
      reads rec
      ensures r == rec.ref
    {
      GetCoreProperties().ref
    }

    function GetSubject(): string
      reads rec
    {
      rec.subject
    }

    /** `save_event`: appends exactly one record to the update log. */
    method SaveEvent(a: Action, eventId: string, data: map<string, Value>)
      modifies rec`updates
      ensures rec.updates == old(rec.updates)
        + [Update(a.participantId, a.verb, a.component, a.item, data, a.timestamp, eventId)]
    {
      rec.updates := rec.updates + [Update(a.participantId, a.verb, a.component, a.item, data, a.timestamp, eventId)];
    }

    /**
     * `set_published_id`: the old id becomes the draft id; the new id and
     * timestamp are installed, and of the core properties only the
     * timestamp changes.
     */
    method SetPublishedId(newTimestamp: int, newId: string)
      modifies rec`draftConvId, rec`convId, rec`timestamp
      ensures rec.draftConvId == Some(old(rec.convId))
      ensures rec.convId == newId && rec.timestamp == newTimestamp
      ensures GetCoreProperties() == old(GetCoreProperties()).(timestamp := newTimestamp)
    {
      rec.draftConvId := Some(rec.convId);
      rec.convId := newId;
      rec.timestamp := newTimestamp;
    }

    /** `set_status`: `get_status` reads back the new status; the other core properties are kept. */
    method SetStatus(status: Status)
      modifies rec`status
      ensures rec.status == status
      ensures GetStatus() == status
      ensures GetCoreProperties() == old(GetCoreProperties()).(status := status)
    {
      rec.status := status;
    }

    /** `set_ref`: `get_ref` reads back the new ref; the other core properties are kept. */
    method SetRef(ref: string)
      modifies rec`ref
      ensures rec.ref == Some(ref)
      ensures GetRef() == Some(ref)
      ensures GetCoreProperties() == old(GetCoreProperties()).(ref := Some(ref))
    {
      rec.ref := Some(ref);
    }

    /** `set_subject`: `get_subject` reads back the new subject; the other core properties are kept. */
    method SetSubject(subject: string)
      modifies rec`subject
      ensures rec.subject == subject
      ensures GetSubject() == subject
      ensures GetCoreProperties() == old(GetCoreProperties()).(subject := subject)
    {
      rec.subject := subject;
    }

    /** `add_component` */
    method AddComponent(model: string, kwargs: Item) returns (r: Result<Value>)
      requires rec.Valid()
      modifies rec`tables, rec`participantCounter
      ensures rec.Valid()
      ensures var a := AddItem(old(rec.tables), old(rec.participantCounter), model, kwargs);
        && (a.Ok? ==> r == Ok(a.value.id) && rec.tables == a.value.tables
                      && rec.participantCounter == a.value.counter)
        && (a.Err? ==> r == Err(a.error) && rec.tables == old(rec.tables)
                       && rec.participantCounter == old(rec.participantCounter))
    {
      var a := AddItem(rec.tables, rec.participantCounter, model, kwargs);
      if a.Err? {
        return Err(a.error);
      }
      PutKeepsValid(TableOf(rec.tables, model), a.value.id, kwargs["id" := a.value.id]);
      rec.tables := a.value.tables;
      rec.participantCounter := a.value.counter;
      return Ok(a.value.id);
    }

    /** `edit_component` */
    method EditComponent(model: string, id: Value, kwargs: Item) returns (o: Outcome)
      requires rec.Valid()
      modifies rec`tables
      ensures rec.Valid()
      ensures var e := EditItem(old(rec.tables), model, id, kwargs);
        && (e.Ok? ==> o == Pass && rec.tables == e.value)
        && (e.Err? ==> o == Fail(e.error) && rec.tables == old(rec.tables))
    {
      var e := EditItem(rec.tables, model, id, kwargs);
      if e.Err? {
        return Fail(e.error);
      }
      rec.tables := e.value;
      return Pass;
    }

    /** `delete_component` */
    method DeleteComponent(model: string, id: Value) returns (o: Outcome)
      requires rec.Valid()
      modifies rec`tables
      ensures rec.Valid()
      ensures var e := DeleteItem(old(rec.tables), model, id);
        && (e.Ok? ==> o == Pass && rec.tables == e.value)
        && (e.Err? ==> o == Fail(e.error) && rec.tables == old(rec.tables))
    {
      var e := DeleteItem(rec.tables, model, id);
      if e.Err? {
        return Fail(e.error);
      }
      RemoveKeepsValid(rec.tables[model], id);
      rec.tables := e.value;
      return Pass;
    }

    /** `lock_component`: the item must exist; its key joins the locked set. */
    method LockComponent(model: string, id: Value) returns (o: Outcome)
      modifies rec`locked
      ensures o == Pass <==> model in rec.tables && id in rec.tables[model].rows
      ensures o.Fail? ==> o.error == ComponentNotFound && rec.locked == old(rec.locked)
      ensures o.Pass? ==> rec.locked == old(rec.locked) + {LockKey(model, id)}
    {
      if !(model in rec.tables && id in rec.tables[model].rows) {
        return Fail(ComponentNotFound);
      }
      rec.locked := rec.locked + {LockKey(model, id)};
      return Pass;
    }

    /** `unlock_component`: `set.remove`, a KeyError when the key is not there. */
    method UnlockComponent(model: string, id: Value) returns (o: Outcome)
      modifies rec`locked
      ensures o == Pass <==> LockKey(model, id) in old(rec.locked)
      ensures o.Fail? ==> o.error == KeyError && rec.locked == old(rec.locked)
      ensures o.Pass? ==> rec.locked == old(rec.locked) - {LockKey(model, id)}
    {
      if LockKey(model, id) !in rec.locked {
        return Fail(KeyError);
      }
      rec.locked := rec.locked - {LockKey(model, id)};
      return Pass;
    }

    /** `check_component_locked`: membership of the item's key in the locked set. */
    function CheckComponentLocked(model: string, id: Value): (b: bool)
      reads rec
      ensures b <==> LockKey(model, id) in rec.locked
    {
      LockKey(model, id) in rec.locked
    }

    /** `get_all_component_items`: the component's rows in insertion order, none for an absent component. */
    function GetAllComponentItems(model: string): (r: seq<Item>)
      requires rec.Valid()
      reads rec
      ensures model !in rec.tables ==> r == []
      ensures |r| == |TableOf(rec.tables, model).keys|
      ensures forall i :: 0 <= i < |r| ==> r[i] == TableOf(rec.tables, model).rows[TableOf(rec.tables, model).keys[i]]
    {
      Items(rec.tables, model)
    }

    /** `get_message_meta`: the message's author and timestamp; ComponentNotFound for an unknown message. */
    function GetMessageMeta(id: Value): (r: Result<Meta>)
      reads rec
      ensures id !in TableOf(rec.tables, MESSAGES).rows ==> r == Err(ComponentNotFound)
      ensures r.Ok? ==>
        && id in TableOf(rec.tables, MESSAGES).rows
        && "author" in TableOf(rec.tables, MESSAGES).rows[id]
        && "timestamp" in TableOf(rec.tables, MESSAGES).rows[id]
        && r.value == Meta(TableOf(rec.tables, MESSAGES).rows[id]["author"],
                           TableOf(rec.tables, MESSAGES).rows[id]["timestamp"])
    {
      MessageMeta(rec.tables, id)
    }

    function GetItemLastEvent(model: string, id: Value): Option<LastEvent>
      reads rec
    {
      LastEventOf(rec.updates, model, id)
    }

    /** The first message in insertion order; ComponentNotFound when there is none. */
    function GetFirstMessage(): (r: Result<Item>)
      requires rec.Valid()
      reads rec
      ensures r.Ok? <==> Items(rec.tables, MESSAGES) != []
      ensures r.Ok? ==> r.value == Items(rec.tables, MESSAGES)[0]
    {
      var ms := Items(rec.tables, MESSAGES);
      if ms == [] then Err(ComponentNotFound) else Ok(ms[0])
    }

    /** `get_participant`, scanning the participants in insertion order. */
    method GetParticipant(address: string) returns (r: Result<(Value, Value)>)
      requires rec.Valid()
      ensures r == FindParticipant(Items(rec.tables, PARTICIPANTS), address)
    {
      var ps := GetAllComponentItems(PARTICIPANTS);
      var i := 0;
      while i < |ps|
        invariant 0 <= i <= |ps|
        invariant FindParticipant(ps, address) == FindParticipant(ps[i..], address)
      {
        assert ps[i..][1..] == ps[i + 1..];
        var p := ps[i];
        if "address" !in p {
          return Err(KeyError);
        }
        if p["address"] == Str(address) {
          var id := Field(p, "id");
          if id.Err? {
            return Err(id.error);
          }
          var perm := Field(p, "permissions");
          if perm.Err? {
            return Err(perm.error);
          }
          return Ok((id.value, perm.value));
        }
        i := i + 1;
      }
      return Err(ComponentNotFound);
    }

    /** `export`, one loop over the participants and one over the messages. */
    method Export() returns (r: Result<ExportData>)
      requires rec.Valid()
      ensures r == ExportOf(rec.Core(), Items(rec.tables, PARTICIPANTS), Items(rec.tables, MESSAGES))
    {
      var core := GetCoreProperties();
      var ps := GetAllComponentItems(PARTICIPANTS);
      var shaped, lookup, participants := ExportParticipants(ps);
      if !shaped {
        return Err(KeyError);
      }
      var ms := GetAllComponentItems(MESSAGES);
      var messages := ExportMessages(lookup, ms);
      if messages.Err? {
        return Err(messages.error);
      }
      return Ok(ExportData(core, participants, messages.value));
    }

    /** `add_multiple_components`: `add_component` on each item, in list order. */
    method AddMultipleComponents(model: string, data: seq<Item>) returns (o: Outcome)
      requires rec.Valid()
      modifies rec`tables, rec`participantCounter
      ensures rec.Valid()
      ensures var b := AddAll(old(rec.tables), old(rec.participantCounter), model, data);
        && rec.tables == b.tables && rec.participantCounter == b.counter
        && (o.Pass? <==> b.error.None?)
        && (o.Fail? ==> b.error == Some(o.error))
    {
      var i := 0;
      while i < |data|
        invariant 0 <= i <= |data|
        invariant rec.Valid()
        invariant AddAll(old(rec.tables), old(rec.participantCounter), model, data[..i])
          == Bulk(rec.tables, rec.participantCounter, None)
      {
        AddAllNext(old(rec.tables), old(rec.participantCounter), model, data, i);
        var r := AddComponent(model, data[i]);
        if r.Err? {
          AddAllStops(old(rec.tables), old(rec.participantCounter), model, data, i + 1);
          return Fail(r.error);
        }
        i := i + 1;
      }
      assert data[..|data|] == data;
      return Pass;
    }
  }

  /** The participant loop of `export`: the id-to-address lookup and the (address, permissions) pairs. */
  method ExportParticipants(ps: seq<Item>) returns (shaped: bool, lookup: map<Value, Value>,
                                                   participants: seq<(Value, Value)>)
    ensures shaped == AllShaped(ps)
    ensures shaped ==> lookup == AddressLookup(ps) && participants == ParticipantPairs(ps)
  {
    lookup := map[];
    participants := [];
    var i := 0;
    while i < |ps|
      invariant 0 <= i <= |ps|
      invariant AllShaped(ps[..i])
      invariant lookup == AddressLookup(ps[..i])
      invariant participants == ParticipantPairs(ps[..i])
    {
      var p := ps[i];
      if !ParticipantShaped(p) {
        return false, lookup, participants;
      }
      ExportParticipantStep(ps, i);
      lookup := lookup[p["id"] := p["address"]];
      participants := participants + [(p["address"], p["permissions"])];
      i := i + 1;
    }
    assert ps[..|ps|] == ps;
    return true, lookup, participants;
  }

  /** The message loop of `export`: each author id replaced by that participant's address. */
  method ExportMessages(lookup: map<Value, Value>, ms: seq<Item>) returns (r: Result<seq<Item>>)
    ensures r == RewriteAuthors(lookup, ms)
  {
    var messages: seq<Item> := [];
    var j := 0;
    while j < |ms|
      invariant 0 <= j <= |ms|
      invariant RewriteAuthors(lookup, ms[..j]) == Ok(messages)
    {
      var m := ms[j];
      assert ms[..j + 1][..j] == ms[..j];
      if "author" !in m || m["author"] !in lookup {
        RewriteAuthorsStops(lookup, ms, j + 1);
        return Err(KeyError);
      }
      messages := messages + [m["author" := lookup[m["author"]]]];
      j := j + 1;
    }
    assert ms[..|ms|] == ms;
    return Ok(messages);
  }

  /** One more item of bulk insertion is one more `add_component` on the tables reached so far. */
  lemma AddAllNext(tables: map<string, Table>, counter: nat, model: string, data: seq<Item>, i: nat)
    requires i < |data|
    requires AddAll(tables, counter, model, data[..i]).error == None
    ensures var b := AddAll(tables, counter, model, data[..i]);
      AddAll(tables, counter, model, data[..i + 1]) ==
        match AddItem(b.tables, b.counter, model, data[i])
        case Ok(a) => Bulk(a.tables, a.counter, None)
        case Err(e) => Bulk(b.tables, b.counter, Some(e))
  {
    assert data[..i + 1][..i] == data[..i];
  }

  /** Once bulk insertion has failed, the items after the failure change nothing. */
  lemma {:induction false} AddAllStops(tables: map<string, Table>, counter: nat, model: string,
                                       data: seq<Item>, n: nat)
    requires n <= |data|
    requires AddAll(tables, counter, model, data[..n]).error.Some?
    ensures AddAll(tables, counter, model, data) == AddAll(tables, counter, model, data[..n])
    decreases |data| - n
  {
    if n < |data| {
      assert data[..n + 1][..n] == data[..n];
      AddAllStops(tables, counter, model, data, n + 1);
    } else {
      assert data[..n] == data;
    }
  }

  /** One more participant of `export`'s first loop. */
  lemma ExportParticipantStep(ps: seq<Item>, i: nat)
    requires i < |ps| && AllShaped(ps[..i]) && ParticipantShaped(ps[i])
    ensures AllShaped(ps[..i + 1])
    ensures AddressLookup(ps[..i + 1]) == AddressLookup(ps[..i])[ps[i]["id"] := ps[i]["address"]]
    ensures ParticipantPairs(ps[..i + 1]) == ParticipantPairs(ps[..i]) + [(ps[i]["address"], ps[i]["permissions"])]
  {
    assert ps[..i + 1][..i] == ps[..i];
  }

  /** Once a message cannot be rewritten, no longer prefix can. */
  lemma {:induction false} RewriteAuthorsStops(lookup: map<Value, Value>, ms: seq<Item>, n: nat)
    requires n <= |ms|
    requires RewriteAuthors(lookup, ms[..n]).Err?
    ensures RewriteAuthors(lookup, ms).Err?
  {
    assert forall i :: 0 <= i < n ==> ms[..n][i] == ms[i];
  }
}
